=== FILE: README.md ===
# TravelBuddy trip planner — a Dafny model

TravelBuddy plans a trip in three steps. A destination form collects the place, the dates and a trip length. A budget form collects the total budget, an accommodation tier, a food tier and a set of activity tags. The server then builds a day-by-day itinerary. Its budget split is fixed: percentages depend on the two tiers and every amount is rounded on its own. Its items come from OpenStreetMap, with built-in catalogs as fallback. Saved itineraries live in an in-memory store.

This project models that core as immutable datatypes and pure functions:

- **Budget** (`budget.dfy`): the tier percentages and the independently rounded allocation.
- **Mock** (`mock.dfy`): the attraction, accommodation and meal generators, with their catalog fallbacks.
- **Itinerary** (`itinerary.dfy`): the itinerary generator.
- **Handlers** (`handlers.dfy`): the HTTP routes for destinations, generation, saving, listing and reading back, including JavaScript's `Number` conversion of path and query text.
- **Storage** (`storage.dfy`): the in-memory store.
- **Schema** (`schema.dfy`): the shared form schemas.
- **Osm, Triposo, Geoapify, OpenTripMap, Yelp**: the transformations the five provider services apply to the answers they receive.
- **BudgetForm, DestinationForm, Planner, ItineraryDay**: the client's state transitions as functions from state to state. These are the two planner forms, the planner page wizard and the itinerary day card.

`Strings`, `Numbers` and `Wrappers` hold the JavaScript built-ins the code relies on: `split`, `trim`, `toLowerCase`, `parseInt`, `parseFloat`, `toFixed(1)`, `Math.round`, `Math.ceil`, `Math.random()` and `||` on strings.

Modelling conventions:

- **Percentages and multipliers** are exact integers over 100 or over 10.
- **`Math.round(x)`** is the integer nearest to the exact quotient, with halves going up.
- **A NaN** (an unknown tier indexing a price table, unparseable text) is `None`.
- **Each `Math.random()` draw** is an explicit real `r` with `0 <= r < 1`.
- **Each provider answer** is an input to the function that processes it.
- **Dates** are day ordinals in the generator and millisecond instants in the destination form. The generator receives what `new Date` made of the start date text: nothing, a day, or an invalid date.
- **Object-literal lookups** find the members every JavaScript object inherits. A destination named "constructor", "toString", "__proto__" or another such name therefore finds no catalog item, and the day build throws.

Where the code does something its UI or comments evidently do not intend, the model follows the code:

- **Allocation total.** The four budget amounts are rounded independently, so their sum can miss the total by one or two: 202 with "budget"/"budget" allocates 203.
- **Negative transportation.** The "luxury"/"fine" pair gets a negative transportation share (-5%).
- **Repeated activities.** A day's two activities are drawn independently and may be the same attraction.
- **Trip length is ignored.** The planner page never copies the destination step's `tripLength` into the request's `days`. The request keeps the initial 5 days.
- **India-specific activities never appear.** The page does not pass the destination to the budget step, so those activities are never offered.
- **Trip length is not capped.** The trip length computed from the dates is not capped at 30, so dates 30 days apart give 31 and block the step's submit.
- **Storage backend.** The routes are modelled over the in-memory store. The running server is wired to a database-backed store, which is not part of this model.

## Model

| member | source | states |
|---|---|---|
| Budget.AccommodationPercent | TravelBuddy/server/routes.ts:15-17 | accommodation share is 25 exactly for "budget", 45 exactly for "luxury", 35 for every other tier |
| Budget.FoodPercent | TravelBuddy/server/routes.ts:20-22 | food share is 15 exactly for "budget", 35 exactly for "fine", 25 otherwise |
| Budget.TransportationPercent | TravelBuddy/server/routes.ts:25-26 | transportation takes what the other three shares leave of 100 |
| Budget.Share | TravelBuddy/server/routes.ts:29-32 | each amount is the nearest integer to the exact share, halves up |
| Budget.GenerateBudgetAllocation | TravelBuddy/server/routes.ts:13-34 | every category is the nearest integer to its own exact share; nothing reconciles them |
| Budget.NearestShareUnique | TravelBuddy/server/routes.ts:29-32 | the rounded share is uniquely determined |
| Budget.MidRangeLocalExample | TravelBuddy/server/routes.ts:13-34 | 1500 with mid-range/local splits into 525/375/375/225 |
| Budget.SumNearTotal | TravelBuddy/server/routes.ts:28-33 | for every budget and tier pair the four amounts sum to within -1..+2 of the total |
| Budget.RoundedParts | TravelBuddy/server/routes.ts:28-33 | four nearest-rounded shares of percentages summing to 100 sum to within -1..+2 of the total |
| Budget.SumCanMissTotal | TravelBuddy/server/routes.ts:28-33 | 202 with budget/budget allocates 203 in total |
| Budget.TransportationPercentNegativeIff | TravelBuddy/server/routes.ts:15-26 | transportation percent is negative iff luxury accommodation with fine food, and then it is -5 |
| Budget.TransportationNegativeIff | TravelBuddy/server/routes.ts:26-32 | for every budget of at least 200 the transportation amount is negative iff luxury with fine |
| Mock.CityKeyOf | TravelBuddy/server/routes.ts:82 | the catalog entry is the destination's own only on an exact case-sensitive match. It is none iff the destination names a member every object inherits ("constructor", "toString", "__proto__", ...), and default for any other name |
| Mock.StayTierOf | TravelBuddy/server/routes.ts:131 | an unknown accommodation tier falls back to mid-range |
| Mock.FoodTierOf | TravelBuddy/server/routes.ts:206 | an unknown food tier falls back to local |
| Mock.Attractions | TravelBuddy/server/routes.ts:60-82 | every catalog entry's attraction list is non-empty |
| Mock.FoodCatalog | TravelBuddy/server/routes.ts:149-206 | every destination and tier has three priced meal options without a tier |
| Mock.ParisMenu | TravelBuddy/server/routes.ts:150-166 | the Paris menus are three priced options each |
| Mock.TokyoMenu | TravelBuddy/server/routes.ts:167-183 | the Tokyo menus are three priced options each |
| Mock.DefaultMenu | TravelBuddy/server/routes.ts:184-200 | the default menus are three priced options each |
| Mock.Pick | TravelBuddy/server/routes.ts:83 | a random pick from a non-empty list is an element of it |
| Mock.PickReachesEvery | TravelBuddy/server/routes.ts:83 | every element is picked by some draw |
| Mock.FromPoi | TravelBuddy/server/routes.ts:47-53 | an OSM point becomes an attraction with its name, description, cost, duration, and image or the default image |
| Mock.MockAttraction | TravelBuddy/server/routes.ts:36-84 | some fetched point when there are any. Otherwise an element of the destination's catalog list, or `undefined` (none) iff the destination is an inherited name |
| Mock.FromLodging | TravelBuddy/server/routes.ts:97-103 | an OSM accommodation becomes a stay whose cost is its nightly price |
| Mock.MockAccommodation | TravelBuddy/server/routes.ts:86-132 | a fetched accommodation when there are any. Otherwise the catalog stay of the destination and tier, or `undefined` (none) iff the destination is an inherited name |
| Mock.FromFoodPlace | TravelBuddy/server/routes.ts:142 | a fetched food place is used as it is, its tier kept |
| Mock.MockFood | TravelBuddy/server/routes.ts:134-208 | a fetched food place when there are any. Otherwise a tierless catalog option of the destination and tier, or a throw (none) iff the destination is an inherited name |
| Mock.LowerCaseCityUsesDefault | TravelBuddy/server/routes.ts:82 | "paris" is not "Paris": it gets an attraction from the default list |
| Mock.InheritedNameFindsNothing | TravelBuddy/server/routes.ts:82-83 | a destination named like an inherited member finds no catalog attraction, stay or meal, for every tier |
| Itinerary.DailyShares | TravelBuddy/server/routes.ts:225-228 | each daily share is the category amount divided by the day count, rounded |
| Itinerary.MakeMeal | TravelBuddy/server/routes.ts:263-267 | a meal keeps its food and is labelled by the food's own type when it has one, else by its slot |
| Itinerary.Title | TravelBuddy/server/routes.ts:258 | "Day ", the decimal digits of the day number, ": ", then the first activity's name |
| Itinerary.TitleDayNumber | TravelBuddy/server/routes.ts:258 | the digits in a title read back as its day number |
| Itinerary.Summary | TravelBuddy/server/routes.ts:275 | the summary names the destination, both activities and the accommodation |
| Itinerary.Generate | TravelBuddy/server/routes.ts:242-253 | the six generator calls fail iff the destination is an inherited name and some call finds no OpenStreetMap item. Otherwise every item comes from its own call's answer or from the catalog |
| Itinerary.MakeDay | TravelBuddy/server/routes.ts:255-276 | day i is numbered i+1 and dated start+i when the start date parsed. It has the two drawn activities and the stay with its cost as nightly price. The meals are breakfast, lunch and dinner. Transit is the daily transportation share, the daily cost is the sum of the four shares, and the title and summary are built from the day's items |
| Itinerary.AssembleDays | TravelBuddy/server/routes.ts:231-278 | the day loop stops with no itinerary iff some day's generator calls failed. Otherwise it pushes one day per result, in order, day k built from result k |
| Itinerary.GenerateItinerary | TravelBuddy/server/routes.ts:210-297 | fails iff the start date is invalid (`toISOString` throws) or some day's generators fail. Otherwise exactly `days` day records numbered 1..days, day k built from what day k's generator calls return. The top-level fields echo the request and the allocation is the server's |
| Itinerary.DailyRoundingLoss | TravelBuddy/server/routes.ts:225-228 | per-day rounding loses less than half a unit per category per day |
| Itinerary.DailyCostNearBudget | TravelBuddy/server/routes.ts:225-274 | daily cost times days stays within about two units a day of the total budget |
| Itinerary.ActivitiesMayRepeat | TravelBuddy/server/routes.ts:242-245 | two identical lookups give the same attraction twice in a day |
| Itinerary.ConstructorFailsOnFallback | TravelBuddy/server/routes.ts:82-83 | a day for "constructor" whose first attraction falls back to the catalog fails; a day whose every call finds OpenStreetMap items never fails |
| Itinerary.TransitNotPositiveForLuxuryFine | TravelBuddy/server/routes.ts:269-273 | with luxury and fine, every day's transit cost is zero or negative |
| Handlers.NumberOf | TravelBuddy/server/routes.ts:383 | blank text reads as 0 |
| Handlers.KeyOf | TravelBuddy/server/routes.ts:383-384 | a number names a record key iff it is whole, and then the key equals it |
| Handlers.Destinations | TravelBuddy/server/routes.ts:308-315 | answers 200 with every destination, each one what a lookup of its id returns |
| Handlers.RequestOf | TravelBuddy/server/routes.ts:211-219 | the generator sees the form's destination, country, preferences and date texts, and whole days and budget |
| Handlers.PathText | TravelBuddy/server/routes.ts:329-331 | a field prints as its dotted name and an activity element as `preferences.activities[i]` |
| Handlers.PathTextInjective | TravelBuddy/server/routes.ts:329-331 | two different failed checks never print as the same path, so the message tells them apart |
| Handlers.GenerateRoute | TravelBuddy/server/routes.ts:317-337 | 400 iff the form schema rejects the body, with a message naming the path of every failed check. 500 "Failed to generate itinerary" iff an accepted body has an invalid start date or a day whose generators fail. Otherwise 200 with `days` days, each built from that day's generated items, over the server allocation, with the date texts echoed |
| Handlers.Save | TravelBuddy/server/routes.ts:339-369 | missing payload gives 400 with the store unchanged. Otherwise 201 with a new record under the next id. The record has no owner, a country defaulting to "", null for empty dates, the payload kept whole and the timestamp. Validity is preserved |
| Handlers.DateText | TravelBuddy/server/routes.ts:348-349 | a stored date is never the empty string |
| Handlers.GetById | TravelBuddy/server/routes.ts:381-394 | 200 iff the parameter reads as a whole number naming a stored record, which is returned; otherwise 404 "Itinerary not found" |
| Handlers.List | TravelBuddy/server/routes.ts:371-379 | no, empty, zero or NaN query lists everything; otherwise exactly the records owned by that number |
| Handlers.NumberOfNatToString | TravelBuddy/server/routes.ts:383 | the decimal text of every natural number reads back as that number |
| Handlers.NumberOfDigits | TravelBuddy/server/routes.ts:383 | text of digits alone reads as the number the digits write |
| Handlers.UnsignedOfDigits | TravelBuddy/server/routes.ts:383 | a run of digits reads as the number it writes |
| Handlers.BlankIdNotFound | TravelBuddy/server/routes.ts:383-388 | a blank id parameter reads as 0 and gets 404 from a valid store |
| Handlers.TrailingTextIsNaN | TravelBuddy/server/routes.ts:383 | "1abc" is NaN, not id 1 |
| Handlers.SaveThenGetById | TravelBuddy/server/routes.ts:351-390 | a saved itinerary is read back by the decimal text of its id |
| Handlers.SavedRecordIsUnowned | TravelBuddy/server/routes.ts:360-374 | a saved record never appears in a list filtered by a user |
| Storage.Find | TravelBuddy/server/storage.ts:99-101 | a lookup succeeds iff some record carries the id, and returns such a record |
| Storage.Replace | TravelBuddy/server/storage.ts:115 | setting an existing key replaces that record in place and keeps all others |
| Storage.Remove | TravelBuddy/server/storage.ts:120 | deleting a key keeps exactly the records with other ids |
| Storage.RemoveValid | TravelBuddy/server/storage.ts:119-121 | deleting keeps ids increasing and below the counter |
| Storage.RemoveIncreasing | TravelBuddy/server/storage.ts:119-121 | deleting keeps ids strictly increasing |
| Storage.ReplaceValid | TravelBuddy/server/storage.ts:110-117 | replacing keeps every id |
| Storage.RemoveKeepsValid | TravelBuddy/server/storage.ts:119-121 | a valid table stays valid after a delete |
| Storage.AppendValid | TravelBuddy/server/storage.ts:103-108 | storing under the counter and moving it on keeps the table valid |
| Storage.Numbered | TravelBuddy/server/storage.ts:135-138 | seeded records get consecutive ids in list order |
| Storage.Init | TravelBuddy/server/storage.ts:38-48 | the store starts valid with no users or itineraries and seven destinations under ids 1..7. The next destination id is 8 and the other counters are 1 |
| Storage.GetUser | TravelBuddy/server/storage.ts:51-53 | found iff a user carries the id |
| Storage.FirstMatch | TravelBuddy/server/storage.ts:55-59 | the first record in insertion order that matches, or none iff none matches |
| Storage.GetUserByUsername | TravelBuddy/server/storage.ts:55-59 | a case-sensitive match; none iff no user has the name |
| Storage.CreateUser | TravelBuddy/server/storage.ts:61-66 | the user is stored under the current counter, which moves on; validity is preserved |
| Storage.CreateUserThenFind | TravelBuddy/server/storage.ts:55-66 | a user created under a fresh name is what a lookup of that name returns |
| Storage.GetDestination | TravelBuddy/server/storage.ts:73-75 | found iff a destination carries the id |
| Storage.GetDestinations | TravelBuddy/server/storage.ts:69-71 | every destination in order, each one what a lookup of its own id returns in a valid store |
| Storage.EachFound | TravelBuddy/server/storage.ts:69-75 | with increasing ids every record is found by its id |
| Storage.GetDestinationByName | TravelBuddy/server/storage.ts:77-81 | a case-insensitive match; none iff no name matches |
| Storage.CreateDestination | TravelBuddy/server/storage.ts:83-88 | stored under the current counter, which moves on; validity is preserved |
| Storage.SeededFoundByName | TravelBuddy/server/storage.ts:77-81 | "pARIS" finds Paris under id 1 in a fresh store |
| Storage.OfUser | TravelBuddy/server/storage.ts:94 | the filter keeps exactly the records whose owner is that user |
| Storage.OfUserAppend | TravelBuddy/server/storage.ts:92-94 | the filter keeps insertion order |
| Storage.GetItineraries | TravelBuddy/server/storage.ts:91-97 | a missing or zero user gives every itinerary; otherwise exactly that user's, ownerless records never matching |
| Storage.GetItinerary | TravelBuddy/server/storage.ts:99-101 | found iff an itinerary carries the id |
| Storage.CreateItinerary | TravelBuddy/server/storage.ts:103-108 | stored under the current counter, which moves on; the other tables are untouched; validity is preserved |
| Storage.Merge | TravelBuddy/server/storage.ts:114 | every key the patch carries wins and every other key keeps its value |
| Storage.MergeLaws | TravelBuddy/server/storage.ts:114 | merging an empty patch changes nothing and merging twice equals merging once |
| Storage.UpdateItinerary | TravelBuddy/server/storage.ts:110-117 | a missing id changes nothing and yields nothing. Otherwise the merged record replaces the old one under the same id and is returned. Validity is preserved |
| Storage.DeleteItinerary | TravelBuddy/server/storage.ts:119-121 | true iff the id was present; exactly that record goes |
| Storage.FindAt | TravelBuddy/server/storage.ts:99-101 | with increasing ids a lookup returns the unique record carrying the id |
| Storage.CreateThenGet | TravelBuddy/server/storage.ts:99-108 | reading back a created itinerary gives the input under its new id |
| Storage.DeleteThenGet | TravelBuddy/server/storage.ts:99-121 | after a delete the id is gone |
| Storage.DeleteThenCreateFresh | TravelBuddy/server/storage.ts:103-121 | ids are never reused, even after a delete |
| Storage.UpdateTouchesOnlyItsRecord | TravelBuddy/server/storage.ts:110-117 | an update leaves every other record and the other tables alone |
| Storage.FindPointwise | TravelBuddy/server/storage.ts:99-101 | tables agreeing on the records with an id answer that id's lookup alike |
| Storage.UpdateThenGet | TravelBuddy/server/storage.ts:110-117 | reading back an updated itinerary gives the merged record |
| Storage.ConsIncreasing | TravelBuddy/server/storage.ts:119-121 | a smaller id in front keeps ids increasing |
| Schema.Issues | TravelBuddy/shared/schema.ts:47-88 | a path is reported iff its check fails (`Schema.Fails`): destination under 3 characters, days outside [1, 30], budget under 200, an unknown tier, and each unknown activity at its own index. At most six field issues plus one per activity |
| Schema.ActivityIssues | TravelBuddy/shared/schema.ts:50-68 | the array check reports the index of every unknown activity and no other index |
| Schema.ValidIffNoIssues | TravelBuddy/shared/schema.ts:80-88 | a form is accepted iff the schema reports no issue |
| Schema.LooseFieldsAccepted | TravelBuddy/shared/schema.ts:82-85 | 2.5 days and unordered, malformed date texts pass |
| Schema.EmptyActivitiesAccepted | TravelBuddy/shared/schema.ts:50-86 | an empty activity list and a budget of a million pass |
| Osm.DefaultCategories | TravelBuddy/server/services/osm.ts:21-45 | eight base categories, plus six when the country is India in any case |
| Osm.Coordinate | TravelBuddy/server/services/osm.ts:163-164 | a coordinate is missing iff neither the element's own nor the centre's is non-zero |
| Osm.ToPoi | TravelBuddy/server/services/osm.ts:158-172 | a kept element's point carries its name, tags and non-zero coordinates |
| Osm.ProcessElements | TravelBuddy/server/services/osm.ts:155-179 | at most one point per element, all with non-zero coordinates |
| Osm.ProcessOsmResponse | TravelBuddy/server/services/osm.ts:147-182 | no elements gives no points; otherwise at most one point per element, all with non-zero coordinates |
| Osm.ProcessedAreKept | TravelBuddy/server/services/osm.ts:155-179 | every point comes from a named element with truthy coordinates |
| Osm.KeptAreProcessed | TravelBuddy/server/services/osm.ts:155-179 | every named element with truthy coordinates yields its point |
| Osm.ProcessElementsAppend | TravelBuddy/server/services/osm.ts:155-181 | input order is kept |
| Lists.FilterMap | TravelBuddy/server/services/osm.ts:155-179 | the push loop keeps at most one image per item |
| Lists.FilterMapSound | TravelBuddy/server/services/osm.ts:155-179 | every pushed item is the image of an item that passed the test |
| Lists.FilterMapComplete | TravelBuddy/server/services/osm.ts:155-179 | every item that passes the test has its image pushed |
| Lists.FilterMapAppend | TravelBuddy/server/services/osm.ts:155-179 | the loop over two lists in a row pushes the first list's images, then the second's |
| Osm.ZeroCoordinatesDropped | TravelBuddy/server/services/osm.ts:163-177 | a named element at (0, 0) with no centre is dropped |
| Osm.DeterminePoiType | TravelBuddy/server/services/osm.ts:187-210 | the first test that holds in source order decides; a named religion gives its place of worship; shop, then point_of_interest, when no test holds. tourism=attraction always wins, and point_of_interest iff no test holds |
| Osm.DescriptionParts | TravelBuddy/server/services/osm.ts:218-222 | at most four fragments, none empty |
| Osm.GenerateDescription | TravelBuddy/server/services/osm.ts:215-229 | an explicit description wins, the result is never empty, and with no describing tag it is "Point of interest" |
| Osm.DescriptionMentionsParts | TravelBuddy/server/services/osm.ts:215-229 | without an explicit description every fragment occurs in the description, which starts "Historic ..." for a historic tag |
| Osm.JoinNonEmpty | TravelBuddy/server/services/osm.ts:224-225 | joining non-empty fragments is empty iff there are none |
| Osm.AddressParts | TravelBuddy/server/services/osm.ts:235-245 | every address fragment is non-empty |
| Osm.FormatAddress | TravelBuddy/server/services/osm.ts:234-248 | empty iff none of street, city, postcode and country is present |
| Osm.HouseNumberNeedsStreet | TravelBuddy/server/services/osm.ts:237-241 | without a street the house number leaves no trace |
| Osm.FullAddress | TravelBuddy/server/services/osm.ts:237-247 | with every part present: "number street, city, postcode, country" |
| Osm.EstimateVisitDuration | TravelBuddy/server/services/osm.ts:254-263 | the first matching tag in source order decides, "1 hour" when none does; museums two to three hours |
| Osm.StatedFee | TravelBuddy/server/services/osm.ts:270-274 | a stated fee exists iff the fee:amount tag holds a digit; it is never negative |
| Osm.EstimateVisitCost | TravelBuddy/server/services/osm.ts:269-290 | a numeric stated fee wins. Otherwise fee=no or access=yes gives 0. Otherwise the first matching type in order decides: museum 15, gallery 12, castle 20, attraction 10, park or viewpoint 0, and anything else 10. Never negative |
| Osm.StatedFeeWhole | TravelBuddy/server/services/osm.ts:271-273 | a fee:amount whose first number is a whole digit run, after text without digits, costs that number |
| Osm.StatedFeeFraction | TravelBuddy/server/services/osm.ts:271-273 | a fee:amount whose first number is digits, a point and digits costs whole part plus fraction |
| Osm.AccommodationCategories | TravelBuddy/server/services/osm.ts:301-312 | budget, luxury and any other tier map to their tag lists |
| Osm.FoodCategories | TravelBuddy/server/services/osm.ts:413-424 | budget, fine and any other tier map to their tag lists |
| Osm.AccommodationBase | TravelBuddy/server/services/osm.ts:337-349 | a base price exists iff the tier is one of the three known ones |
| Osm.StarMultiplier | TravelBuddy/server/services/osm.ts:368-375 | with stars `parseInt` reads as s: s at most 2 gives 0.8, 3 gives 1.0, 4 gives 1.3, 5 or more gives 1.8. Missing or non-numeric stars give 1.0 |
| Osm.StarsAsParsed | TravelBuddy/server/services/osm.ts:368-375 | for any tags, `stars=0x10` reads as 16 and gives 1.8, and `stars=3.5` reads as 3 and gives 1.0 |
| Osm.EstimateAccommodationCost | TravelBuddy/server/services/osm.ts:335-383 | in India, heritage 180, then guest house 21, then ashram 24, bypassing the star logic. Otherwise the (Indian or general) tier base times the star multiplier times 1.2 when central, rounded. NaN iff no fixed price applies and the tier is unknown |
| Osm.FourStarCentralExample | TravelBuddy/server/services/osm.ts:368-382 | any mid-range property outside India with four stars and `location=city_center` costs 187 |
| Osm.IndiaCostsNoMore | TravelBuddy/server/services/osm.ts:335-383 | a stay in India never costs more than the same stay elsewhere |
| Osm.EstimateAccommodationRating | TravelBuddy/server/services/osm.ts:388-403 | numeric stars s give min(5, max(1, s)); stars that are not a number give NaN. Without stars: hotel 4.0, hostel 3.5, guest_house 3.7, apartment 4.2, else 3.8, first match in order |
| Osm.RatingOfWholeStars | TravelBuddy/server/services/osm.ts:389-392 | whole stars such as "4" rate as that number clamped to [1, 5] |
| Osm.RatingOfDecimalStars | TravelBuddy/server/services/osm.ts:389-392 | stars such as "3.5" rate as that number clamped to [1, 5] |
| Osm.CuisineMultiplier | TravelBuddy/server/services/osm.ts:469-493 | the first listed cuisine among the place's cuisines decides, 1.0 when none is listed or the tag is missing; fine_dining gives 2.0; always between 0.5 and 2.0 |
| Osm.FoodBase | TravelBuddy/server/services/osm.ts:455-466 | a base price exists iff the tier is known |
| Osm.EstimateFoodCost | TravelBuddy/server/services/osm.ts:453-496 | the rounded base times cuisine multiplier, NaN iff the tier is unknown |
| Osm.IndiaMealsCostNoMore | TravelBuddy/server/services/osm.ts:453-496 | a meal in India never costs more than the same meal elsewhere |
| Osm.CuisineLabel | TravelBuddy/server/services/osm.ts:430-432 | "Local cuisine" without a cuisine tag; otherwise no ";" and never longer than the tag, the entry pinned by CuisineLabelOfFirstEntry |
| Osm.CuisineLabelOfFirstEntry | TravelBuddy/server/services/osm.ts:430-432 | the label is the entry before the first ";" with its first "_" made a space |
| Osm.CuisineLabelUnderscore | TravelBuddy/server/services/osm.ts:430-432 | "a_b;..." is labelled "a b": only the first entry, only its first "_" |
| Osm.CuisineLabelFirstListed | TravelBuddy/server/services/osm.ts:430-432 | the first listed cuisine is the label |
| Osm.ToLodgings | TravelBuddy/server/services/osm.ts:317-325 | one accommodation per point, priced and rated from its tags |
| Osm.ToFoodPlace | TravelBuddy/server/services/osm.ts:428-442 | a food place keeps the point's name, address and position, carries the requested tier, the "cuisine restaurant/eatery" description and the estimated meal cost |
| Osm.ToFoodPlaces | TravelBuddy/server/services/osm.ts:428-443 | one food place per point, each with the requested tier |
| Triposo.LocationId | TravelBuddy/server/services/triposo.ts:86 | the lower-cased city, then "_" and the lower-cased country when one is given |
| Triposo.LocationIdSplits | TravelBuddy/server/services/triposo.ts:86 | splitting the id at "_" recovers both lower-cased parts |
| Triposo.PriceTierFilter | TravelBuddy/server/services/triposo.ts:90-100 | budget, luxury and any other tier map to their price tiers |
| Triposo.FirstImage | TravelBuddy/server/services/triposo.ts:187-189 | the first image, or the fallback when there is none |
| Triposo.PoiCost | TravelBuddy/server/services/triposo.ts:192-201 | tier k in 1..5 costs the k-th of 0/10/20/35/50, any other tier 0; positive iff the tier is 2..5 |
| Triposo.PoiDuration | TravelBuddy/server/services/triposo.ts:204-210 | the first rule whose label is present decides; one to two hours iff no label matches or there are no labels |
| Rules.FirstRule | TravelBuddy/server/services/triposo.ts:307-318 | the first rule whose label is present decides, the fallback iff none is present |
| Rules.FirstTagRule | TravelBuddy/server/services/osm.ts:187-210 | the first rule whose tag key and value the element holds decides, the fallback iff none is held |
| Triposo.DeterminePoiType | TravelBuddy/server/services/triposo.ts:307-319 | the first rule whose label is present decides; museums gives museum; "attraction" iff no rule matches |
| Triposo.ToAttraction | TravelBuddy/server/services/triposo.ts:212-224 | description falls back snippet, intro, default; tags default to []; cost, duration and type by their rules |
| Triposo.ProcessPois | TravelBuddy/server/services/triposo.ts:184-226 | one attraction per record, in order |
| Triposo.ProcessPoisAppend | TravelBuddy/server/services/triposo.ts:184-226 | processing is done record by record: a concatenation processes to the concatenated results |
| Triposo.LodgingCost | TravelBuddy/server/services/triposo.ts:238-252 | price tier k in 1..5 costs the k-th of 30/60/120/200/350. Without a valid price tier the requested tier decides: budget 50, luxury 250, else 100 |
| Triposo.RatingValue | TravelBuddy/server/services/triposo.ts:254-259 | within [1, 5]; half the score when it is from 2 to 10; 5 above 10; 1 for a non-zero score below 2; 3.5 for a missing or zero score |
| Triposo.ToLodging | TravelBuddy/server/services/triposo.ts:261-271 | description fallbacks, nightly price, and the rating as one-decimal text |
| Triposo.ProcessAccommodations | TravelBuddy/server/services/triposo.ts:231-273 | one hotel per record, in order |
| Triposo.RatingTextReadsBack | TravelBuddy/server/services/triposo.ts:255-266 | the rating text reads back as a number within [1, 5] |
| Triposo.Truthy | TravelBuddy/server/services/triposo.ts:298-299 | a non-empty text or null |
| Triposo.ToTour | TravelBuddy/server/services/triposo.ts:285-300 | cost is a truthy price amount else 0; duration and description fall back |
| Triposo.ProcessTours | TravelBuddy/server/services/triposo.ts:278-302 | one tour per record, in order |
| Triposo.ProcessToursAppend | TravelBuddy/server/services/triposo.ts:278-302 | processing is done tour by tour: a concatenation processes to the concatenated results |
| Geoapify.AccommodationCategories | TravelBuddy/server/services/geoapify.ts:30-41 | budget, luxury and other tiers map to their categories |
| Geoapify.FoodCategories | TravelBuddy/server/services/geoapify.ts:82-93 | budget, fine and other tiers map to their categories |
| Geoapify.LocationQuery | TravelBuddy/server/services/geoapify.ts:44-47 | "city, country" when a country is given, else the city |
| Geoapify.BaseNightly | TravelBuddy/server/services/geoapify.ts:132-146 | the nightly price lies in 40-69, 200-349 or 100-149 by tier |
| Geoapify.Rating | TravelBuddy/server/services/geoapify.ts:135-144 | a whole tenth within the tier's nine-tenths band |
| Geoapify.Locality | TravelBuddy/server/services/geoapify.ts:158-164 | the city when non-empty, else the suburb, else the empty text |
| Geoapify.AccommodationDescription | TravelBuddy/server/services/geoapify.ts:154-166 | the first of hotel.luxury, hotel, hostel and guest_house among the categories decides the "<kind> in <locality>" text. No such category, or no categories, give the place name |
| Geoapify.ToLodging | TravelBuddy/server/services/geoapify.ts:124-186 | cost equals nightly price, which is the base price or 60% of it rounded in India; rating in its band |
| Geoapify.Accommodations | TravelBuddy/server/services/geoapify.ts:58-62 | no features give none; otherwise one per feature, in order |
| Geoapify.BudgetNightlyRange | TravelBuddy/server/services/geoapify.ts:134-150 | a budget stay costs 40-69, or 24-41 in India |
| Geoapify.BaseMeal | TravelBuddy/server/services/geoapify.ts:199-210 | the meal price lies in 5-9, 40-69 or 15-24 by tier |
| Geoapify.FirstWithPrefix | TravelBuddy/server/services/geoapify.ts:220-227 | the first category with the prefix, or none iff no category has it |
| Geoapify.RestaurantLabel | TravelBuddy/server/services/geoapify.ts:222-224 | the category after the prefix, capitalised, with its first "_" a space |
| Geoapify.CuisineLabel | TravelBuddy/server/services/geoapify.ts:217-228 | "Local cuisine" without categories, else the first restaurant category's label |
| Geoapify.CuisineLabelOfOneCategory | TravelBuddy/server/services/geoapify.ts:217-228 | a single restaurant category "catering.restaurant.x" labels as "X" |
| Geoapify.ToFoodPlace | TravelBuddy/server/services/geoapify.ts:193-247 | tier and "label restaurant" description; the base meal price, halved and rounded in India |
| Geoapify.FoodPlaces | TravelBuddy/server/services/geoapify.ts:110-114 | no features give none; otherwise one per feature, in order |
| OpenTripMap.HyphenateWhitespace | TravelBuddy/server/services/opentripmap.ts:44 | no white space survives, the text never grows, lower case is kept; pinned by WhitespaceRunHyphen and KeptCharacter |
| OpenTripMap.WhitespaceRunHyphen | TravelBuddy/server/services/opentripmap.ts:44 | a whole white-space run, however long, becomes one hyphen |
| OpenTripMap.KeptCharacter | TravelBuddy/server/services/opentripmap.ts:44 | every other character is kept in place |
| OpenTripMap.LocationIdOf | TravelBuddy/server/services/opentripmap.ts:44 | the id is lower case without white space; pinned by LocationIdOfRun and LocationIdOfKept |
| OpenTripMap.LocationIdOfRun | TravelBuddy/server/services/opentripmap.ts:44 | a white-space run in a name becomes one hyphen in its id |
| OpenTripMap.LocationIdOfKept | TravelBuddy/server/services/opentripmap.ts:44 | every other character of the name is kept, lower-cased |
| OpenTripMap.NameFromId | TravelBuddy/server/services/opentripmap.ts:70 | every hyphen becomes a space, nothing else changes |
| OpenTripMap.RoundTripNeedsLowerWithoutHyphen | TravelBuddy/server/services/opentripmap.ts:44-70 | a name that survives id and back is lower case without hyphens |
| OpenTripMap.RoundTripOfPlainName | TravelBuddy/server/services/opentripmap.ts:44-70 | lower-case names with single spaces and no hyphens survive the round trip |
| OpenTripMap.PlainHyphenated | TravelBuddy/server/services/opentripmap.ts:44-70 | single spaces come back from their hyphens |
| OpenTripMap.GeonameQuery | TravelBuddy/server/services/opentripmap.ts:26-29 | "destination, country" when a country is given |
| OpenTripMap.LocationInfo | TravelBuddy/server/services/opentripmap.ts:38-51 | no answer gives no location; otherwise one whose id derives from the answered name |
| OpenTripMap.KindOf | TravelBuddy/server/services/opentripmap.ts:175-194 | an unknown tag passes through unchanged |
| OpenTripMap.MapTagsToKinds | TravelBuddy/server/services/opentripmap.ts:174-196 | never empty; every tag's kinds occur in it; no tags, or one empty tag, give "interesting_places" |
| OpenTripMap.Kinds | TravelBuddy/server/services/opentripmap.ts:194 | one entry per tag: the table entry, or the tag itself |
| OpenTripMap.MapTagsToKindsPieces | TravelBuddy/server/services/opentripmap.ts:194-195 | the comma-separated kinds of the result are exactly the pieces of every tag's kinds, in order, so nothing else appears |
| OpenTripMap.FirstKind | TravelBuddy/server/services/opentripmap.ts:204-211 | the first listed kind found as a substring, or none iff none is found |
| OpenTripMap.Rule | TravelBuddy/server/services/opentripmap.ts:201-211 | the deciding rule is one of the listed ones |
| OpenTripMap.EstimateCost | TravelBuddy/server/services/opentripmap.ts:201-214 | the first listed kind found in the kinds decides: museums 15, historic 10, amusements 30, zoos 20, religion, natural, beaches and gardens 0. No kind found, or no kinds, give 10 |
| OpenTripMap.EstimateDuration | TravelBuddy/server/services/opentripmap.ts:219-232 | the first listed kind found in the kinds decides its duration; "1 hour" when none is found or there are no kinds; museums two to three hours |
| OpenTripMap.FreeIffNatureOrReligion | TravelBuddy/server/services/opentripmap.ts:204-211 | free iff the deciding kind is religion, natural, beaches or gardens and parks |
| OpenTripMap.PlaceDetails | TravelBuddy/server/services/opentripmap.ts:139-164 | description fallbacks, tags split from kinds or [], cost and duration from the kinds |
| OpenTripMap.SearchKinds | TravelBuddy/server/services/opentripmap.ts:79-82 | "interesting_places" without tags; never empty |
| OpenTripMap.Details | TravelBuddy/server/services/opentripmap.ts:103-112 | a feature without an xid or without details is skipped. Every other feature's details appear, and every point comes from such a feature. At most one point per feature, one each when all are found |
| OpenTripMap.DetailsAppend | TravelBuddy/server/services/opentripmap.ts:104-112 | feature order is kept |
| OpenTripMap.PointsOfInterest | TravelBuddy/server/services/opentripmap.ts:66-119 | no location or no features give none; at most `count` points |
| OpenTripMap.PointsOfInterestPrefix | TravelBuddy/server/services/opentripmap.ts:104-112 | a larger count keeps the earlier points as a prefix |
| Yelp.Location | TravelBuddy/server/services/yelp.ts:29 | "city, country" when a country is given, else the city |
| Yelp.PriceFilter | TravelBuddy/server/services/yelp.ts:32-44 | budget "1,2", fine "3,4", anything else "1,2,3" |
| Yelp.CategoryFilter | TravelBuddy/server/services/yelp.ts:47-50 | gourmet is searched iff the tier is fine |
| Yelp.Cost | TravelBuddy/server/services/yelp.ts:121-133 | "$" to "$$$$" give 10/20/40/80; any other non-empty price text gives 20; a missing or empty price falls back to the tier's 10/60/20 |
| Yelp.CostDoublesPerDollar | TravelBuddy/server/services/yelp.ts:122-128 | each extra dollar sign doubles the cost from 10 |
| Yelp.Description | TravelBuddy/server/services/yelp.ts:136-139 | the first category's title plus " restaurant", else "Local cuisine restaurant" |
| Yelp.ToRestaurant | TravelBuddy/server/services/yelp.ts:141-159 | tier, cost and description by the rules, and every address line occurs in the address |
| Yelp.ProcessRestaurants | TravelBuddy/server/services/yelp.ts:118-161 | one restaurant per business, in order |
| BudgetForm.Initial | TravelBuddy/client/src/components/trip-planner/budget-form.tsx:24-35 | each default when truthy, else 1500, mid-range, local, sightseeing and cultural; an empty activity list stays empty |
| BudgetForm.SetBudget | TravelBuddy/client/src/components/trip-planner/budget-form.tsx:49-52 | the slider value becomes the budget and nothing else changes |
| BudgetForm.SelectAccommodation | TravelBuddy/client/src/components/trip-planner/budget-form.tsx:54-57 | only the accommodation changes |
| BudgetForm.SelectFood | TravelBuddy/client/src/components/trip-planner/budget-form.tsx:59-62 | only the food tier changes |
| BudgetForm.Without | TravelBuddy/client/src/components/trip-planner/budget-form.tsx:67 | the tag is gone, no item is added, and the list keeps its length iff the tag was absent |
| BudgetForm.WithoutContents | TravelBuddy/client/src/components/trip-planner/budget-form.tsx:67 | the filter keeps exactly the other tags |
| BudgetForm.Toggle | TravelBuddy/client/src/components/trip-planner/budget-form.tsx:64-76 | a chosen tag is removed everywhere, others kept; an unchosen one is appended at the end |
| BudgetForm.ToggleActivity | TravelBuddy/client/src/components/trip-planner/budget-form.tsx:64-76 | only the activity list changes |
| BudgetForm.WithoutAppend | TravelBuddy/client/src/components/trip-planner/budget-form.tsx:67 | the filter keeps order |
| BudgetForm.ToggleTwiceAbsent | TravelBuddy/client/src/components/trip-planner/budget-form.tsx:64-76 | toggling an unchosen tag twice restores the list |
| BudgetForm.ToggleTwicePresent | TravelBuddy/client/src/components/trip-planner/budget-form.tsx:64-76 | toggling a chosen tag twice moves it, deduplicated, to the end |
| BudgetForm.Preview | TravelBuddy/client/src/components/trip-planner/budget-form.tsx:79-100 | non-negative amounts for a non-negative budget; the activities share is the budget divided by four, rounded |
| BudgetForm.PreviewMatchesServer | TravelBuddy/client/src/components/trip-planner/budget-form.tsx:79-100 | the preview equals the server's allocation |
| BudgetForm.HandleSubmit | TravelBuddy/client/src/components/trip-planner/budget-form.tsx:104-112 | an empty list becomes sightseeing. The values go through iff the budget is at least 200 and the preferences are valid. What goes through has at least one activity |
| BudgetForm.SliderBudgetSubmits | TravelBuddy/client/src/components/trip-planner/budget-form.tsx:11-14 | every slider budget with known tiers and tags submits |
| BudgetForm.OfferedTags | TravelBuddy/client/src/components/trip-planner/budget-form.tsx:270-315 | six general tags, plus the six India tags iff the destination mentions india in any case |
| BudgetForm.OfferedTagsValid | TravelBuddy/client/src/components/trip-planner/budget-form.tsx:270-315 | every offered tag is one the schema accepts |
| DestinationForm.Initial | TravelBuddy/client/src/components/trip-planner/destination-form.tsx:43-55 | each default when truthy, else "" or 5 days |
| DestinationForm.Opened | TravelBuddy/client/src/components/trip-planner/destination-form.tsx:43-73 | after mounting, with both initial dates known their day count replaces the passed trip length; otherwise the initial state stands |
| DestinationForm.TripLength | TravelBuddy/client/src/components/trip-planner/destination-form.tsx:63-66 | at least 1, and the whole days the gap spans plus one |
| DestinationForm.AfterDates | TravelBuddy/client/src/components/trip-planner/destination-form.tsx:58-73 | both dates set gives the trip length, with no guard ever stopping it; otherwise the previous value stays |
| DestinationForm.TripLengthSymmetric | TravelBuddy/client/src/components/trip-planner/destination-form.tsx:65 | independent of date order |
| DestinationForm.TripLengthWholeDays | TravelBuddy/client/src/components/trip-planner/destination-form.tsx:63-66 | n whole days apart gives n+1, equal dates 1 |
| DestinationForm.SetTripLength | TravelBuddy/client/src/components/trip-planner/destination-form.tsx:81-85 | the slider value becomes the trip length and nothing else changes |
| DestinationForm.SetDates | TravelBuddy/client/src/components/trip-planner/destination-form.tsx:58-73 | date texts stored and the trip length recomputed from them |
| DestinationForm.SelectDestination | TravelBuddy/client/src/components/trip-planner/destination-form.tsx:87-90 | the field becomes "name, country" and nothing else changes |
| DestinationForm.Submit | TravelBuddy/client/src/components/trip-planner/destination-form.tsx:19-24 | submits iff the destination has three characters and the trip length is 1..30 |
| DestinationForm.LongTripBlocksSubmit | TravelBuddy/client/src/components/trip-planner/destination-form.tsx:58-73 | dates 30 days apart give 31 and the submit is refused |
| DestinationForm.SelectedDestinationLongEnough | TravelBuddy/client/src/components/trip-planner/destination-form.tsx:87-90 | a picked popular destination always meets the length check |
| Planner.StepNumber | TravelBuddy/client/src/pages/home.tsx:16-20 | steps are numbered 1 to 3 |
| Planner.Initial | TravelBuddy/client/src/pages/home.tsx:25-35 | destination step with 5 days, 1500, and no destination or itinerary yet |
| Planner.CountryOf | TravelBuddy/client/src/pages/home.tsx:55-59 | the country has no comma and no surrounding white space, and there is none without a comma |
| Planner.CountryOfSelected | TravelBuddy/client/src/pages/home.tsx:55-59 | "name, country" gives back the country |
| Planner.CountryOfTwoParts | TravelBuddy/client/src/pages/home.tsx:55-59 | two segments give the trimmed second |
| Planner.CountryOfManyParts | TravelBuddy/client/src/pages/home.tsx:55-59 | with three segments only the trimmed second counts |
| Planner.SubmitDestination | TravelBuddy/client/src/pages/home.tsx:53-67 | submitted keys and country laid over the form data, days kept, step moves to budget |
| Planner.SubmitBudget | TravelBuddy/client/src/pages/home.tsx:69-77 | budget and preferences laid over the form data, which is both stored and sent; nothing else changes |
| Planner.GenerationSucceeded | TravelBuddy/client/src/pages/home.tsx:40-43 | the itinerary is stored and the results step shown |
| Planner.GenerationFailed | TravelBuddy/client/src/pages/home.tsx:44-50 | the page stays as it was |
| Planner.BackToDestination | TravelBuddy/client/src/pages/home.tsx:79-81 | back to the destination step, data kept |
| Planner.BackToBudget | TravelBuddy/client/src/pages/home.tsx:83-85 | back to the budget step, data kept |
| Planner.DestinationDefaults | TravelBuddy/client/src/pages/home.tsx:165-169 | the destination step opens on the page's destination, dates and trip length |
| Planner.ReopenedStepUsesDates | TravelBuddy/client/src/pages/home.tsx:165-169 | going back with both dates set reopens the step on their day count, not on the stored trip length |
| Planner.BudgetFormFor | TravelBuddy/client/src/pages/home.tsx:173-178 | the budget step gets no destination |
| Planner.IndiaTagsNeverOffered | TravelBuddy/client/src/pages/home.tsx:173-178 | only the six general activities are ever offered |
| Planner.RequestDaysStayFive | TravelBuddy/client/src/pages/home.tsx:53-77 | the request keeps 5 days whatever trip length was chosen |
| Planner.PickPopularThenContinue | TravelBuddy/client/src/pages/home.tsx:53-67 | picking a popular destination and continuing gives its country and the default budget step |
| Planner.Progress | TravelBuddy/client/src/pages/home.tsx:98-106 | 100 for bars before the current step, 0 for bars after it; the current step's own bar is 0 on the destination step, 50 on the budget step and 100 on the results step |
| Planner.ProgressMonotone | TravelBuddy/client/src/pages/home.tsx:98-106 | bars only fill as the page moves forward |
| Planner.ProgressOrdered | TravelBuddy/client/src/pages/home.tsx:98-106 | an earlier bar is never less full than a later one |
| ItineraryDay.Ceil | TravelBuddy/client/src/components/trip-planner/itinerary-day.tsx:69 | the least integer not below the value |
| ItineraryDay.FractionOf | TravelBuddy/client/src/components/trip-planner/itinerary-day.tsx:66 | `% 1` is the fractional part for non-negative values |
| ItineraryDay.StarsOf | TravelBuddy/client/src/components/trip-planner/itinerary-day.tsx:63-71 | renders iff the rating is within [0, 5]. Full stars are floor(rating), there is a half star iff the rating is fractional, and empty stars are 5 - ceil(rating) |
| ItineraryDay.StarsFillFive | TravelBuddy/client/src/components/trip-planner/itinerary-day.tsx:63-71 | full, half and empty stars make five |
| ItineraryDay.FourAndAHalf | TravelBuddy/client/src/components/trip-planner/itinerary-day.tsx:63-71 | 4.5 shows four full stars and a half |
| ItineraryDay.Header | TravelBuddy/client/src/components/trip-planner/itinerary-day.tsx:37 | a title without a colon shows whole; the other cases are HeaderSecondPiece and HeaderEmptySecondPiece |
| ItineraryDay.HeaderOfGeneratedTitle | TravelBuddy/client/src/components/trip-planner/itinerary-day.tsx:37 | a generated "Day n: name" title shows " name" |
| ItineraryDay.HeaderSecondPiece | TravelBuddy/client/src/components/trip-planner/itinerary-day.tsx:37 | a non-empty text between the first colon and the next one, or the end, is the header |
| ItineraryDay.HeaderEmptySecondPiece | TravelBuddy/client/src/components/trip-planner/itinerary-day.tsx:37 | an empty text there shows the whole title |
| ItineraryDay.HeaderOfColonName | TravelBuddy/client/src/components/trip-planner/itinerary-day.tsx:37 | a generated title whose name holds a colon shows the name only up to that colon |
| ItineraryDay.CostLabelOf | TravelBuddy/client/src/components/trip-planner/itinerary-day.tsx:144 | "Free" iff the cost is at most 0 |
| ItineraryDay.MainArea | TravelBuddy/client/src/components/trip-planner/itinerary-day.tsx:180 | the first activity's name, else "Various Locations" |
| ItineraryDay.MainAreaOfGeneratedDay | TravelBuddy/client/src/components/trip-planner/itinerary-day.tsx:180 | a generated day's main area is its first attraction |
| ItineraryDay.InitiallyExpanded | TravelBuddy/client/src/components/trip-planner/itinerary-day.tsx:11-12 | expanded at first iff `isOpen` is true |
| ItineraryDay.AfterClicks | TravelBuddy/client/src/components/trip-planner/itinerary-day.tsx:14-16 | no clicks leave the card as it was, and every further click flips it |
| ItineraryDay.ClicksParity | TravelBuddy/client/src/components/trip-planner/itinerary-day.tsx:14-16 | an even number of clicks restores the card, an odd one flips it |
| Numbers.Round | TravelBuddy/server/routes.ts:29-32 | `Math.round` of a quotient: within half of it, halves up |
| Numbers.RoundReal | TravelBuddy/server/services/osm.ts:382 | `Math.round` of an exact real |
| Numbers.CeilDiv | TravelBuddy/client/src/components/trip-planner/destination-form.tsx:66 | `Math.ceil` of a quotient |
| Numbers.RandomBelow | TravelBuddy/server/routes.ts:44 | a draw scaled and floored is an index below the length |
| Numbers.FirstDecimal | TravelBuddy/server/services/osm.ts:272-273 | the first decimal number in the text is non-negative, and there is none iff the text has no digit; its value is FirstDecimalWhole and FirstDecimalFraction |
| Numbers.FirstDecimalSkip | TravelBuddy/server/services/osm.ts:272 | text without digits before the match does not change it |
| Numbers.FirstDecimalWhole | TravelBuddy/server/services/osm.ts:272-273 | a whole first number reads as its digits' value |
| Numbers.FirstDecimalFraction | TravelBuddy/server/services/osm.ts:272-273 | a first number with a fraction reads as whole part plus digits over a power of ten |
| Numbers.ParseIntOfNatToString | TravelBuddy/server/services/osm.ts:370 | `parseInt` reads back every natural number's text |
| Numbers.ParseInt | TravelBuddy/server/services/osm.ts:370 | only a minus sign gives a negative result, and text starting with a decimal digit and no `0x` always reads as a number |
| Numbers.ParseIntHex | TravelBuddy/server/services/osm.ts:370 | without a radix "0x10" reads as 16 |
| Numbers.ParseIntOfDigits | TravelBuddy/server/services/osm.ts:370 | a run of decimal digits reads as the number it writes |
| Numbers.ParseFloat | TravelBuddy/server/services/osm.ts:390 | only a minus sign gives a negative result, and text starting with a digit always reads as a number; values by ParseFloatOfDigits and ParseFloatOfDecimal |
| Numbers.ParseFloatOfDigits | TravelBuddy/server/services/osm.ts:390 | a digit run such as "4" reads as the number it writes |
| Numbers.ParseFloatOfDecimal | TravelBuddy/server/services/osm.ts:390 | "3.75" reads as 3 + 75/100 |
| Numbers.ParseFloatAtDigit | TravelBuddy/server/services/osm.ts:390 | text starting with a digit is read from its start |
| Numbers.UnsignedWhole | TravelBuddy/server/services/osm.ts:390 | digits followed by text that does not continue the number read as the digits |
| Numbers.UnsignedFraction | TravelBuddy/server/services/osm.ts:390 | digits, a point and digits read as whole part plus fraction |
| Numbers.ToFixed1ReadsBack | TravelBuddy/server/services/triposo.ts:266 | one-decimal text reads back as the nearest tenth |
| Numbers.ToFixed1 | TravelBuddy/server/services/triposo.ts:266 | one digit after the point, and a leading "-" iff the value is negative |
| Strings.ToLower | TravelBuddy/server/storage.ts:79 | same length, each ASCII capital lower-cased and every other character kept |
| Strings.Capitalize | TravelBuddy/server/services/geoapify.ts:224 | only the first character is upper-cased, ASCII letters only |
| Strings.Split | TravelBuddy/client/src/pages/home.tsx:56 | at least one piece |
| Strings.SplitPiecesFree | TravelBuddy/client/src/pages/home.tsx:56 | no piece contains the separator |
| Strings.Join | TravelBuddy/server/services/osm.ts:225 | an empty list of parts joins to the empty text, and the join is at least as long as every part |
| Strings.JoinEnds | TravelBuddy/server/services/osm.ts:225 | the join starts with the first part and ends with the last |
| Strings.JoinContainsPart | TravelBuddy/server/routes.ts:329-331 | every part occurs in the join |
| Strings.JoinSplit | TravelBuddy/client/src/pages/home.tsx:56 | joining the pieces with the separator gives the text back |
| Strings.SplitJoin | TravelBuddy/client/src/pages/home.tsx:56 | splitting a join of separator-free pieces gives the pieces back |
| Strings.SplitConcat | TravelBuddy/server/services/opentripmap.ts:194 | splitting at a separator between two texts splits each |
| Strings.JoinAppend | TravelBuddy/server/services/opentripmap.ts:194 | joining two lists is joining each with one separator between |
| Strings.SplitEachMember | TravelBuddy/server/services/opentripmap.ts:194 | a piece of the pieces of all parts is a piece of some part, and back |
| Strings.SplitJoinEach | TravelBuddy/server/services/opentripmap.ts:194 | splitting a join gives every part's pieces in order |
| Strings.TrimStartRun | TravelBuddy/server/services/opentripmap.ts:44 | trimStart removes exactly a leading white-space run |
| Strings.ReplaceFirst | TravelBuddy/server/services/geoapify.ts:223 | only the first occurrence is replaced |
| Strings.ReplaceAll | TravelBuddy/server/services/opentripmap.ts:70 | every occurrence is replaced |
| Strings.TrimStart | TravelBuddy/client/src/pages/home.tsx:58 | only leading white space is removed |
| Strings.TrimEnd | TravelBuddy/client/src/pages/home.tsx:58 | only trailing white space is removed |
| Strings.Trim | TravelBuddy/client/src/pages/home.tsx:58 | the stretch of the text that starts after its leading white space, with no white space at either end and only white space after it |
| Strings.TrimmedFixed | TravelBuddy/client/src/pages/home.tsx:58 | text without white space at either end is kept as it is |
| Wrappers.OrString | TravelBuddy/server/routes.ts:353 | `x || fallback` on text: the value when present and non-empty, else the fallback |
| Numbers.ParseFloatOfTenths | TravelBuddy/server/services/triposo.ts:266 | one-decimal text of n tenths reads back as exactly n/10 |
| Strings.NatToString | TravelBuddy/server/routes.ts:258 | a non-empty run of decimal digits |

## Left out

- Network I/O is not modelled. This covers the axios requests to Overpass, Nominatim, Triposo, Geoapify, OpenTripMap and Yelp, the Overpass query text, the Nominatim fallback, and their error handling, which answers `[]` or `null`. Each provider's answer is an input instead, and a failed request is the empty answer.
- The Triposo destination-info, day-plan and details calls and the Yelp details and reviews calls are not modelled. They pass the provider's answer through unchanged.
- The database-backed store and its migration are not modelled because they wrap SQL. The running server uses them; the routes are modelled over the in-memory store. The Indian-destination seeding at route registration belongs to the database store.
- Floating point is not modelled; all arithmetic is exact. Binary rounding artefacts at exact halves are out of scope.
- `Math.random` is not modelled. Every draw is a parameter, and the random review count on the day card is decoration.
- JavaScript `Date`, ISO and locale date formatting, and `Intl.NumberFormat` currency text are not modelled. Dates are day ordinals or millisecond instants, without time zones.
- Image URLs, coordinates, Google Maps links, ids and other pass-through fields of provider records are carried as opaque values or dropped. They take part in no rule.
- Express wiring, async sequencing, the 500 answers of the handlers other than generation, and the internals of zod, react-hook-form and React state are not modelled. Only the predicates and transitions they implement are.
- `budgetAllocationSchema` is not modelled: it accepts any four numbers, and the model's allocation is four integers. `Budget.TransportationNegativeIff` shows the negative amounts it lets through.
- The confirmation toast and navigation of the finished plan are not modelled. The results step, the itinerary page, headers, footers, cards and sliders are pure presentation.
- The popular-destination query of the destination step is network I/O. Only the selection of one destination is modelled.
- Handlers.GenerateRoute: requires a whole day count and a whole budget. The schema also admits fractional ones, but the generator is only modelled over whole numbers. The 400 message is the failing paths as `fromZodError` prints them (an activity element as `preferences.activities[i]`), joined with "; ". Zod's wording of each issue is not modelled. Which date texts `new Date` accepts, and which day each names, is a parameter rather than modelled. An accepted form is no longer promised a 200: an invalid start date or a failing generator call answers 500.
- Handlers.NumberOf: reads decimal text only. Hexadecimal, binary, exponent and `Infinity` forms are not modelled.
- Numbers.FirstDecimal: reads the first digit run and one optional fraction, as the pattern does. `parseFloat` exponents are not modelled.
- Numbers.ParseFloat: reads an optional sign, digits and one optional fraction only. An exponent or `Infinity` is not read: "1e1" reads as 1 and "Infinity" as NaN, where JavaScript reads 10 and Infinity. Osm.EstimateAccommodationRating inherits this, so `stars=1e1` rates 1 and `stars=Infinity` has no rating, where the source rates both 5.
- Itinerary.MakeDay: the date is the start ordinal plus the day index, not an ISO date text.
- Storage.Merge: the patch cannot carry an `id`. `Partial<InsertItinerary>` allows one, and then `{...existing, ...partial}` stores under the old key a record whose own `id` is the patch's, which the model's store (keyed by each record's own id) cannot hold. `updateItinerary` has no caller among the server's routes. Storage.UpdateItinerary inherits this.
- ItineraryDay.StarsOf: a rating outside [0, 5] renders nothing in the model. In the browser, the negative count would make the card fail to render.
- Strings.ToLower: maps ASCII capitals only. JavaScript's `toLowerCase` maps every Unicode capital, so "SÃO PAULO" and "São Paulo" compare equal there but not here. Triposo.LocationId, OpenTripMap.LocationIdOf, BudgetForm.OfferedTags, Osm.DefaultCategories and Storage.GetDestinationByName inherit this.
- Strings.Capitalize: upper-cases ASCII letters only, while `toUpperCase` maps every Unicode letter. Geoapify.RestaurantLabel inherits this.
- Schema.Issues: the destination's length counts characters (code points). JavaScript's `length`, which the schema's minimum of 3 reads, counts UTF-16 units, so a destination of two characters outside the Basic Multilingual Plane passes there and is rejected here. Every other length in the model counts the same way.
- OpenTripMap.KindOf: a tag named like an inherited object member ("constructor", ...) maps in JavaScript to that member, whose text joins the kinds. The model passes such a tag through unchanged.

=== FILE: budget.dfy ===
/** The server's budget allocator: a fixed-percentage split of the total budget
    into accommodation, food, activities and transportation. */
module Budget {
  import opened Numbers

  datatype Allocation = Allocation(accommodation: int, food: int, activities: int, transportation: int)

  /** The share, in percent, that goes to accommodation: 25 for "budget", 45 for
      "luxury", and 35 for any other tier string. */
  function AccommodationPercent(tier: string): (p: int)
    ensures p == 25 <==> tier == "budget"
    ensures p == 45 <==> tier == "luxury"
    ensures p == 35 <==> tier != "budget" && tier != "luxury"
  {
    if tier == "budget" then 25 else if tier == "luxury" then 45 else 35
  }

  /** The food share in percent: 15 for "budget", 35 for "fine", else 25. */
  function FoodPercent(tier: string): (p: int)
    ensures p == 15 <==> tier == "budget"
    ensures p == 35 <==> tier == "fine"
    ensures p == 25 <==> tier != "budget" && tier != "fine"
  {
    if tier == "budget" then 15 else if tier == "fine" then 35 else 25
  }

  const ActivitiesPercent: int := 25

  /** The transportation share: what the three fixed shares leave of 100. */
  function TransportationPercent(accommodation: string, food: string): (p: int)
    ensures AccommodationPercent(accommodation) + FoodPercent(food) + ActivitiesPercent + p == 100
  {
    100 - AccommodationPercent(accommodation) - FoodPercent(food) - ActivitiesPercent
  }

  /** `amount` is `Math.round(total * percent / 100)`: within half a unit of the
      exact share, halves going up. */
  predicate NearestShare(amount: int, total: int, percent: int) {
    200 * amount - 100 <= 2 * total * percent < 200 * amount + 100
  }

  /** Math.round of the exact share `total * percent / 100`. */
  function Share(total: int, percent: int): (r: int)
    ensures NearestShare(r, total, percent)
  {
    Round(total * percent, 100)
  }

  /** `generateBudgetAllocation`: every category is rounded on its own. */
  function GenerateBudgetAllocation(total: int, accommodation: string, food: string): (a: Allocation)
    ensures NearestShare(a.accommodation, total, AccommodationPercent(accommodation))
    ensures NearestShare(a.food, total, FoodPercent(food))
    ensures NearestShare(a.activities, total, ActivitiesPercent)
    ensures NearestShare(a.transportation, total, TransportationPercent(accommodation, food))
  {
    Allocation(
      Share(total, AccommodationPercent(accommodation)),
      Share(total, FoodPercent(food)),
      Share(total, ActivitiesPercent),
      Share(total, TransportationPercent(accommodation, food)))
  }

  function Sum(a: Allocation): int {
    a.accommodation + a.food + a.activities + a.transportation
  }

  /** There is exactly one share nearest to an exact value. */
  lemma NearestShareUnique(x: int, y: int, total: int, percent: int)
    requires NearestShare(x, total, percent) && NearestShare(y, total, percent)
    ensures x == y
  {
  }

  /** A worked example: 1500 with "mid-range" and "local" splits into
      525 / 375 / 375 / 225. */
  lemma MidRangeLocalExample()
    ensures GenerateBudgetAllocation(1500, "mid-range", "local") == Allocation(525, 375, 375, 225)
  {
    var a := GenerateBudgetAllocation(1500, "mid-range", "local");
    NearestShareUnique(a.accommodation, 525, 1500, 35);
    NearestShareUnique(a.food, 375, 1500, 25);
    NearestShareUnique(a.activities, 375, 1500, 25);
    NearestShareUnique(a.transportation, 225, 1500, 15);
  }

  /** Independent rounding keeps the four amounts within -1 .. +2 of the total;
      nothing reconciles them exactly. */
  lemma {:induction false} SumNearTotal(total: int, accommodation: string, food: string)
    ensures total - 1 <= Sum(GenerateBudgetAllocation(total, accommodation, food)) <= total + 2
  {
    var a := GenerateBudgetAllocation(total, accommodation, food);
    var pa, pf, pt := AccommodationPercent(accommodation), FoodPercent(food), TransportationPercent(accommodation, food);
    Distribute(total, pa, pf, ActivitiesPercent, pt);
    RoundedParts(a, total, pa, pf, ActivitiesPercent, pt);
  }

  /** Four shares of percentages adding up to 100, each rounded to nearest. */
  lemma RoundedParts(a: Allocation, total: int, pa: int, pf: int, pc: int, pt: int)
    requires total * pa + total * pf + total * pc + total * pt == 100 * total
    requires NearestShare(a.accommodation, total, pa) && NearestShare(a.food, total, pf)
    requires NearestShare(a.activities, total, pc) && NearestShare(a.transportation, total, pt)
    ensures total - 1 <= Sum(a) <= total + 2
  {
    var xa, xf, xc, xt := total * pa, total * pf, total * pc, total * pt;
    assert 200 * a.accommodation - 100 <= 2 * xa < 200 * a.accommodation + 100;
    assert 200 * a.food - 100 <= 2 * xf < 200 * a.food + 100;
    assert 200 * a.activities - 100 <= 2 * xc < 200 * a.activities + 100;
    assert 200 * a.transportation - 100 <= 2 * xt < 200 * a.transportation + 100;
  }

  /** Multiplication distributes over a sum of four. */
  lemma Distribute(n: int, a: int, b: int, c: int, d: int)
    ensures n * (a + b + c + d) == n * a + n * b + n * c + n * d
  {
  }

  /** The sum misses the total for some inputs: 202 with "budget"/"budget"
      allocates 51 + 30 + 51 + 71 = 203. */
  lemma SumCanMissTotal()
    ensures Sum(GenerateBudgetAllocation(202, "budget", "budget")) == 203
  {
    var a := GenerateBudgetAllocation(202, "budget", "budget");
    NearestShareUnique(a.accommodation, 51, 202, 25);
    NearestShareUnique(a.food, 30, 202, 15);
    NearestShareUnique(a.activities, 51, 202, 25);
    NearestShareUnique(a.transportation, 71, 202, 35);
  }

  /** Transportation's percentage is negative for exactly one tier pair:
      "luxury" accommodation with "fine" food, where it is -5. */
  lemma TransportationPercentNegativeIff(accommodation: string, food: string)
    ensures TransportationPercent(accommodation, food) < 0 <==> accommodation == "luxury" && food == "fine"
    ensures accommodation == "luxury" && food == "fine" ==> TransportationPercent(accommodation, food) == -5
  {
  }

  /** For every budget the schema admits (at least 200), the transportation
      amount is negative exactly for "luxury" with "fine". */
  lemma {:induction false} TransportationNegativeIff(total: int, accommodation: string, food: string)
    requires total >= 200
    ensures GenerateBudgetAllocation(total, accommodation, food).transportation < 0
            <==> accommodation == "luxury" && food == "fine"
  {
    var a := GenerateBudgetAllocation(total, accommodation, food);
    var p := TransportationPercent(accommodation, food);
    TransportationPercentNegativeIff(accommodation, food);
    if p < 0 {
      assert p == -5;
      assert 2 * total * p <= -2000;
    } else {
      assert 2 * total * p >= 0;
    }
  }
}

=== FILE: budget_form.dfy ===
/** The budget-and-preferences step of the planner: the slider, the tier and
    activity choices, the live allocation preview and the submit handler.
    The component's local state and the form's values always receive the same
    updates, so one state stands for both. */
module BudgetForm {
  import opened Wrappers
  import opened Strings
  import opened Schema
  import opened Budget
  import opened Numbers

  /** What the step holds while it is open. `destination` is the optional
      prop that unlocks the India-specific activities. */
  datatype FormState = FormState(
    budget: int, accommodation: string, food: string, activities: seq<string>, destination: string)

  /** What the step submits to the planner. */
  datatype BudgetValues = BudgetValues(totalBudget: int, preferences: Preferences)

  const DefaultBudget: int := 1500
  const DefaultActivities: seq<string> := ["sightseeing", "cultural"]

  /** The initial state: each value from the defaults when truthy, else the
      component's own default. An activity list is an array and so always
      truthy: an empty default list stays empty. */
  function Initial(totalBudget: Option<int>, preferences: Option<Preferences>, destination: string): (s: FormState)
    ensures s.budget == (if totalBudget.Some? && totalBudget.value != 0 then totalBudget.value else DefaultBudget)
    ensures preferences.None? ==>
      s.accommodation == "mid-range" && s.food == "local" && s.activities == DefaultActivities
    ensures preferences.Some? ==> s.activities == preferences.value.activities
    ensures preferences.Some? && preferences.value.accommodation != "" ==> s.accommodation == preferences.value.accommodation
    ensures preferences.Some? && preferences.value.food != "" ==> s.food == preferences.value.food
    ensures preferences.Some? && preferences.value.accommodation == "" ==> s.accommodation == "mid-range"
    ensures preferences.Some? && preferences.value.food == "" ==> s.food == "local"
    ensures s.destination == destination
  {
    var budget := if totalBudget.Some? && totalBudget.value != 0 then totalBudget.value else DefaultBudget;
    match preferences
    case None => FormState(budget, "mid-range", "local", DefaultActivities, destination)
    case Some(p) =>
      FormState(budget, OrString(Some(p.accommodation), "mid-range"), OrString(Some(p.food), "local"),
                p.activities, destination)
  }

  /** The budget slider: 200 to 10000 in steps of 100. */
  predicate OnSlider(v: int) {
    200 <= v <= 10000 && v % 100 == 0
  }

  /** Moving the slider sets the budget and nothing else. */
  function SetBudget(s: FormState, v: int): (r: FormState)
    requires OnSlider(v)
    ensures r.budget == v && r.budget >= 200
    ensures r.(budget := s.budget) == s
  {
    s.(budget := v)
  }

  function SelectAccommodation(s: FormState, tier: string): (r: FormState)
    ensures r.accommodation == tier && r.(accommodation := s.accommodation) == s
  {
    s.(accommodation := tier)
  }

  function SelectFood(s: FormState, tier: string): (r: FormState)
    ensures r.food == tier && r.(food := s.food) == s
  {
    s.(food := tier)
  }

  /** `list.filter(item => item !== tag)`: every other item, in order. */
  function Without(list: seq<string>, tag: string): (r: seq<string>)
    ensures tag !in r && |r| <= |list|
    ensures |r| == |list| <==> tag !in list
  {
    if |list| == 0 then []
    else (if list[0] == tag then [] else [list[0]]) + Without(list[1..], tag)
  }

  /** The filter keeps exactly the other items, and keeps a list without the
      tag whole. */
  lemma {:induction false} WithoutContents(list: seq<string>, tag: string)
    ensures forall x :: x in Without(list, tag) <==> x in list && x != tag
    ensures tag !in list ==> Without(list, tag) == list
  {
    if |list| > 0 {
      WithoutContents(list[1..], tag);
      assert list == [list[0]] + list[1..];
    }
  }

  /** `toggleActivity`: a chosen tag is removed everywhere it occurs; an
      unchosen one is appended at the end. */
  function Toggle(list: seq<string>, tag: string): (r: seq<string>)
    ensures tag in list ==> tag !in r && forall x :: x != tag ==> (x in r <==> x in list)
    ensures tag !in list ==> |r| == |list| + 1 && r[..|list|] == list && r[|list|] == tag
  {
    WithoutContents(list, tag);
    if tag in list then Without(list, tag) else list + [tag]
  }

  function ToggleActivity(s: FormState, tag: string): (r: FormState)
    ensures r.activities == Toggle(s.activities, tag)
    ensures r.(activities := s.activities) == s
  {
    s.(activities := Toggle(s.activities, tag))
  }

  /** Filtering distributes over concatenation. */
  lemma {:induction false} WithoutAppend(a: seq<string>, b: seq<string>, tag: string)
    ensures Without(a + b, tag) == Without(a, tag) + Without(b, tag)
  {
    if |a| == 0 {
      assert a + b == b;
    } else {
      assert (a + b)[0] == a[0] && (a + b)[1..] == a[1..] + b;
      WithoutAppend(a[1..], b, tag);
    }
  }

  /** Toggling an unchosen tag twice gives back the original list. */
  lemma ToggleTwiceAbsent(list: seq<string>, tag: string)
    requires tag !in list
    ensures Toggle(Toggle(list, tag), tag) == list
  {
    WithoutAppend(list, [tag], tag);
    WithoutContents(list, tag);
  }

  /** Toggling a chosen tag twice removes its duplicates and moves it to the
      end. */
  lemma ToggleTwicePresent(list: seq<string>, tag: string)
    requires tag in list
    ensures Toggle(Toggle(list, tag), tag) == Without(list, tag) + [tag]
  {
  }

  /** The client's own allocation preview: the same tiers and percentages
      as the server, each category rounded on its own. */
  function Preview(s: FormState): (a: Allocation)
    ensures s.budget >= 0 ==> a.accommodation >= 0 && a.food >= 0 && a.activities >= 0
    ensures a.activities * 4 - 2 <= s.budget < a.activities * 4 + 2
  {
    var accommodation := if s.accommodation == "budget" then 25 else if s.accommodation == "luxury" then 45 else 35;
    var food := if s.food == "budget" then 15 else if s.food == "fine" then 35 else 25;
    var activities := 25;
    var transportation := 100 - accommodation - food - activities;
    var a := Allocation(Round(s.budget * accommodation, 100), Round(s.budget * food, 100),
                        Round(s.budget * activities, 100), Round(s.budget * transportation, 100));
    assert s.budget >= 0 ==> s.budget * accommodation >= 0 && s.budget * food >= 0 by {
      assert accommodation >= 0 && food >= 0;
    }
    assert 200 * a.activities <= 50 * s.budget + 100 < 200 * a.activities + 200;
    a
  }

  /** The preview shows exactly what the server will allocate for the same
      budget and tiers. */
  lemma PreviewMatchesServer(s: FormState)
    ensures Preview(s) == GenerateBudgetAllocation(s.budget, s.accommodation, s.food)
  {
  }

  /** `handleSubmit`: an empty activity list becomes ["sightseeing"] first;
      then the form schema decides whether the values reach the planner,
      which needs a budget of at least 200 and valid preferences. */
  function HandleSubmit(s: FormState): (r: (FormState, Option<BudgetValues>))
    ensures |s.activities| == 0 ==> r.0 == s.(activities := ["sightseeing"])
    ensures |s.activities| > 0 ==> r.0 == s
    ensures r.1.Some? <==> r.0.budget >= 200 && ValidPreferences(Preferences(r.0.accommodation, r.0.food, r.0.activities))
    ensures r.1.Some? ==> r.1.value == BudgetValues(s.budget, Preferences(s.accommodation, s.food, r.0.activities))
    ensures r.1.Some? ==> |r.1.value.preferences.activities| >= 1
  {
    var s' := if |s.activities| == 0 then s.(activities := ["sightseeing"]) else s;
    var p := Preferences(s'.accommodation, s'.food, s'.activities);
    if s'.budget >= 200 && ValidPreferences(p) then (s', Some(BudgetValues(s'.budget, p))) else (s', None)
  }

  /** Every budget the slider can reach passes the schema, so a submit with
      known tiers and known tags always goes through. */
  lemma SliderBudgetSubmits(s: FormState)
    requires OnSlider(s.budget)
    requires s.accommodation in AccommodationTiers && s.food in FoodTiers
    requires forall i :: 0 <= i < |s.activities| ==> s.activities[i] in ActivityTags
    ensures HandleSubmit(s).1.Some?
  {
    assert "sightseeing" == ActivityTags[0];
  }

  const GeneralTags: seq<string> := ["sightseeing", "cultural", "adventure", "relaxation", "shopping", "nightlife"]
  const IndiaTags: seq<string> := ["temple-visits", "heritage-sites", "ayurveda-wellness", "wildlife-safari",
                                   "backwaters", "street-food-tours"]

  /** The activity cards on offer: the six general ones, then six
      India-specific ones when the destination prop mentions India in any
      case. */
  function OfferedTags(destination: string): (r: seq<string>)
    ensures |r| >= 6 && r[..6] == GeneralTags
    ensures |r| == 12 <==> destination != "" && Contains(ToLower(destination), "india")
    ensures |r| == 6 || r[6..] == IndiaTags
  {
    if destination != "" && Contains(ToLower(destination), "india") then GeneralTags + IndiaTags else GeneralTags
  }

  /** Every card on offer carries a tag the schema accepts. */
  lemma OfferedTagsValid(destination: string)
    ensures forall i :: 0 <= i < |OfferedTags(destination)| ==> OfferedTags(destination)[i] in ActivityTags
  {
    var r := OfferedTags(destination);
    forall i | 0 <= i < |r|
      ensures r[i] in ActivityTags
    {
      if i < 6 {
        assert r[i] == ActivityTags[i];
      } else {
        assert r[i] == ActivityTags[i];
      }
    }
  }
}

=== FILE: destination_form.dfy ===
/** The destination step of the planner: the destination text, the two date
    inputs, the trip-length slider kept in step with the dates, the popular
    destination shortcuts and the step's form schema. A date is the instant
    `new Date(text)` yields, in milliseconds; `None` stands for an empty
    input or text that is no date (an invalid `Date`), which both leave the
    trip length alone. */
module DestinationForm {
  import opened Wrappers
  import opened Numbers

  /** Milliseconds in a day. */
  const DayMs: nat := 1000 * 60 * 60 * 24

  /** What the step holds while it is open. */
  datatype FormState = FormState(destination: string, startDate: string, endDate: string, tripLength: int)

  /** What the step submits to the planner. */
  datatype DestinationValues = DestinationValues(destination: string, startDate: string, endDate: string, tripLength: int)

  /** The defaults the planner passes in; every key may be missing. */
  datatype Defaults = Defaults(destination: Option<string>, startDate: Option<string>, endDate: Option<string>,
                               tripLength: Option<int>)

  /** The initial state: each default when truthy, else "" or 5 days. */
  function Initial(d: Defaults): (s: FormState)
    ensures s.destination == OrString(d.destination, "")
    ensures s.startDate == OrString(d.startDate, "") && s.endDate == OrString(d.endDate, "")
    ensures d.tripLength.Some? && d.tripLength.value != 0 ==> s.tripLength == d.tripLength.value
    ensures d.tripLength.None? || d.tripLength.value == 0 ==> s.tripLength == 5
  {
    FormState(OrString(d.destination, ""), OrString(d.startDate, ""), OrString(d.endDate, ""),
              if d.tripLength.Some? && d.tripLength.value != 0 then d.tripLength.value else 5)
  }

  /** The step right after it mounts: the date effect has run once on the
      initial dates, `start` and `end` being what they parse to. With both
      dates known their day count replaces the passed trip length; otherwise
      the initial state stands. */
  function Opened(d: Defaults, start: Option<int>, end: Option<int>): (s: FormState)
    ensures s.(tripLength := Initial(d).tripLength) == Initial(d)
    ensures start.Some? && end.Some? ==> s.tripLength == TripLength(start.value, end.value)
    ensures start.None? || end.None? ==> s == Initial(d)
  {
    var i := Initial(d);
    i.(tripLength := AfterDates(start, end, i.tripLength))
  }

  /** `Math.ceil(|end - start| / day) + 1`: the number of calendar days the
      trip touches, counting both ends. */
  function TripLength(start: int, end: int): (n: int)
    ensures n >= 1
    ensures DayMs * (n - 2) < (if end >= start then end - start else start - end) <= DayMs * (n - 1)
  {
    CeilDiv(if end >= start then end - start else start - end, DayMs) + 1
  }

  /** The effect that runs when a date changes: with both dates known the
      trip length becomes the inclusive day count, which is always positive,
      so the `diffDays > 0` guard never stops it; otherwise it stays. */
  function AfterDates(start: Option<int>, end: Option<int>, previous: int): (n: int)
    ensures start.Some? && end.Some? ==> n == TripLength(start.value, end.value)
    ensures start.None? || end.None? ==> n == previous
  {
    if start.Some? && end.Some? then
      var days := TripLength(start.value, end.value);
      if days > 0 then days else previous
    else previous
  }

  /** The trip length does not depend on which date comes first. */
  lemma TripLengthSymmetric(start: int, end: int)
    ensures TripLength(start, end) == TripLength(end, start)
  {
  }

  /** Two dates whole days apart count both ends: `n` days apart is `n + 1`
      days of travel, and equal dates are one day. */
  lemma TripLengthWholeDays(start: int, n: nat)
    ensures TripLength(start, start + n * DayMs) == n + 1
  {
    var k := TripLength(start, start + n * DayMs);
    assert DayMs * (k - 2) < DayMs * n <= DayMs * (k - 1);
    ScaleOrder(k - 2, n, DayMs);
    ScaleOrder(n - 1, k - 1, DayMs);
  }

  /** Multiplying by a positive number keeps a strict order. */
  lemma ScaleOrder(a: int, b: int, c: int)
    requires c > 0 && c * a < c * b
    ensures a < b
  {
    assert c * (b - a) == c * b - c * a;
  }

  /** The slider is a range input from 1 to 30, so it only ever emits those. */
  function SetTripLength(s: FormState, v: int): (r: FormState)
    requires 1 <= v <= 30
    ensures r.tripLength == v && r.(tripLength := s.tripLength) == s
  {
    s.(tripLength := v)
  }

  /** Editing a date stores its text and reruns the trip-length effect on the
      instants both texts denote. */
  function SetDates(s: FormState, startText: string, endText: string, start: Option<int>, end: Option<int>): (r: FormState)
    ensures r.destination == s.destination && r.startDate == startText && r.endDate == endText
    ensures r.tripLength == AfterDates(start, end, s.tripLength)
  {
    FormState(s.destination, startText, endText, AfterDates(start, end, s.tripLength))
  }

  /** Picking a popular destination fills the field with "name, country". */
  function SelectDestination(s: FormState, name: string, country: string): (r: FormState)
    ensures r.destination == name + ", " + country
    ensures r.(destination := s.destination) == s
  {
    s.(destination := name + ", " + country)
  }

  /** The step's schema: a destination of at least three characters and a
      trip length from 1 to 30; the date texts may be anything, even empty. */
  predicate ValidValues(s: FormState) {
    |s.destination| >= 3 && 1 <= s.tripLength <= 30
  }

  /** Submitting hands the values to the planner only when the schema accepts
      them. */
  function Submit(s: FormState): (r: Option<DestinationValues>)
    ensures r.Some? <==> ValidValues(s)
    ensures r.Some? ==> r.value.destination == s.destination && r.value.tripLength == s.tripLength
                        && r.value.startDate == s.startDate && r.value.endDate == s.endDate
  {
    if ValidValues(s) then Some(DestinationValues(s.destination, s.startDate, s.endDate, s.tripLength)) else None
  }

  /** The computed length is not capped at 30: dates thirty days apart give
      31 days, and the step then refuses to submit. */
  lemma LongTripBlocksSubmit(s: FormState, startText: string, endText: string, start: int)
    ensures Submit(SetDates(s, startText, endText, Some(start), Some(start + 30 * DayMs))).None?
  {
    TripLengthWholeDays(start, 30);
  }

  /** A popular destination's name and country always make a destination
      the schema accepts: the ", " alone brings it to two characters, and
      any non-empty name or country adds the third. */
  lemma SelectedDestinationLongEnough(s: FormState, name: string, country: string)
    requires |name| + |country| >= 1
    ensures |SelectDestination(s, name, country).destination| >= 3
  {
  }
}

=== FILE: geoapify.dfy ===
/** The Geoapify normaliser: tier to category filters, the location query, and
    the mapping of places to accommodations and food places with randomised
    prices. Each `Math.random()` draw is an explicit input. */
module Geoapify {
  import opened Wrappers
  import opened Strings
  import opened Numbers
  import opened Rules

  /** The accommodation categories of a tier. */
  function AccommodationCategories(tier: string): (r: string)
    ensures tier == "budget" ==> r == "accommodation.hostel,accommodation.guest_house"
    ensures tier == "luxury" ==> r == "accommodation.hotel.luxury"
    ensures tier != "budget" && tier != "luxury" ==> r == "accommodation.hotel"
  {
    match tier
    case "budget" => "accommodation.hostel,accommodation.guest_house"
    case "luxury" => "accommodation.hotel.luxury"
    case _ => "accommodation.hotel"
  }

  /** The food categories of a tier. */
  function FoodCategories(tier: string): (r: string)
    ensures tier == "budget" ==> r == "catering.fast_food,catering.food_court"
    ensures tier == "fine" ==> r == "catering.restaurant.gourmet"
    ensures tier != "budget" && tier != "fine" ==> r == "catering.restaurant"
  {
    match tier
    case "budget" => "catering.fast_food,catering.food_court"
    case "fine" => "catering.restaurant.gourmet"
    case _ => "catering.restaurant"
  }

  /** The place filter's text: "city, country" when a country is given.
      OpenTripMap and Yelp build the same text in their own adapters. */
  function LocationQuery(city: string, country: Option<string>): (r: string)
    ensures country.Some? && country.value != "" ==> r == city + ", " + country.value
    ensures country.None? || country.value == "" ==> r == city
  {
    if country.Some? && country.value != "" then city + ", " + country.value else city
  }

  /** The properties of one returned feature. */
  datatype Place = Place(
    placeId: string, name: string, country: Option<string>, categories: Option<string>,
    city: Option<string>, suburb: Option<string>, lat: real, lon: real, formatted: Option<string>)

  predicate InIndia(p: Place) {
    p.country == Some("India")
  }

  /** The nightly price before the India adjustment: 40-69, 200-349 or
      100-149 by tier. */
  function BaseNightly(tier: string, d: real): (r: int)
    requires IsDraw(d)
    ensures tier == "budget" ==> 40 <= r <= 69
    ensures tier == "luxury" ==> 200 <= r <= 349
    ensures tier != "budget" && tier != "luxury" ==> 100 <= r <= 149
  {
    match tier
    case "budget" => RandomBelow(d, 30) + 40
    case "luxury" => RandomBelow(d, 150) + 200
    case _ => RandomBelow(d, 50) + 100
  }

  /** The lowest rating of a tier, in tenths: 30, 40 or 35. */
  function RatingFloorTenths(tier: string): int {
    if tier == "budget" then 30 else if tier == "luxury" then 40 else 35
  }

  /** A rating that is a whole number of tenths between `lo` and `lo + 9`
      tenths. */
  predicate TenthIn(r: real, lo: int) {
    var t := r * 10.0;
    t == t.Floor as real && lo <= t.Floor <= lo + 9
  }

  /** The rating: a random tenth added to the tier's floor. */
  function Rating(tier: string, d: real): (r: real)
    requires IsDraw(d)
    ensures TenthIn(r, RatingFloorTenths(tier))
  {
    var k := RandomBelow(d, 10);
    var t := RatingFloorTenths(tier) + k;
    assert (t as real / 10.0) * 10.0 == t as real;
    t as real / 10.0
  }

  /** The categories the accommodation description tests, in order, with the
      kind each names. */
  const LodgingKinds: seq<(string, string)> := [
    ("accommodation.hotel.luxury", "Luxury hotel"), ("accommodation.hotel", "Hotel"),
    ("accommodation.hostel", "Hostel"), ("accommodation.guest_house", "Guest house")
  ]

  /** Where the place is: its city, else its suburb, else nothing. */
  function Locality(p: Place): (r: string)
    ensures p.city.Some? && p.city.value != "" ==> r == p.city.value
    ensures (p.city.None? || p.city.value == "") && p.suburb.Some? ==> r == p.suburb.value
    ensures (p.city.None? || p.city.value == "") && p.suburb.None? ==> r == ""
  {
    OrString(p.city, OrString(p.suburb, ""))
  }

  /** The accommodation description: the first category found among luxury
      hotel, hotel, hostel and guest house names the kind, followed by the city
      or suburb; otherwise the place name. */
  function AccommodationDescription(p: Place): (r: string)
    ensures p.categories.None? || p.categories.value == "" ==> r == p.name
    ensures p.categories.Some? && p.categories.value != "" ==>
      var cats := Split(p.categories.value, ',');
      && (forall k :: FirstHit(LodgingKinds, cats, k) ==> r == LodgingKinds[k].1 + " in " + Locality(p))
      && ((forall k :: 0 <= k < |LodgingKinds| ==> LodgingKinds[k].0 !in cats) ==> r == p.name)
  {
    if p.categories.None? || p.categories.value == "" then p.name
    else
      var cats := Split(p.categories.value, ',');
      var kind := FirstRule(LodgingKinds, cats, "");
      assert forall k :: 0 <= k < |LodgingKinds| ==> LodgingKinds[k].1 != "";
      if kind == "" then p.name else kind + " in " + Locality(p)
  }

  /** A normalised Geoapify accommodation. */
  datatype Lodging = Lodging(
    id: string, name: string, description: string, costPerNight: int, cost: int,
    rating: real, imageUrl: string, lat: real, lon: real, address: Option<string>)

  /** One accommodation from a place and its two draws (price, then rating). */
  function ToLodging(p: Place, tier: string, draws: (real, real)): (l: Lodging)
    requires IsDraw(draws.0) && IsDraw(draws.1)
    ensures l.cost == l.costPerNight
    ensures !InIndia(p) ==> l.costPerNight == BaseNightly(tier, draws.0)
    ensures InIndia(p) ==> IsRoundOf(l.costPerNight, BaseNightly(tier, draws.0) * 6, 10)
    ensures TenthIn(l.rating, RatingFloorTenths(tier))
    ensures l.description == AccommodationDescription(p)
  {
    var base := BaseNightly(tier, draws.0);
    var cost := if InIndia(p) then Round(base * 6, 10) else base;
    Lodging(p.placeId, p.name, AccommodationDescription(p), cost, cost, Rating(tier, draws.1),
            "https://source.unsplash.com/random/800x600/?hotel," + tier, p.lat, p.lon, p.formatted)
  }

  predicate AllDraws(ds: seq<(real, real)>) {
    forall k :: 0 <= k < |ds| ==> IsDraw(ds[k].0) && IsDraw(ds[k].1)
  }

  /** `getAccommodations` after the request: no data or no features gives
      no accommodations; otherwise one per feature, in order. */
  function Accommodations(features: Option<seq<Place>>, tier: string, draws: seq<(real, real)>): (r: seq<Lodging>)
    requires features.Some? ==> |draws| == |features.value|
    requires AllDraws(draws)
    ensures features.None? ==> r == []
    ensures features.Some? ==> |r| == |features.value|
    ensures features.Some? ==> forall k :: 0 <= k < |r| ==> r[k] == ToLodging(features.value[k], tier, draws[k])
  {
    if features.None? then []
    else seq(|features.value|, k requires 0 <= k < |features.value| => ToLodging(features.value[k], tier, draws[k]))
  }

  /** Outside India a budget stay costs 40 to 69 a night, and in India 60% of
      that, so 24 to 41. */
  lemma BudgetNightlyRange(p: Place, d: (real, real))
    requires IsDraw(d.0) && IsDraw(d.1)
    ensures var c := ToLodging(p, "budget", d).costPerNight; if InIndia(p) then 24 <= c <= 41 else 40 <= c <= 69
  {
  }

  /** A meal's price before the India adjustment: 5-9, 40-69 or 15-24. */
  function BaseMeal(tier: string, d: real): (r: int)
    requires IsDraw(d)
    ensures tier == "budget" ==> 5 <= r <= 9
    ensures tier == "fine" ==> 40 <= r <= 69
    ensures tier != "budget" && tier != "fine" ==> 15 <= r <= 24
  {
    match tier
    case "budget" => RandomBelow(d, 5) + 5
    case "fine" => RandomBelow(d, 30) + 40
    case _ => RandomBelow(d, 10) + 15
  }

  const RestaurantPrefix: string := "catering.restaurant."

  /** The first category that starts with `prefix`. */
  function FirstWithPrefix(cats: seq<string>, prefix: string): (r: Option<nat>)
    ensures r.Some? ==> r.value < |cats| && StartsWith(cats[r.value], prefix)
                        && forall k :: 0 <= k < r.value ==> !StartsWith(cats[k], prefix)
    ensures r.None? ==> forall k :: 0 <= k < |cats| ==> !StartsWith(cats[k], prefix)
  {
    if |cats| == 0 then None
    else if StartsWith(cats[0], prefix) then Some(0)
    else match FirstWithPrefix(cats[1..], prefix)
      case None => None
      case Some(k) => Some(k + 1)
  }

  /** A restaurant category's label: the category after its prefix, with the
      first `_` turned into a space and the first letter upper-cased. */
  function RestaurantLabel(cat: string): (r: string)
    requires StartsWith(cat, RestaurantPrefix)
    ensures |r| == |cat| - |RestaurantPrefix|
    ensures '_' !in cat[|RestaurantPrefix|..] ==> r == Capitalize(cat[|RestaurantPrefix|..])
    ensures var rest := cat[|RestaurantPrefix|..];
      forall i :: 0 <= i < |rest| && rest[i] == '_' && '_' !in rest[..i] ==>
        r == Capitalize(rest[..i] + " " + rest[i + 1..])
  {
    var rest := cat[|RestaurantPrefix|..];
    Capitalize(ReplaceFirst(rest, '_', ' '))
  }

  /** The cuisine label: the label of the first restaurant category, else
      "Local cuisine". */
  function CuisineLabel(categories: Option<string>): (r: string)
    ensures categories.None? || categories.value == "" ==> r == "Local cuisine"
    ensures categories.Some? && categories.value != "" ==>
      match FirstWithPrefix(Split(categories.value, ','), RestaurantPrefix)
      case None => r == "Local cuisine"
      case Some(k) => r == RestaurantLabel(Split(categories.value, ',')[k])
  {
    if categories.None? || categories.value == "" then "Local cuisine"
    else
      var cats := Split(categories.value, ',');
      match FirstWithPrefix(cats, RestaurantPrefix)
      case None => "Local cuisine"
      case Some(k) => RestaurantLabel(cats[k])
  }

  /** A single restaurant category is read back as its cuisine, capitalised. */
  lemma CuisineLabelOfOneCategory(cuisine: string)
    requires cuisine != "" && ',' !in cuisine && '_' !in cuisine
    ensures CuisineLabel(Some(RestaurantPrefix + cuisine)) == Capitalize(cuisine)
  {
    var cat := RestaurantPrefix + cuisine;
    assert ',' !in RestaurantPrefix;
    assert ',' !in cat by {
      assert forall i :: 0 <= i < |cat| ==> cat[i] == (if i < |RestaurantPrefix| then RestaurantPrefix[i] else cuisine[i - |RestaurantPrefix|]);
    }
    SplitFree(cat, ',');
    assert StartsWith(cat, RestaurantPrefix) && cat[|RestaurantPrefix|..] == cuisine;
  }

  /** A normalised Geoapify food place; `kind` is the requested tier. */
  datatype FoodPlace = FoodPlace(
    id: string, name: string, kind: string, description: string, cost: int,
    imageUrl: string, lat: real, lon: real, address: Option<string>)

  function ToFoodPlace(p: Place, tier: string, d: real): (f: FoodPlace)
    requires IsDraw(d)
    ensures f.kind == tier && f.description == CuisineLabel(p.categories) + " restaurant"
    ensures !InIndia(p) ==> f.cost == BaseMeal(tier, d)
    ensures InIndia(p) ==> IsRoundOf(f.cost, BaseMeal(tier, d), 2)
  {
    var base := BaseMeal(tier, d);
    FoodPlace(p.placeId, p.name, tier, CuisineLabel(p.categories) + " restaurant",
              if InIndia(p) then Round(base, 2) else base,
              "https://source.unsplash.com/random/800x600/?food," + tier, p.lat, p.lon, p.formatted)
  }

  /** `getFoodPlaces` after the request: none without data or features;
      otherwise one per feature, in order. */
  function FoodPlaces(features: Option<seq<Place>>, tier: string, draws: seq<real>): (r: seq<FoodPlace>)
    requires features.Some? ==> |draws| == |features.value|
    requires forall k :: 0 <= k < |draws| ==> IsDraw(draws[k])
    ensures features.None? ==> r == []
    ensures features.Some? ==> |r| == |features.value|
    ensures features.Some? ==> forall k :: 0 <= k < |r| ==> r[k] == ToFoodPlace(features.value[k], tier, draws[k])
  {
    if features.None? then []
    else seq(|features.value|, k requires 0 <= k < |features.value| => ToFoodPlace(features.value[k], tier, draws[k]))
  }
}

=== FILE: handlers.dfy ===
/** The itinerary routes of the HTTP API over the in-memory store: saving a
    generated itinerary, listing saved ones, and reading one back by id.
    Path and query parameters arrive as text and go through JavaScript's
    `Number` conversion before they reach the store. */
module Handlers {
  import opened Wrappers
  import opened Strings
  import opened Numbers
  import opened Storage
  import Schema
  import Itinerary
  import Budget

  /** A response: a status with a JSON body, or a status with a message. */
  datatype Reply<T> = Ok(status: int, value: T) | Failure(status: int, message: string)

  /** `Number(s)` on decimal text: surrounding white space is ignored, blank
      text is 0, and otherwise the whole rest must be an optional sign, digits
      and an optional `.` with digits; anything else is NaN (`None`). */
  function NumberOf(s: string): (r: Option<real>)
    ensures Trim(s) == "" ==> r == Some(0.0)
  {
    var t := Trim(s);
    if t == "" then Some(0.0) else NumberOfTrimmed(t)
  }

  /** `Number` on text with its surrounding white space removed. */
  function NumberOfTrimmed(t: string): (r: Option<real>)
  {
    var (negative, u) := SignOf(t);
    var n := LeadingDigits(u);
    var used := if n < |u| && u[n] == '.' then n + 1 + LeadingDigits(u[n + 1..]) else n;
    if used < |u| then None
    else
      match UnsignedDecimal(u)
      case None => None
      case Some(v) => Some(if negative then -v else v)
  }

  /** The integer a number stands for as a `Map` key, when it is whole. */
  function KeyOf(v: real): (r: Option<int>)
    ensures r.Some? <==> v == v.Floor as real
    ensures r.Some? ==> r.value as real == v
  {
    if v == v.Floor as real then Some(v.Floor) else None
  }

  /** GET /api/destinations: every stored destination, each one the record a
      lookup of its id returns. */
  function Destinations(st: Store): (r: Reply<seq<Keyed<DestinationFields>>>)
    ensures r.Ok? && r.status == 200 && |r.value| == |st.destinations|
    ensures Valid(st) ==> forall k :: 0 <= k < |r.value| ==> GetDestination(st, r.value[k].id) == Some(r.value[k])
  {
    Ok(200, GetDestinations(st))
  }

  /** The generator's request for an accepted form: whole days and budget,
      the date texts as sent, and `start`, what the start date parses to. */
  function RequestOf(f: Schema.ItineraryForm, start: Itinerary.DateParse): (req: Itinerary.TripRequest)
    ensures req.destination == f.destination && req.country == f.country && req.preferences == f.preferences
    ensures req.days as real <= f.days < req.days as real + 1.0
    ensures req.totalBudget as real <= f.totalBudget < req.totalBudget as real + 1.0
    ensures req.startDate == f.startDate && req.endDate == f.endDate && req.startDay == start
  {
    Itinerary.TripRequest(f.destination, f.country, f.days.Floor, f.totalBudget.Floor,
                          f.preferences, f.startDate, f.endDate, start)
  }

  /** A failed check's path as the 400 message prints it; an array element
      is written with its index in brackets. */
  function PathText(p: Schema.IssuePath): (t: string)
    ensures p.ActivityAt? ==> |t| >= 25 && t[..23] == "preferences.activities[" && t[|t| - 1] == ']'
    ensures !p.ActivityAt? ==> |t| <= 25
  {
    match p
    case Destination => "destination"
    case Days => "days"
    case TotalBudget => "totalBudget"
    case AccommodationTier => "preferences.accommodation"
    case FoodTier => "preferences.food"
    case ActivityAt(i) => "preferences.activities[" + NatToString(i) + "]"
  }

  /** An element's path is never a field's path. */
  lemma ElementTextNotField(i: nat, q: Schema.IssuePath)
    requires !q.ActivityAt?
    ensures PathText(Schema.ActivityAt(i)) != PathText(q)
  {
    var t := PathText(Schema.ActivityAt(i));
    assert t[14] == t[..23][14] == 't';
    if q == Schema.AccommodationTier {
      assert PathText(q)[14] == 'c';
    }
  }

  /** Different paths print differently, so the message tells every failed
      check apart. */
  lemma PathTextInjective(p: Schema.IssuePath, q: Schema.IssuePath)
    requires PathText(p) == PathText(q)
    ensures p == q
  {
    if p.ActivityAt? && q.ActivityAt? {
      var pre := "preferences.activities[";
      var a := NatToString(p.index) + "]";
      var b := NatToString(q.index) + "]";
      assert PathText(p) == pre + a && PathText(q) == pre + b;
      assert a == PathText(p)[|pre|..] == PathText(q)[|pre|..] == b;
      assert NatToString(p.index) == a[..|a| - 1] == b[..|b| - 1] == NatToString(q.index);
      DigitsOfNat(p.index);
      DigitsOfNat(q.index);
    } else if p.ActivityAt? || q.ActivityAt? {
      var e := if p.ActivityAt? then p else q;
      var o := if p.ActivityAt? then q else p;
      ElementTextNotField(e.index, o);
    } else {
      assert |PathText(p)| == |PathText(q)| && PathText(p)[0] == PathText(q)[0];
    }
  }

  const GenerationFailed: string := "Failed to generate itinerary"

  /** POST /api/generate-itinerary: a body the form schema rejects is
      answered with 400 and a message naming the path of every failed check;
      an accepted one is handed to the generator, and anything it throws (an
      invalid start date, a catalog lookup that finds nothing) is answered
      with 500, its itinerary otherwise with 200. `start` is what the start date text
      parses to, and `inputs[k]` what the generator calls of day `k` see. */
  method GenerateRoute(f: Schema.ItineraryForm, start: Itinerary.DateParse, inputs: seq<Itinerary.DayInputs>)
    returns (r: Reply<Itinerary.Itinerary>)
    requires f.days == f.days.Floor as real && f.totalBudget == f.totalBudget.Floor as real
    requires start.Absent? <==> f.startDate.None? || f.startDate.value == ""
    requires Schema.ValidItineraryForm(f) ==>
      |inputs| == f.days.Floor && forall k :: 0 <= k < |inputs| ==> Itinerary.ValidInputs(inputs[k])
    ensures r.Failure? && r.status == 400 <==> !Schema.ValidItineraryForm(f)
    ensures r.Failure? && r.status == 400 ==>
      && |Schema.Issues(f)| > 0
      && forall k :: 0 <= k < |Schema.Issues(f)| ==> Contains(r.message, PathText(Schema.Issues(f)[k]))
    ensures r.Failure? && r.status == 500 <==>
      Schema.ValidItineraryForm(f)
      && (start.Unparseable? || Itinerary.SomeDayFails(RequestOf(f, start), inputs))
    ensures r.Failure? ==> r.status == 400 || r == Failure(500, GenerationFailed)
    ensures r.Ok? ==> && r.status == 200
                      && r.value.destination == f.destination && r.value.country == f.country
                      && r.value.days == f.days.Floor && r.value.totalBudget == f.totalBudget.Floor
                      && r.value.preferences == f.preferences
                      && r.value.start == f.startDate && r.value.end == f.endDate
                      && |r.value.itineraryDays| == f.days.Floor
                      && r.value.budgetAllocation == Budget.GenerateBudgetAllocation(
                           f.totalBudget.Floor, f.preferences.accommodation, f.preferences.food)
                      && forall k :: 0 <= k < |inputs| ==>
                           r.value.itineraryDays[k] == Itinerary.MakeDay(
                             RequestOf(f, start), k, Itinerary.Generate(RequestOf(f, start), inputs[k]).value,
                             Itinerary.DailyShares(r.value.budgetAllocation, f.days.Floor))
  {
    Schema.ValidIffNoIssues(f);
    if !Schema.ValidItineraryForm(f) {
      var issues := Schema.Issues(f);
      var texts := seq(|issues|, k requires 0 <= k < |issues| => PathText(issues[k]));
      forall k | 0 <= k < |issues|
        ensures Contains(Join(texts, "; "), PathText(issues[k]))
      {
        JoinContainsPart(texts, "; ", k);
      }
      r := Failure(400, Join(texts, "; "));
    } else {
      var it := Itinerary.GenerateItinerary(RequestOf(f, start), inputs);
      match it
      case None =>
        r := Failure(500, GenerationFailed);
      case Some(v) =>
        r := Ok(200, v);
    }
  }

  /** POST /api/save-itinerary: a missing payload is refused with 400 and
      the store is left alone; otherwise the payload is stored without an
      owner, with an empty country and empty dates turned into "" and null,
      stamped with `now`, and answered with 201 and the new record. */
  function Save(st: Store, data: Option<ItineraryData>, now: string): (r: (Store, Reply<Keyed<ItineraryFields>>))
    ensures data.None? ==> r == (st, Failure(400, "Itinerary data is required"))
    ensures data.Some? ==>
      && r.1.Ok? && r.1.status == 201
      && r.1.value.id == st.nextItinerary
      && r.0.itineraries == st.itineraries + [r.1.value]
      && r.0.users == st.users && r.0.destinations == st.destinations
    ensures data.Some? ==> var f := r.1.value.fields; var d := data.value;
      && f.userId.None?
      && f.destination == d.destination && f.totalBudget == d.totalBudget
      && f.days == d.days && f.preferences == d.preferences
      && f.country == Some(if d.country.Some? && d.country.value != "" then d.country.value else "")
      && (f.startDate.Some? <==> d.dates.Some? && d.dates.value.start.Some? && d.dates.value.start.value != "")
      && (f.startDate.Some? ==> f.startDate == d.dates.value.start)
      && (f.endDate.Some? <==> d.dates.Some? && d.dates.value.end.Some? && d.dates.value.end.value != "")
      && (f.endDate.Some? ==> f.endDate == d.dates.value.end)
      && f.itineraryData == d && f.createdAt == now
    ensures Valid(st) ==> Valid(r.0)
  {
    match data
    case None => (st, Failure(400, "Itinerary data is required"))
    case Some(d) =>
      var fields := ItineraryFields(
        None, d.destination, Some(OrString(d.country, "")),
        DateText(d.dates, true), DateText(d.dates, false),
        d.totalBudget, d.days, d.preferences, d, now);
      var (st', it) := CreateItinerary(st, fields);
      (st', Ok(201, it))
  }

  /** `itineraryData.dates?.start || null`, and the same for `end`. */
  function DateText(dates: Option<Dates>, start: bool): (r: Option<string>)
    ensures r.Some? ==> r.value != ""
  {
    match dates
    case None => None
    case Some(ds) =>
      var o := if start then ds.start else ds.end;
      if o.Some? && o.value != "" then o else None
  }

  /** GET /api/itineraries/:id: the record stored under the number the
      parameter spells, or 404 when the parameter is not a number, not a
      whole one, or names no record. */
  function GetById(st: Store, param: string): (r: Reply<Keyed<ItineraryFields>>)
    ensures r.Failure? ==> r == Failure(404, "Itinerary not found")
    ensures r.Ok? ==> r.status == 200 && r.value in st.itineraries
                      && NumberOf(param) == Some(r.value.id as real)
    ensures r.Ok? <==> NumberOf(param).Some? && KeyOf(NumberOf(param).value).Some?
                       && HasId(st.itineraries, KeyOf(NumberOf(param).value).value)
  {
    var found := match NumberOf(param)
      case None => None
      case Some(v) =>
        match KeyOf(v)
        case None => None
        case Some(id) => GetItinerary(st, id);
    match found
    case None => Failure(404, "Itinerary not found")
    case Some(it) => Ok(200, it)
  }

  /** GET /api/itineraries: without a `userId` query, with an empty one, or
      with one that reads as 0 or NaN, every record; otherwise the records
      whose owner is that number, which no record saved without an owner
      and no fractional number ever is. */
  function List(st: Store, query: Option<string>): (r: seq<Keyed<ItineraryFields>>)
    ensures query.None? || query.value == "" ==> r == st.itineraries
    ensures query.Some? && query.value != "" && (NumberOf(query.value).None? || NumberOf(query.value) == Some(0.0))
            ==> r == st.itineraries
    ensures query.Some? && query.value != "" && NumberOf(query.value).Some? && NumberOf(query.value) != Some(0.0) ==>
      forall x :: x in r <==> x in st.itineraries && x.fields.userId.Some?
                              && x.fields.userId.value as real == NumberOf(query.value).value
  {
    if query.None? || query.value == "" then st.itineraries
    else
      match NumberOf(query.value)
      case None => st.itineraries
      case Some(v) =>
        if v == 0.0 then st.itineraries
        else
          match KeyOf(v)
          case None => []
          case Some(user) => GetItineraries(st, Some(user))
  }

  /** `Number` reads back the decimal text of every natural number. */
  lemma NumberOfNatToString(n: nat)
    ensures NumberOf(NatToString(n)) == Some(n as real)
  {
    DigitsOfNat(n);
    NumberOfDigits(NatToString(n));
  }

  /** Text made of digits alone, with no sign, point or white space, is
      read as the number it writes. */
  lemma NumberOfDigits(s: string)
    requires |s| > 0 && AllDigits(s)
    ensures NumberOf(s) == Some(DigitsValue(s) as real)
  {
    assert Trim(s) == s by {
      assert !IsWhitespace(s[0]) && !IsWhitespace(s[|s| - 1]);
      TrimmedFixed(s);
    }
    NumberOfTrimmedDigits(s);
  }

  lemma NumberOfTrimmedDigits(s: string)
    requires |s| > 0 && AllDigits(s)
    ensures NumberOfTrimmed(s) == Some(DigitsValue(s) as real)
  {
    assert SignOf(s) == (false, s) && LeadingDigits(s) == |s| by {
      LeadingDigitsOfDigits(s);
    }
    assert UnsignedDecimal(s) == Some(DigitsValue(s) as real) by {
      UnsignedOfDigits(s);
    }
  }

  /** A run of digits alone is read as the number it writes. */
  lemma UnsignedOfDigits(s: string)
    requires |s| > 0 && AllDigits(s)
    ensures UnsignedDecimal(s) == Some(DigitsValue(s) as real)
  {
    LeadingDigitsOfDigits(s);
    assert s[..|s|] == s;
  }

  /** Blank text is the number 0, which a valid store never uses as an id:
      a blank id parameter is answered with 404. */
  lemma BlankIdNotFound(st: Store, param: string)
    requires Valid(st) && Trim(param) == ""
    ensures GetById(st, param) == Failure(404, "Itinerary not found")
  {
    forall k | 0 <= k < |st.itineraries|
      ensures st.itineraries[k].id != 0
    {
    }
  }

  /** Trailing text after the number makes it NaN, so "1abc" is not id 1. */
  lemma TrailingTextIsNaN()
    ensures NumberOf("1abc") == None
  {
    assert Trim("1abc") == "1abc" by {
      assert !IsWhitespace('1') && !IsWhitespace('c');
    }
    assert LeadingDigits("1abc") == 1 by {
      assert LeadingDigits("abc") == 0;
      assert "1abc"[1..] == "abc";
    }
  }

  /** A saved itinerary is read back by the decimal text of its id. */
  lemma SaveThenGetById(st: Store, d: ItineraryData, now: string)
    requires Valid(st)
    ensures var (st', r) := Save(st, Some(d), now);
      r.Ok? && r.value.id >= 1 && GetById(st', NatToString(r.value.id)) == Ok(200, r.value)
  {
    var (st', r) := Save(st, Some(d), now);
    NumberOfNatToString(r.value.id);
    FindAt(st'.itineraries, |st.itineraries|);
  }

  /** Saved itineraries have no owner, so a filter on any user leaves the
      newly saved record out. */
  lemma SavedRecordIsUnowned(st: Store, d: ItineraryData, now: string, query: string)
    requires query != "" && NumberOf(query).Some? && NumberOf(query) != Some(0.0)
    ensures var (st', r) := Save(st, Some(d), now);
      r.Ok? && r.value !in List(st', Some(query))
  {
  }
}

=== FILE: itinerary.dfy ===
/** `generateItinerary`: one record per day, built from the budget
    allocation's daily shares and from the item generators, with the request
    echoed around them. Dates are day numbers; `Date` arithmetic and ISO
    formatting are not modelled; an unparseable start date, on which
    `toISOString` throws, and an item generator that finds nothing make the
    whole call fail (`None`). */
module Itinerary {
  import opened Wrappers
  import opened Strings
  import opened Numbers
  import opened Budget
  import Schema
  import Osm
  import opened Mock

  /** What `new Date(startDate)` makes of the start date: nothing when the
      text is missing or empty, the day it names, or an invalid date. */
  datatype DateParse = Absent | Parsed(day: int) | Unparseable

  /** A validated request, with whole days and a whole budget, the date texts
      as sent and the parsed start date. */
  datatype TripRequest = TripRequest(
    destination: string, country: Option<string>, days: int, totalBudget: int,
    preferences: Schema.Preferences, startDate: Option<string>, endDate: Option<string>,
    startDay: DateParse)

  /** What one generator call sees: the OpenStreetMap answer and its draw. */
  datatype Lookup<T> = Lookup(found: seq<T>, draw: real)

  /** The six generator calls of one day, in call order. */
  datatype DayInputs = DayInputs(
    first: Lookup<Osm.Poi>, second: Lookup<Osm.Poi>, stay: Lookup<Osm.Lodging>,
    breakfast: Lookup<Osm.FoodPlace>, lunch: Lookup<Osm.FoodPlace>, dinner: Lookup<Osm.FoodPlace>)

  predicate ValidInputs(d: DayInputs) {
    && IsDraw(d.first.draw) && IsDraw(d.second.draw) && IsDraw(d.stay.draw)
    && IsDraw(d.breakfast.draw) && IsDraw(d.lunch.draw) && IsDraw(d.dinner.draw)
  }

  /** A meal slot; a food item's own `kind` overrides the slot's name. */
  datatype Meal = Meal(kind: string, food: Food)

  /** The day's accommodation with `costPerNight` copied from its cost. */
  datatype StayEntry = StayEntry(stay: Stay, costPerNight: Option<int>)

  datatype Transit = Transit(kind: string, description: string, cost: int)

  datatype Day = Day(
    day: int, date: Option<int>, title: string, accommodation: StayEntry, meals: seq<Meal>,
    activities: seq<Activity>, transportation: Transit, dailyCost: int, summary: string)

  datatype Itinerary = Itinerary(
    destination: string, country: Option<string>, days: int, totalBudget: int,
    budgetAllocation: Allocation, preferences: Schema.Preferences,
    start: Option<string>, end: Option<string>, itineraryDays: seq<Day>)

  /** Each category's share per day, `Math.round(amount / days)`. */
  function DailyShares(a: Allocation, days: int): (d: Allocation)
    requires days >= 1
    ensures IsRoundOf(d.accommodation, a.accommodation, days) && IsRoundOf(d.food, a.food, days)
    ensures IsRoundOf(d.activities, a.activities, days) && IsRoundOf(d.transportation, a.transportation, days)
  {
    Allocation(Round(a.accommodation, days), Round(a.food, days), Round(a.activities, days), Round(a.transportation, days))
  }

  const MealSlots: seq<string> := ["breakfast", "lunch", "dinner"]

  function MakeMeal(slot: string, f: Food): (m: Meal)
    ensures m.food == f
    ensures m.kind == f.kind.GetOr(slot)
  {
    Meal(f.kind.GetOr(slot), f)
  }

  /** "Day n: " followed by the first activity's name: the prefix "Day ",
      the day number's digits, ": ", and the name as the end of the title. */
  function Title(n: nat, first: Activity): (r: string)
    ensures |r| >= 7 + |first.name| && r[..4] == "Day "
    ensures r[|r| - |first.name| - 2..|r| - |first.name|] == ": " && r[|r| - |first.name|..] == first.name
    ensures forall i :: 4 <= i < |r| - |first.name| - 2 ==> '0' <= r[i] <= '9'
    ensures r[4..|r| - |first.name| - 2] == NatToString(n)
  {
    var digits := NatToString(n);
    var r := "Day " + digits + ": " + first.name;
    assert forall i :: 4 <= i < |r| - |first.name| - 2 ==> r[i] == digits[i - 4];
    assert r[4..|r| - |first.name| - 2] == digits;
    r
  }

  /** The digits of a title read back, by `parseInt`, as its day number. */
  lemma TitleDayNumber(n: nat, first: Activity)
    ensures var r := Title(n, first);
      ParseInt(r[4..|r| - |first.name| - 2]) == Some(n)
  {
    ParseIntOfNatToString(n);
  }

  /** The day's summary names the destination, both activities and the
      accommodation. */
  function Summary(destination: string, a: Activity, b: Activity, s: Stay): (r: string)
    ensures Contains(r, destination) && Contains(r, a.name) && Contains(r, b.name) && Contains(r, s.name)
  {
    var q1 := "Explore " + destination;
    var q2 := q1 + " with a visit to ";
    var q3 := q2 + a.name;
    var q4 := q3 + " and ";
    var q5 := q4 + b.name;
    var q6 := q5 + ". Stay at ";
    var q7 := q6 + s.name;
    var r := q7 + " and enjoy local cuisine.";
    ContainsEnd("Explore ", destination);
    ContainsMore(q1, " with a visit to ", destination);
    ContainsMore(q2, a.name, destination);
    ContainsEnd(q2, a.name);
    ContainsMore(q3, " and ", destination);
    ContainsMore(q3, " and ", a.name);
    ContainsMore(q4, b.name, destination);
    ContainsMore(q4, b.name, a.name);
    ContainsEnd(q4, b.name);
    ContainsMore(q5, ". Stay at ", destination);
    ContainsMore(q5, ". Stay at ", a.name);
    ContainsMore(q5, ". Stay at ", b.name);
    ContainsMore(q6, s.name, destination);
    ContainsMore(q6, s.name, a.name);
    ContainsMore(q6, s.name, b.name);
    ContainsEnd(q6, s.name);
    ContainsMore(q7, " and enjoy local cuisine.", destination);
    ContainsMore(q7, " and enjoy local cuisine.", a.name);
    ContainsMore(q7, " and enjoy local cuisine.", b.name);
    ContainsMore(q7, " and enjoy local cuisine.", s.name);
    r
  }

  /** What the six generator calls of one day return, in call order. */
  datatype DayItems = DayItems(first: Activity, second: Activity, stay: Stay, breakfast: Food, lunch: Food, dinner: Food)

  /** Some generator call of the day sees an empty OpenStreetMap answer and
      so falls back to the catalog. */
  predicate AnyEmpty(inputs: DayInputs) {
    || |inputs.first.found| == 0 || |inputs.second.found| == 0 || |inputs.stay.found| == 0
    || |inputs.breakfast.found| == 0 || |inputs.lunch.found| == 0 || |inputs.dinner.found| == 0
  }

  /** The six generator calls of one day, each with the request's destination
      and, for the accommodation and the meals, the preferred tier. They fail
      exactly when the destination is an inherited name and some call falls
      back to the catalog; otherwise every item comes from its own call's
      OpenStreetMap answer or catalog. */
  function Generate(req: TripRequest, inputs: DayInputs): (r: Option<DayItems>)
    requires ValidInputs(inputs)
    ensures r.None? <==> req.destination in InheritedNames && AnyEmpty(inputs)
    ensures r.Some? ==>
      && AttractionFrom(req.destination, inputs.first.found, r.value.first)
      && AttractionFrom(req.destination, inputs.second.found, r.value.second)
      && StayFrom(req.destination, req.preferences.accommodation, inputs.stay.found, r.value.stay)
      && FoodFrom(req.destination, req.preferences.food, inputs.breakfast.found, r.value.breakfast)
      && FoodFrom(req.destination, req.preferences.food, inputs.lunch.found, r.value.lunch)
      && FoodFrom(req.destination, req.preferences.food, inputs.dinner.found, r.value.dinner)
  {
    var first := MockAttraction(req.destination, inputs.first.found, inputs.first.draw);
    var second := MockAttraction(req.destination, inputs.second.found, inputs.second.draw);
    var stay := MockAccommodation(req.destination, req.preferences.accommodation, inputs.stay.found, inputs.stay.draw);
    var breakfast := MockFood(req.destination, req.preferences.food, inputs.breakfast.found, inputs.breakfast.draw);
    var lunch := MockFood(req.destination, req.preferences.food, inputs.lunch.found, inputs.lunch.draw);
    var dinner := MockFood(req.destination, req.preferences.food, inputs.dinner.found, inputs.dinner.draw);
    if first.Some? && second.Some? && stay.Some? && breakfast.Some? && lunch.Some? && dinner.Some? then
      Some(DayItems(first.value, second.value, stay.value, breakfast.value, lunch.value, dinner.value))
    else None
  }

  /** Day `i` (counted from 0) of the trip, assembled from its generated
      items and the daily shares. */
  function MakeDay(req: TripRequest, i: nat, g: DayItems, daily: Allocation): (d: Day)
    ensures d.day == i + 1
    ensures d.date == (if req.startDay.Parsed? then Some(req.startDay.day + i) else None)
    ensures d.activities == [g.first, g.second]
    ensures d.accommodation.stay == g.stay && d.accommodation.costPerNight == g.stay.cost
    ensures |d.meals| == 3
    ensures d.meals[0].food == g.breakfast && d.meals[1].food == g.lunch && d.meals[2].food == g.dinner
    ensures forall k :: 0 <= k < 3 ==> d.meals[k].kind == d.meals[k].food.kind.GetOr(MealSlots[k])
    ensures d.title == Title(i + 1, g.first)
    ensures d.transportation.cost == daily.transportation
    ensures d.dailyCost == Sum(daily)
    ensures d.summary == Summary(req.destination, g.first, g.second, g.stay)
  {
    Day(i + 1,
        if req.startDay.Parsed? then Some(req.startDay.day + i) else None,
        Title(i + 1, g.first),
        StayEntry(g.stay, g.stay.cost),
        [MakeMeal("breakfast", g.breakfast), MakeMeal("lunch", g.lunch), MakeMeal("dinner", g.dinner)],
        [g.first, g.second],
        Transit("Local Transit", "Daily public transportation", daily.transportation),
        Sum(daily),
        Summary(req.destination, g.first, g.second, g.stay))
  }

  /** The generators fail on some day of the trip. */
  predicate SomeDayFails(req: TripRequest, inputs: seq<DayInputs>)
    requires forall k :: 0 <= k < |inputs| ==> ValidInputs(inputs[k])
  {
    exists k :: 0 <= k < |inputs| && Generate(req, inputs[k]).None?
  }

  /** `generateItinerary`: it throws (`None`) when the start date is invalid
      or a generator call fails on some day; otherwise exactly `days` day
      records numbered 1..days in order, day `k` assembled from what the
      generators return on that day, dated from the start date when there is
      one, with the request's fields echoed unchanged. `inputs[k]` is what
      the generator calls of day `k` see. */
  method GenerateItinerary(req: TripRequest, inputs: seq<DayInputs>) returns (r: Option<Itinerary>)
    requires req.days >= 1 && |inputs| == req.days
    requires forall k :: 0 <= k < |inputs| ==> ValidInputs(inputs[k])
    ensures r.None? <==> req.startDay.Unparseable? || SomeDayFails(req, inputs)
    ensures r.Some? ==> var it := r.value;
      && it.destination == req.destination && it.country == req.country
      && it.days == req.days && it.totalBudget == req.totalBudget && it.preferences == req.preferences
      && it.start == req.startDate && it.end == req.endDate
      && it.budgetAllocation == GenerateBudgetAllocation(req.totalBudget, req.preferences.accommodation, req.preferences.food)
      && |it.itineraryDays| == req.days
      && forall k :: 0 <= k < req.days ==>
           && Generate(req, inputs[k]).Some?
           && it.itineraryDays[k] == MakeDay(req, k, Generate(req, inputs[k]).value, DailyShares(it.budgetAllocation, req.days))
           && it.itineraryDays[k].day == k + 1
  {
    if req.startDay.Unparseable? {
      return None;
    }
    var allocation := GenerateBudgetAllocation(req.totalBudget, req.preferences.accommodation, req.preferences.food);
    var results := seq(req.days, k requires 0 <= k < req.days => Generate(req, inputs[k]));
    assert forall k :: 0 <= k < req.days ==> results[k] == Generate(req, inputs[k]);
    var days := AssembleDays(req, results, DailyShares(allocation, req.days));
    if days.None? {
      var k :| 0 <= k < |results| && results[k].None?;
      assert Generate(req, inputs[k]).None?;
      return None;
    }
    r := Some(Itinerary(req.destination, req.country, req.days, req.totalBudget, allocation,
                        req.preferences, req.startDate, req.endDate, days.value));
  }

  /** The day loop of `generateItinerary`, over what the generators return
      on each day (they depend on nothing but their own inputs): it stops
      (`None`) at the first day whose generators fail; otherwise day `k` is
      assembled from day `k`'s items. */
  method AssembleDays(req: TripRequest, results: seq<Option<DayItems>>, daily: Allocation)
    returns (r: Option<seq<Day>>)
    ensures r.None? <==> exists k :: 0 <= k < |results| && results[k].None?
    ensures r.Some? ==> |r.value| == |results| && forall k :: 0 <= k < |results| ==>
      results[k].Some? && r.value[k] == MakeDay(req, k, results[k].value, daily)
  {
    var days: seq<Day> := [];
    var i := 0;
    while i < |results|
      invariant 0 <= i <= |results| && |days| == i
      invariant forall k :: 0 <= k < i ==> results[k].Some? && days[k] == MakeDay(req, k, results[k].value, daily)
    {
      if results[i].None? {
        return None;
      }
      days := days + [MakeDay(req, i, results[i].value, daily)];
      i := i + 1;
    }
    r := Some(days);
  }

  /** Rounding each category per day loses less than half a unit a day per
      category. */
  lemma {:induction false} DailyRoundingLoss(a: Allocation, days: int)
    requires days >= 1
    ensures -2 * days < days * Sum(DailyShares(a, days)) - Sum(a) <= 2 * days
  {
    var d := DailyShares(a, days);
    var ya, yf, yc, yt := days * d.accommodation, days * d.food, days * d.activities, days * d.transportation;
    Distribute(days, d.accommodation, d.food, d.activities, d.transportation);
    assert days * Sum(d) == ya + yf + yc + yt;
    assert 2 * ya <= 2 * a.accommodation + days < 2 * ya + 2 * days;
    assert 2 * yf <= 2 * a.food + days < 2 * yf + 2 * days;
    assert 2 * yc <= 2 * a.activities + days < 2 * yc + 2 * days;
    assert 2 * yt <= 2 * a.transportation + days < 2 * yt + 2 * days;
  }

  /** The daily cost times the number of days stays within about two units a
      day of the total budget: per-day rounding and per-category rounding are
      the only losses. */
  lemma {:induction false} DailyCostNearBudget(total: int, accommodation: string, food: string, days: int)
    requires days >= 1
    ensures var s := Sum(DailyShares(GenerateBudgetAllocation(total, accommodation, food), days));
      -2 * days - 1 < days * s - total <= 2 * days + 2
  {
    var a := GenerateBudgetAllocation(total, accommodation, food);
    SumNearTotal(total, accommodation, food);
    DailyRoundingLoss(a, days);
  }

  /** The two activities of a day are drawn independently, so the same
      attraction can fill both. */
  lemma ActivitiesMayRepeat(req: TripRequest, inputs: DayInputs)
    requires ValidInputs(inputs) && inputs.first == inputs.second && Generate(req, inputs).Some?
    ensures Generate(req, inputs).value.first == Generate(req, inputs).value.second
  {
  }

  /** A destination named "constructor" fails on any day whose first
      attraction falls back to the catalog, while OpenStreetMap items alone
      never fail. */
  lemma ConstructorFailsOnFallback(req: TripRequest, inputs: DayInputs)
    requires ValidInputs(inputs)
    ensures req.destination == "constructor" && |inputs.first.found| == 0 ==> Generate(req, inputs).None?
    ensures !AnyEmpty(inputs) ==> Generate(req, inputs).Some?
  {
  }

  /** With "luxury" and "fine" the daily transit share is zero or less for
      every admitted budget: the negative transportation amount reaches every
      day's transit entry. */
  lemma TransitNotPositiveForLuxuryFine(total: int, days: int)
    requires days >= 1 && total >= 200
    ensures DailyShares(GenerateBudgetAllocation(total, "luxury", "fine"), days).transportation <= 0
  {
    var a := GenerateBudgetAllocation(total, "luxury", "fine");
    TransportationNegativeIff(total, "luxury", "fine");
    var d := DailyShares(a, days);
    assert 2 * days * d.transportation <= 2 * a.transportation + days;
  }
}

=== FILE: itinerary_day.dfy ===
/** The card that shows one day of a generated itinerary: its header, the
    accommodation's star rating, the cost labels, the main area and the
    expand toggle. Currency and date formatting are not modelled. */
module ItineraryDay {
  import opened Wrappers
  import opened Strings
  import opened Mock
  import Itinerary
  import opened Budget

  /** The star icons of a rating: whole stars, an optional half star, and
      empty stars. */
  datatype Stars = Stars(full: int, half: bool, empty: int)

  /** `Math.ceil` on an exact real. */
  function Ceil(x: real): (r: int)
    ensures r as real - 1.0 < x <= r as real
  {
    -((-x).Floor)
  }

  /** JavaScript's `x % 1`, which keeps the sign of `x`. */
  function FractionOf(x: real): (r: real)
    ensures x >= 0.0 ==> r == x - x.Floor as real
    ensures x < 0.0 ==> r <= 0.0
  {
    if x >= 0.0 then x - x.Floor as real else x + (-x).Floor as real
  }

  /** The rating row: `floor(rating)` full stars, a half star when
      `rating % 1 > 0`, and `5 - ceil(rating)` empty stars. `Array(n)` throws
      for a negative or missing count, so a missing rating, a negative one
      or one above 5 renders nothing (`None`). */
  function StarsOf(rating: Option<real>): (r: Option<Stars>)
    ensures r.Some? <==> rating.Some? && 0.0 <= rating.value <= 5.0
    ensures r.Some? ==> r.value.full == rating.value.Floor && r.value.empty == 5 - Ceil(rating.value)
    ensures r.Some? ==> (r.value.half <==> rating.value != rating.value.Floor as real)
  {
    match rating
    case None => None
    case Some(x) =>
      var full := x.Floor;
      var empty := 5 - Ceil(x);
      if full < 0 || empty < 0 then None
      else Some(Stars(full, FractionOf(x) > 0.0, empty))
  }

  /** Every rating from 0 to 5 fills exactly five star places. */
  lemma StarsFillFive(x: real)
    requires 0.0 <= x <= 5.0
    ensures var s := StarsOf(Some(x)).value;
      s.full + (if s.half then 1 else 0) + s.empty == 5
  {
    var s := StarsOf(Some(x)).value;
    assert s.half ==> Ceil(x) == x.Floor + 1;
    assert !s.half ==> Ceil(x) == x.Floor;
  }

  /** A 4.5 rating shows four full stars, a half star and no empty one. */
  lemma FourAndAHalf()
    ensures StarsOf(Some(4.5)) == Some(Stars(4, true, 0))
  {
    assert (4.5).Floor == 4;
    assert Ceil(4.5) == 5;
  }

  /** `day.title.split(":")[1] || day.title`: the text between the first and
      second colon, or the whole title when that is missing or empty. */
  function Header(title: string): (r: string)
    ensures ':' !in title ==> r == title
  {
    var parts := Split(title, ':');
    assert ':' !in title ==> |parts| == 1 by {
      if ':' !in title { SplitFree(title, ':'); }
    }
    if |parts| > 1 && parts[1] != "" then parts[1] else title
  }

  /** A generated title "Day n: name" shows as " name" when the name has no
      colon; the card prints it after its own "Day n:". */
  lemma HeaderOfGeneratedTitle(n: nat, a: Activity)
    requires ':' !in a.name
    ensures Header(Itinerary.Title(n, a)) == " " + a.name
  {
    var p := "Day " + NatToString(n);
    var t := " " + a.name;
    assert Itinerary.Title(n, a) == p + [':'] + t;
    assert ':' !in p by {
      assert forall i :: 4 <= i < |p| ==> p[i] == NatToString(n)[i - 4];
    }
    SplitAfterPiece(p, ':', t);
    SplitFree(t, ':');
  }

  /** The text after the first colon, up to a second one, is the header
      when it is not empty: "Day 1: Louvre" shows " Louvre" and
      "a:b:c" shows "b". */
  lemma HeaderSecondPiece(a: string, b: string, tail: string)
    requires ':' !in a && ':' !in b && b != ""
    requires tail == "" || tail[0] == ':'
    ensures Header(a + [':'] + b + tail) == b
  {
    var t := b + tail;
    assert a + [':'] + b + tail == a + [':'] + t;
    SplitAfterPiece(a, ':', t);
    if tail == "" {
      assert t == b;
      SplitFree(b, ':');
    } else {
      assert t == b + [':'] + tail[1..];
      SplitAfterPiece(b, ':', tail[1..]);
    }
  }

  /** Nothing between the first two colons, or nothing after a last one,
      shows the whole title. */
  lemma HeaderEmptySecondPiece(a: string, tail: string)
    requires ':' !in a
    requires tail == "" || tail[0] == ':'
    ensures Header(a + [':'] + tail) == a + [':'] + tail
  {
    SplitAfterPiece(a, ':', tail);
    if tail == "" {
      assert Split(tail, ':') == [""];
    } else {
      assert tail == [] + [':'] + tail[1..];
      SplitAfterPiece([], ':', tail[1..]);
    }
  }

  /** A generated title whose name holds a colon shows only the name up to
      that colon: "Day 1: Musée: Louvre" shows " Musée". */
  lemma HeaderOfColonName(n: nat, a: Activity, b: string, c: string)
    requires a.name == b + ":" + c && ':' !in b
    ensures Header(Itinerary.Title(n, a)) == " " + b
  {
    var p := "Day " + NatToString(n);
    assert Itinerary.Title(n, a) == p + [':'] + (" " + b) + (":" + c);
    assert ':' !in p by {
      assert forall i :: 4 <= i < |p| ==> p[i] == NatToString(n)[i - 4];
    }
    HeaderSecondPiece(p, " " + b, ":" + c);
  }

  /** The price tag of an activity: a price when positive, else "Free". */
  datatype CostLabel = Free | Price(amount: real)

  function CostLabelOf(cost: real): (r: CostLabel)
    ensures r == Free <==> cost <= 0.0
    ensures r.Price? ==> r.amount == cost
  {
    if cost > 0.0 then Price(cost) else Free
  }

  /** The main area: the first activity's name, or "Various Locations" when
      there is no activity or its name is empty. */
  function MainArea(activities: seq<Activity>): (r: string)
    ensures |activities| > 0 && activities[0].name != "" ==> r == activities[0].name
    ensures |activities| == 0 || activities[0].name == "" ==> r == "Various Locations"
  {
    if |activities| > 0 && activities[0].name != "" then activities[0].name else "Various Locations"
  }

  /** A generated day's main area is its first attraction, unless that has no
      name. */
  lemma MainAreaOfGeneratedDay(req: Itinerary.TripRequest, i: nat, g: Itinerary.DayItems, daily: Allocation)
    requires g.first.name != ""
    ensures MainArea(Itinerary.MakeDay(req, i, g, daily).activities) == g.first.name
  {
  }

  /** The card starts expanded exactly when `isOpen` says so. */
  function InitiallyExpanded(isOpen: Option<bool>): (r: bool)
    ensures r <==> isOpen == Some(true)
  {
    isOpen.GetOr(false)
  }

  /** The expansion after `n` clicks on the header: every click flips what
      the clicks before it left. */
  function AfterClicks(expanded: bool, n: nat): (r: bool)
    ensures n == 0 ==> r == expanded
    ensures n > 0 ==> r == !AfterClicks(expanded, n - 1)
    decreases n
  {
    if n == 0 then expanded else AfterClicks(!expanded, n - 1)
  }

  /** An even number of clicks leaves the card as it was; an odd number
      flips it. */
  lemma {:induction false} ClicksParity(expanded: bool, n: nat)
    ensures AfterClicks(expanded, n) == (if n % 2 == 0 then expanded else !expanded)
    decreases n
  {
    if n > 0 {
      ClicksParity(!expanded, n - 1);
    }
  }
}

=== FILE: lists.dfy ===
/** Sequence shapes the services share, stated once for any element type. */
module Lists {

  /** A loop that pushes `f(x)` for every `x` that passes `keep`: the images
      of the kept items, in input order. */
  function FilterMap<A(!new), B>(xs: seq<A>, keep: A -> bool, f: A --> B): (r: seq<B>)
    requires forall x :: keep(x) ==> f.requires(x)
    ensures |r| <= |xs|
  {
    if |xs| == 0 then []
    else (if keep(xs[0]) then [f(xs[0])] else []) + FilterMap(xs[1..], keep, f)
  }

  /** Every item of the result is the image of a kept item. */
  lemma {:induction false} FilterMapSound<A(!new), B>(xs: seq<A>, keep: A -> bool, f: A --> B, y: B)
    requires forall x :: keep(x) ==> f.requires(x)
    requires y in FilterMap(xs, keep, f)
    ensures exists j :: 0 <= j < |xs| && keep(xs[j]) && y == f(xs[j])
  {
    var head := if keep(xs[0]) then [f(xs[0])] else [];
    assert FilterMap(xs, keep, f) == head + FilterMap(xs[1..], keep, f);
    if y in head {
      assert keep(xs[0]) && y == f(xs[0]);
    } else {
      FilterMapSound(xs[1..], keep, f, y);
      var j :| 0 <= j < |xs[1..]| && keep(xs[1..][j]) && y == f(xs[1..][j]);
      assert xs[1..][j] == xs[j + 1];
    }
  }

  /** Every kept item's image is in the result. */
  lemma {:induction false} FilterMapComplete<A(!new), B>(xs: seq<A>, keep: A -> bool, f: A --> B, j: int)
    requires forall x :: keep(x) ==> f.requires(x)
    requires 0 <= j < |xs| && keep(xs[j])
    ensures f(xs[j]) in FilterMap(xs, keep, f)
  {
    var head := if keep(xs[0]) then [f(xs[0])] else [];
    assert FilterMap(xs, keep, f) == head + FilterMap(xs[1..], keep, f);
    if j > 0 {
      assert xs[1..][j - 1] == xs[j];
      FilterMapComplete(xs[1..], keep, f, j - 1);
    }
  }

  /** Filtering and mapping distribute over concatenation. */
  lemma {:induction false} FilterMapAppend<A(!new), B>(xs: seq<A>, ys: seq<A>, keep: A -> bool, f: A --> B)
    requires forall x :: keep(x) ==> f.requires(x)
    ensures FilterMap(xs + ys, keep, f) == FilterMap(xs, keep, f) + FilterMap(ys, keep, f)
  {
    if |xs| == 0 {
      assert xs + ys == ys;
    } else {
      var head := if keep(xs[0]) then [f(xs[0])] else [];
      assert (xs + ys)[0] == xs[0] && (xs + ys)[1..] == xs[1..] + ys;
      assert FilterMap(xs + ys, keep, f) == head + FilterMap(xs[1..] + ys, keep, f);
      FilterMapAppend(xs[1..], ys, keep, f);
      assert FilterMap(xs, keep, f) == head + FilterMap(xs[1..], keep, f);
    }
  }
}

=== FILE: mock.dfy ===
/** The item generators of the itinerary route: an attraction, an
    accommodation or a meal is taken from the OpenStreetMap answer when it has
    one, and otherwise from a hand-written catalog keyed by the exact
    destination text, with a "default" entry. Each `Math.random()` draw is an
    explicit input. */
module Mock {
  import opened Wrappers
  import opened Numbers
  import Osm

  datatype Activity = Activity(name: string, description: string, cost: real, duration: string, imageUrl: string)

  /** An accommodation; an OpenStreetMap one may lack a price (a NaN) or a
      rating. */
  datatype Stay = Stay(name: string, description: string, cost: Option<int>, rating: Option<real>, imageUrl: string)

  /** Where an OpenStreetMap food place is. */
  datatype Spot = Spot(address: string, lat: real, lon: real)

  /** A meal option; an OpenStreetMap one carries its tier as `kind` and its
      location. */
  datatype Food = Food(name: string, description: string, cost: Option<int>, kind: Option<string>, spot: Option<Spot>)

  /** The entries of the hand-written catalogs: two cities and "default". */
  datatype CityKey = Paris | Tokyo | DefaultCity

  datatype StayTier = BudgetStay | MidRangeStay | LuxuryStay

  datatype FoodTier = BudgetFood | LocalFood | FineFood

  /** The names every JavaScript object inherits from `Object.prototype`. A
      catalog indexed by one of them yields that inherited member, which is
      truthy, so the "default" entry is not used and no catalog item is found. */
  const InheritedNames: set<string> := {
    "constructor", "__proto__", "toString", "toLocaleString", "valueOf", "hasOwnProperty",
    "isPrototypeOf", "propertyIsEnumerable", "__defineGetter__", "__defineSetter__",
    "__lookupGetter__", "__lookupSetter__"}

  /** The catalog entry of a destination: its own when the catalog has it (an
      exact, case-sensitive match), none for an inherited name, else
      "default". */
  function CityKeyOf(city: string): (k: Option<CityKey>)
    ensures k.None? <==> city in InheritedNames
    ensures k == Some(Paris) <==> city == "Paris"
    ensures k == Some(Tokyo) <==> city == "Tokyo"
  {
    if city == "Paris" then Some(Paris)
    else if city == "Tokyo" then Some(Tokyo)
    else if city in InheritedNames then None
    else Some(DefaultCity)
  }

  /** The catalog entry of an accommodation tier; unknown tiers use
      "mid-range". */
  function StayTierOf(tier: string): (k: StayTier)
    ensures k == BudgetStay <==> tier == "budget"
    ensures k == LuxuryStay <==> tier == "luxury"
  {
    if tier == "budget" then BudgetStay else if tier == "luxury" then LuxuryStay else MidRangeStay
  }

  /** The catalog entry of a food tier; unknown tiers use "local". */
  function FoodTierOf(tier: string): (k: FoodTier)
    ensures k == BudgetFood <==> tier == "budget"
    ensures k == FineFood <==> tier == "fine"
  {
    if tier == "budget" then BudgetFood else if tier == "fine" then FineFood else LocalFood
  }

  const ParisAttractions: seq<Activity> := [
    Activity("Eiffel Tower", "Iconic iron lattice tower", 25.0, "2-3 hours", "https://images.unsplash.com/photo-1543349689-9a4d426bee8e"),
    Activity("Louvre Museum", "World's largest art museum", 15.0, "3-4 hours", "https://images.unsplash.com/photo-1499856871958-5b9357976b82"),
    Activity("Notre-Dame Cathedral", "Medieval Catholic cathedral", 0.0, "1-2 hours", "https://images.unsplash.com/photo-1478391679764-b2d8b3cd1e94"),
    Activity("Seine River Cruise", "Scenic boat tour of Paris", 35.0, "1 hour", "https://images.unsplash.com/photo-1583265627959-fb7042f5133b"),
    Activity("Montmartre", "Historic arts district with stunning views", 0.0, "2-3 hours", "https://images.unsplash.com/photo-1551634979-2b11f8c218da"),
    Activity("Champs-Élysées", "Famous avenue with luxury shopping", 0.0, "2 hours", "https://images.unsplash.com/photo-1520939817895-060bdaf4fe1b")
  ]

  const TokyoAttractions: seq<Activity> := [
    Activity("Shibuya Crossing", "Famous bustling intersection", 0.0, "1 hour", "https://images.unsplash.com/photo-1542051841857-5f90071e7989"),
    Activity("Tokyo Skytree", "Tallest tower in Japan", 20.0, "2 hours", "https://images.unsplash.com/photo-1536098561742-ca998e48cbcc"),
    Activity("Meiji Shrine", "Shinto shrine dedicated to Emperor Meiji", 0.0, "1-2 hours", "https://images.unsplash.com/photo-1583889659384-ac0295c95f40"),
    Activity("Sensō-ji Temple", "Ancient Buddhist temple", 0.0, "1 hour", "https://images.unsplash.com/photo-1570459027562-4a916cc6b0a6")
  ]

  const DefaultAttractions: seq<Activity> := [
    Activity("City Tour", "Explore the city highlights", 30.0, "3 hours", "https://images.unsplash.com/photo-1476304884326-cd2c88572c5f"),
    Activity("Local Museum", "Learn about the local history", 15.0, "2 hours", "https://images.unsplash.com/photo-1553701879-4aa576804f65"),
    Activity("Nature Walk", "Enjoy the natural surroundings", 0.0, "2 hours", "https://images.unsplash.com/photo-1513836279014-a89f7a76ae86")
  ]

  /** The catalog attractions of a destination key. */
  function Attractions(key: CityKey): (r: seq<Activity>)
    ensures |r| > 0
  {
    match key
    case Paris => ParisAttractions
    case Tokyo => TokyoAttractions
    case DefaultCity => DefaultAttractions
  }

  function CatalogStay(name: string, description: string, cost: int, rating: real, imageUrl: string): Stay {
    Stay(name, description, Some(cost), Some(rating), imageUrl)
  }

  /** The catalog accommodation of a destination key and a tier key. */
  function StayCatalog(cityKey: CityKey, tierKey: StayTier): Stay {
    match (cityKey, tierKey)
    case (Paris, BudgetStay) => CatalogStay("Le Budget Hostel", "Affordable hostel in central Paris", 60, 3.5, "https://images.unsplash.com/photo-1590856029826-c7a73142bbf1")
    case (Paris, LuxuryStay) => CatalogStay("Grand Palais Hotel", "Luxury 5-star hotel near Champs-Élysées", 350, 4.8, "https://images.unsplash.com/photo-1551882547-ff40c63fe5fa")
    case (Paris, MidRangeStay) => CatalogStay("Hotel Parisien", "Comfortable hotel in Montmartre district", 135, 4.0, "https://images.unsplash.com/photo-1566073771259-6a8506099945")
    case (Tokyo, BudgetStay) => CatalogStay("Tokyo Backpackers", "Clean and modern hostel", 45, 3.7, "https://images.unsplash.com/photo-1598928636135-d146006ff4be")
    case (Tokyo, LuxuryStay) => CatalogStay("Imperial Tokyo", "Elegant 5-star accommodation", 290, 4.7, "https://images.unsplash.com/photo-1445019980597-93fa8acb246c")
    case (Tokyo, MidRangeStay) => CatalogStay("Shinjuku City Hotel", "Convenient location near train station", 125, 4.1, "https://images.unsplash.com/photo-1621293954908-907159247fc8")
    case (DefaultCity, BudgetStay) => CatalogStay("City Hostel", "Budget-friendly option", 40, 3.5, "https://images.unsplash.com/photo-1555854877-bab0e564b8d5")
    case (DefaultCity, LuxuryStay) => CatalogStay("Grand Plaza Hotel", "Luxury accommodation", 250, 4.5, "https://images.unsplash.com/photo-1551882547-ff40c63fe5fa")
    case (DefaultCity, MidRangeStay) => CatalogStay("Comfort Inn", "Mid-range hotel with good amenities", 100, 4.0, "https://images.unsplash.com/photo-1537833633404-f09d5f12f41a")
  }

  /** Three meal options, each with a price and none with a tier. */
  predicate IsMenu(r: seq<Food>) {
    |r| == 3 && forall k :: 0 <= k < 3 ==> r[k].kind.None? && r[k].cost.Some?
  }

  function Menu(a: (string, string, int), b: (string, string, int), c: (string, string, int)): (r: seq<Food>)
    ensures IsMenu(r)
  {
    [Food(a.0, a.1, Some(a.2), None, None), Food(b.0, b.1, Some(b.2), None, None), Food(c.0, c.1, Some(c.2), None, None)]
  }

  /** The catalog meal options of a destination key and a tier key: three
      each, priced and without a tier. */
  function FoodCatalog(cityKey: CityKey, tierKey: FoodTier): (r: seq<Food>)
    ensures IsMenu(r)
  {
    match cityKey
    case Paris => ParisMenu(tierKey)
    case Tokyo => TokyoMenu(tierKey)
    case DefaultCity => DefaultMenu(tierKey)
  }

  function ParisMenu(tierKey: FoodTier): (r: seq<Food>)
    ensures IsMenu(r)
  {
    match tierKey
    case BudgetFood => Menu(
        ("Le Petit Café", "Simple French breakfast", 10),
        ("Boulangerie Moderne", "Fresh baguettes and pastries", 8),
        ("Crêpe Stand", "Street food crêpes", 6))
    case FineFood => Menu(
        ("L'Authentique", "Gourmet French breakfast", 25),
        ("Bistro Élégant", "Fine dining lunch", 45),
        ("Le Grand Restaurant", "Michelin-starred dinner", 120))
    case LocalFood => Menu(
        ("Café de Paris", "Traditional French breakfast", 15),
        ("Le Petit Bistro", "Local cuisine lunch", 25),
        ("Chez Marie", "Traditional dinner", 35))
  }

  function TokyoMenu(tierKey: FoodTier): (r: seq<Food>)
    ensures IsMenu(r)
  {
    match tierKey
    case BudgetFood => Menu(
        ("Yoshinoya", "Fast-food beef bowls", 7),
        ("Convenience Store Bento", "Pre-made meals", 5),
        ("Ramen Stand", "Quick noodle soup", 8))
    case FineFood => Menu(
        ("Ginza Kaiseki", "Multi-course traditional meal", 80),
        ("Tokyo Teppanyaki", "Premium grilled dishes", 60),
        ("Sushi Omakase", "Chef's selection sushi experience", 100))
    case LocalFood => Menu(
        ("Sushi-Ya", "Fresh local sushi", 30),
        ("Izakaya Tanuki", "Japanese pub food", 25),
        ("Tempura House", "Traditional tempura dishes", 20))
  }

  function DefaultMenu(tierKey: FoodTier): (r: seq<Food>)
    ensures IsMenu(r)
  {
    match tierKey
    case BudgetFood => Menu(
        ("City Cafe", "Quick breakfast options", 8),
        ("Corner Deli", "Sandwiches and salads", 10),
        ("Street Food Stand", "Local fast food", 7))
    case FineFood => Menu(
        ("Gourmet Café", "Upscale breakfast", 20),
        ("Fine Dining Lunch", "Elegant midday meal", 40),
        ("Premium Restaurant", "Sophisticated dinner experience", 75))
    case LocalFood => Menu(
        ("Local Breakfast Spot", "Regional morning dishes", 12),
        ("Traditional Lunch", "Authentic midday meal", 18),
        ("Neighborhood Restaurant", "Evening local specialties", 25))
  }

  /** `list[Math.floor(r * list.length)]`: an element of the list. */
  function Pick<T>(list: seq<T>, r: real): (x: T)
    requires |list| > 0 && IsDraw(r)
    ensures x in list
  {
    list[RandomBelow(r, |list|)]
  }

  /** Every element can be picked: the draw `k / n` picks the `k`-th. */
  lemma PickReachesEvery<T>(list: seq<T>, k: nat)
    requires k < |list|
    ensures IsDraw(k as real / |list| as real)
    ensures Pick(list, k as real / |list| as real) == list[k]
  {
    var n := |list| as real;
    var r := k as real / n;
    assert r * n == k as real;
    assert RandomBelow(r, |list|) == k;
  }

  const DefaultAttractionImage: string := "https://images.unsplash.com/photo-1553701879-4aa576804f65"

  /** An OpenStreetMap point as an attraction. */
  function FromPoi(p: Osm.Poi): (a: Activity)
    ensures a.name == p.name && a.description == p.description && a.cost == p.estimatedCost
    ensures a.duration == p.estimatedDuration && a.imageUrl == OrString(p.image, DefaultAttractionImage)
  {
    Activity(p.name, p.description, p.estimatedCost, p.estimatedDuration, OrString(p.image, DefaultAttractionImage))
  }

  /** `a` is what the attraction generator can return: a point of a
      non-empty OpenStreetMap answer, or else an attraction of the
      destination's catalog entry. */
  predicate AttractionFrom(city: string, found: seq<Osm.Poi>, a: Activity) {
    if |found| > 0 then exists k :: 0 <= k < |found| && a == FromPoi(found[k])
    else city !in InheritedNames && a in Attractions(CityKeyOf(city).value)
  }

  /** `generateMockAttraction`: a random point from the OpenStreetMap answer,
      or a random catalog attraction when the answer is empty. For an
      inherited name the pick is `undefined` (`None`), and the caller's
      `.name` throws. */
  function MockAttraction(city: string, found: seq<Osm.Poi>, r: real): (a: Option<Activity>)
    requires IsDraw(r)
    ensures a.None? <==> |found| == 0 && city in InheritedNames
    ensures a.Some? ==> AttractionFrom(city, found, a.value)
  {
    if |found| > 0 then
      var k := RandomBelow(r, |found|);
      Some(FromPoi(found[k]))
    else
      match CityKeyOf(city)
      case None => None
      case Some(key) => Some(Pick(Attractions(key), r))
  }

  /** An OpenStreetMap accommodation as a stay: its price becomes the cost. */
  function FromLodging(l: Osm.Lodging): (s: Stay)
    ensures s.name == l.poi.name && s.description == l.poi.description
    ensures s.cost == l.costPerNight && s.rating == l.rating && s.imageUrl == l.imageUrl
  {
    Stay(l.poi.name, l.poi.description, l.costPerNight, l.rating, l.imageUrl)
  }

  /** `s` is what the accommodation generator can return: one of a
      non-empty OpenStreetMap answer, or else the catalog stay of the
      destination and tier. */
  predicate StayFrom(city: string, tier: string, found: seq<Osm.Lodging>, s: Stay) {
    if |found| > 0 then exists k :: 0 <= k < |found| && s == FromLodging(found[k])
    else city !in InheritedNames && s == StayCatalog(CityKeyOf(city).value, StayTierOf(tier))
  }

  /** `generateMockAccommodation`: a random OpenStreetMap accommodation, or
      the catalog one of the destination and tier (no draw needed). For an
      inherited name both tier lookups are `undefined` (`None`), and the
      caller's `.cost` throws. */
  function MockAccommodation(city: string, tier: string, found: seq<Osm.Lodging>, r: real): (s: Option<Stay>)
    requires IsDraw(r)
    ensures s.None? <==> |found| == 0 && city in InheritedNames
    ensures s.Some? ==> StayFrom(city, tier, found, s.value)
  {
    if |found| > 0 then
      var k := RandomBelow(r, |found|);
      Some(FromLodging(found[k]))
    else
      match CityKeyOf(city)
      case None => None
      case Some(key) => Some(StayCatalog(key, StayTierOf(tier)))
  }

  /** An OpenStreetMap food place as a meal option; it keeps its tier. */
  function FromFoodPlace(f: Osm.FoodPlace): (m: Food)
    ensures m.name == f.name && m.kind == Some(f.kind) && m.cost == f.cost
  {
    Food(f.name, f.description, f.cost, Some(f.kind), Some(Spot(f.address, f.lat, f.lon)))
  }

  /** `m` is what the food generator can return: a place of a non-empty
      OpenStreetMap answer, or else an option of the catalog menu of the
      destination and tier, which carries no tier of its own. */
  predicate FoodFrom(city: string, tier: string, found: seq<Osm.FoodPlace>, m: Food) {
    if |found| > 0 then exists k :: 0 <= k < |found| && m == FromFoodPlace(found[k])
    else city !in InheritedNames && m in FoodCatalog(CityKeyOf(city).value, FoodTierOf(tier)) && m.kind.None?
  }

  /** `generateMockFood`: a random OpenStreetMap food place, or a random
      catalog option of the destination and tier. For an inherited name the
      menu is `undefined`, and reading its `length` throws (`None`). */
  function MockFood(city: string, tier: string, found: seq<Osm.FoodPlace>, r: real): (m: Option<Food>)
    requires IsDraw(r)
    ensures m.None? <==> |found| == 0 && city in InheritedNames
    ensures m.Some? ==> FoodFrom(city, tier, found, m.value)
  {
    if |found| > 0 then
      var k := RandomBelow(r, |found|);
      Some(FromFoodPlace(found[k]))
    else
      match CityKeyOf(city)
      case None => None
      case Some(key) =>
        var menu := FoodCatalog(key, FoodTierOf(tier));
        assert forall k :: 0 <= k < |menu| ==> menu[k].kind.None?;
        Some(Pick(menu, r))
  }

  /** The destination key is case-sensitive: "paris" gets the default
      catalog. */
  lemma LowerCaseCityUsesDefault(r: real)
    requires IsDraw(r)
    ensures MockAttraction("paris", [], r).Some?
    ensures MockAttraction("paris", [], r).value in DefaultAttractions
  {
  }

  /** A destination named like an inherited member finds no catalog item, for
      every accommodation and food tier. */
  lemma InheritedNameFindsNothing(city: string, tier: string, r: real)
    requires IsDraw(r) && city in InheritedNames
    ensures MockAttraction(city, [], r).None?
    ensures MockAccommodation(city, tier, [], r).None?
    ensures MockFood(city, tier, [], r).None?
  {
  }
}

=== FILE: numbers.dfy ===
/** Number handling of the JavaScript runtime as the core uses it: `Math.round`,
    `Math.ceil` of a quotient, `parseInt`, `parseFloat`, `toFixed(1)` and the
    `/\d+(\.\d+)?/` match. Numbers are exact (`int`, `real`); binary
    floating-point artefacts are not modelled. */
module Numbers {
  import opened Wrappers
  import opened Strings

  /** `r` is `Math.round(num / den)`: within half of the quotient, halves
      going up. */
  predicate IsRoundOf(r: int, num: int, den: nat) {
    2 * den * r <= 2 * num + den < 2 * den * r + 2 * den
  }

  /** `Math.round(num / den)`: the nearest integer, halves rounded up (towards
      +infinity, also for negative quotients). */
  function Round(num: int, den: nat): (r: int)
    requires den > 0
    ensures 2 * den * r <= 2 * num + den < 2 * den * r + 2 * den
    ensures IsRoundOf(r, num, den)
  {
    var q := (2 * num + den) / (2 * den);
    DivBounds(2 * num + den, 2 * den);
    q
  }

  lemma DivBounds(a: int, b: int)
    requires b > 0
    ensures b * (a / b) <= a < b * (a / b) + b
  {
  }

  /** `Math.round(x)` on an exact real. */
  function RoundReal(x: real): (r: int)
    ensures r as real - 0.5 <= x < r as real + 0.5
  {
    (x + 0.5).Floor
  }

  /** `Math.ceil(a / b)` for a positive divisor. */
  function CeilDiv(a: int, b: nat): (r: int)
    requires b > 0
    ensures b * (r - 1) < a <= b * r
  {
    DivBounds(a + b - 1, b);
    (a + b - 1) / b
  }

  /** `Math.max(a, b)` on numbers that are not NaN. */
  function MaxReal(a: real, b: real): (r: real)
    ensures r >= a && r >= b && (r == a || r == b)
  {
    if a >= b then a else b
  }

  /** `Math.min(a, b)` on numbers that are not NaN. */
  function MinReal(a: real, b: real): (r: real)
    ensures r <= a && r <= b && (r == a || r == b)
  {
    if a <= b then a else b
  }

  /** A draw of `Math.random()`: a real in [0, 1). */
  predicate IsDraw(r: real) {
    0.0 <= r < 1.0
  }

  /** `Math.floor(r * n)` for a draw `r`: an index below `n`. */
  function RandomBelow(r: real, n: nat): (k: nat)
    requires IsDraw(r) && n > 0
    ensures k < n
    ensures k as real <= r * n as real < k as real + 1.0
  {
    var m := n as real;
    ProductBelow(r, m);
    (r * m).Floor
  }

  lemma ProductBelow(r: real, m: real)
    requires 0.0 <= r < 1.0 && m > 0.0
    ensures 0.0 <= r * m < m
  {
    assert m - r * m == (1.0 - r) * m;
    assert (1.0 - r) * m > 0.0;
  }

  predicate IsDigit(c: char) {
    '0' <= c <= '9'
  }

  function DigitValue(c: char): nat
    requires IsDigit(c)
  {
    c as int - '0' as int
  }

  predicate AllDigits(s: string) {
    forall i :: 0 <= i < |s| ==> IsDigit(s[i])
  }

  /** The number written by a run of decimal digits. */
  function DigitsValue(d: string): nat
    requires AllDigits(d)
  {
    if |d| == 0 then 0 else 10 * DigitsValue(d[..|d| - 1]) + DigitValue(d[|d| - 1])
  }

  /** The length of the run of digits at the start of `s`. */
  function LeadingDigits(s: string): (n: nat)
    ensures n <= |s|
    ensures AllDigits(s[..n])
    ensures n < |s| ==> !IsDigit(s[n])
  {
    if |s| > 0 && IsDigit(s[0]) then
      var n := 1 + LeadingDigits(s[1..]);
      assert s[..n] == [s[0]] + s[1..][..n - 1];
      n
    else 0
  }

  function Pow10(k: nat): (r: nat)
    ensures r >= 1
  {
    if k == 0 then 1 else 10 * Pow10(k - 1)
  }

  /** Splits an optional leading sign off `t`. */
  function SignOf(t: string): (r: (bool, string))
    ensures |r.1| <= |t|
  {
    if |t| > 0 && t[0] == '-' then (true, t[1..])
    else if |t| > 0 && t[0] == '+' then (false, t[1..])
    else (false, t)
  }

  /** A `0x` or `0X` prefix, which makes `parseInt` read base 16. */
  predicate HexPrefixed(u: string) {
    |u| >= 2 && u[0] == '0' && (u[1] == 'x' || u[1] == 'X')
  }

  predicate IsHexDigit(c: char) {
    IsDigit(c) || 'a' <= c <= 'f' || 'A' <= c <= 'F'
  }

  function HexDigitValue(c: char): (v: nat)
    requires IsHexDigit(c)
    ensures v < 16
  {
    if IsDigit(c) then DigitValue(c)
    else if 'a' <= c <= 'f' then c as int - 'a' as int + 10
    else c as int - 'A' as int + 10
  }

  predicate AllHexDigits(s: string) {
    forall i :: 0 <= i < |s| ==> IsHexDigit(s[i])
  }

  /** The number written by a run of hexadecimal digits. */
  function HexValue(d: string): nat
    requires AllHexDigits(d)
  {
    if |d| == 0 then 0 else 16 * HexValue(d[..|d| - 1]) + HexDigitValue(d[|d| - 1])
  }

  /** The length of the run of hexadecimal digits at the start of `s`. */
  function LeadingHexDigits(s: string): (n: nat)
    ensures n <= |s|
    ensures AllHexDigits(s[..n])
    ensures n < |s| ==> !IsHexDigit(s[n])
  {
    if |s| > 0 && IsHexDigit(s[0]) then
      var n := 1 + LeadingHexDigits(s[1..]);
      assert s[..n] == [s[0]] + s[1..][..n - 1];
      n
    else 0
  }

  /** `parseInt(s)` without a radix: leading white space, an optional sign,
      then either `0x`/`0X` and the longest run of hexadecimal digits, or the
      longest run of decimal digits; `None` (NaN) when that run is empty. A
      minus sign is the only way to a negative result, and text that starts
      with a decimal digit and no `0x` always reads as a number. */
  function ParseInt(s: string): (r: Option<int>)
    ensures r.Some? && r.value < 0 ==> SignOf(TrimStart(s)).0
    ensures |s| > 0 && IsDigit(s[0]) && !HexPrefixed(s) ==> r.Some? && r.value >= 0
  {
    UnsignedStart(s);
    var (negative, u) := SignOf(TrimStart(s));
    if HexPrefixed(u) then
      var n := LeadingHexDigits(u[2..]);
      if n == 0 then None
      else
        var v: int := HexValue(u[2..][..n]);
        Some(if negative then -v else v)
    else
      var n := LeadingDigits(u);
      if n == 0 then None
      else
        var v: int := DigitsValue(u[..n]);
        Some(if negative then -v else v)
  }

  /** `parseInt("0x10")` is 16: the prefix selects base 16. */
  lemma ParseIntHex()
    ensures ParseInt("0x10") == Some(16)
  {
    var u := "0x10";
    assert !IsWhitespace(u[0]);
    assert SignOf(TrimStart(u)) == (false, u);
    assert u[2..] == "10";
    assert LeadingHexDigits("10") == 2 by {
      assert "10"[1..] == "0" && "0"[1..] == "";
    }
    assert "10"[..2] == "10" && "10"[..1] == "1" && "1"[..0] == "";
  }

  /** `parseInt("3.5")` is 3: reading stops at the first non-digit. */
  lemma ParseIntStopsAtPoint()
    ensures ParseInt("3.5") == Some(3)
  {
    var t := "3.5";
    assert !IsWhitespace(t[0]) && SignOf(TrimStart(t)) == (false, t);
    assert LeadingDigits(t) == 1 by {
      assert t[1..] == ".5" && LeadingDigits(".5") == 0;
    }
    assert t[..1] == "3" && "3"[..0] == "";
  }

  /** `parseFloat(s)` without exponents or `Infinity`: leading white space, an
      optional sign, digits, and an optional `.` followed by digits; `None` (NaN)
      when no digit is present. */
  function ParseFloat(s: string): (r: Option<real>)
    ensures r.Some? && r.value < 0.0 ==> SignOf(TrimStart(s)).0
    ensures |s| > 0 && IsDigit(s[0]) ==> r.Some? && r.value >= 0.0
  {
    UnsignedStart(s);
    var (negative, u) := SignOf(TrimStart(s));
    var v := UnsignedDecimal(u);
    if v.None? then None else Some(if negative then -v.value else v.value)
  }

  /** Digits and an optional `.` followed by digits at the start of `u`;
      `None` when no digit is present. */
  function UnsignedDecimal(u: string): (r: Option<real>)
    ensures r.Some? ==> r.value >= 0.0
    ensures r.None? <==> LeadingDigits(u) == 0 && !(0 < |u| && u[0] == '.' && LeadingDigits(u[1..]) > 0)
  {
    var n := LeadingDigits(u);
    var f := if n < |u| && u[n] == '.' then LeadingDigits(u[n + 1..]) else 0;
    if n + f == 0 then None
    else
      var whole := DigitsValue(u[..n]) as real;
      var frac := if f == 0 then 0.0 else DigitsValue(u[n + 1..][..f]) as real / Pow10(f) as real;
      Some(whole + frac)
  }

  /** The value of the leftmost match of `/\d+(\.\d+)?/` in `s`, read by
      `parseFloat`; `None` when `s` has no digit. */
  function FirstDecimal(s: string): (r: Option<real>)
    ensures r.Some? ==> r.value >= 0.0
    ensures r.None? <==> forall i :: 0 <= i < |s| ==> !IsDigit(s[i])
    decreases |s|
  {
    if |s| == 0 then None
    else if !IsDigit(s[0]) then FirstDecimal(s[1..])
    else
      // The match starts here, and `parseFloat` of the match reads the
      // same digits, point and fraction that it reads at this position.
      assert LeadingDigits(s) > 0 by { assert s[..1] == [s[0]]; }
      UnsignedDecimal(s)
  }

  /** `t` can follow a run of digits that the number ends with: it starts
      with no digit, and with no `.` followed by a digit. */
  predicate EndsWhole(t: string) {
    |t| == 0 || (!IsDigit(t[0]) && !(t[0] == '.' && |t| > 1 && IsDigit(t[1])))
  }

  /** `t` can follow the digits of a fraction: it starts with no digit. */
  predicate EndsFraction(t: string) {
    |t| == 0 || !IsDigit(t[0])
  }

  /** The number written by digits `w`, a point and fraction digits `d`. */
  function DecimalValue(w: string, d: string): real
    requires AllDigits(w) && AllDigits(d)
  {
    DigitsValue(w) as real + DigitsValue(d) as real / Pow10(|d|) as real
  }

  /** The digit run of `w + t` is exactly `w` when `t` starts with no digit. */
  lemma LeadingDigitsRun(w: string, t: string)
    requires AllDigits(w) && EndsFraction(t)
    ensures LeadingDigits(w + t) == |w| && (w + t)[..|w|] == w
  {
    if |t| == 0 {
      assert w + t == w;
      LeadingDigitsOfDigits(w);
    } else {
      LeadingDigitsStop(w, t);
    }
  }

  /** Digits followed by text that does not continue the number read as the
      digits' value. */
  lemma UnsignedWhole(w: string, t: string)
    requires |w| > 0 && AllDigits(w) && EndsWhole(t)
    ensures UnsignedDecimal(w + t) == Some(DigitsValue(w) as real)
  {
    var u := w + t;
    LeadingDigitsRun(w, t);
    if |t| > 0 && t[0] == '.' {
      assert u[|w| + 1..] == t[1..];
      assert LeadingDigits(t[1..]) == 0;
    }
  }

  /** Digits, a point and fraction digits, followed by text that starts with
      no digit, read as whole part plus fraction. */
  lemma UnsignedFraction(w: string, d: string, t: string)
    requires |w| > 0 && AllDigits(w) && |d| > 0 && AllDigits(d) && EndsFraction(t)
    ensures UnsignedDecimal(w + "." + d + t) == Some(DecimalValue(w, d))
  {
    var u := w + "." + d + t;
    assert u == w + ("." + d + t);
    LeadingDigitsRun(w, "." + d + t);
    assert u[|w|] == '.' && u[|w| + 1..] == d + t;
    LeadingDigitsRun(d, t);
  }

  /** `parseFloat` of a run of digits is the number it writes. */
  lemma ParseFloatOfDigits(w: string)
    requires |w| > 0 && AllDigits(w)
    ensures ParseFloat(w) == Some(DigitsValue(w) as real)
  {
    ParseFloatAtDigit(w);
    UnsignedWhole(w, "");
    assert w + "" == w;
  }

  /** `parseFloat` of digits, a point and digits is whole part plus fraction;
      "3.75" reads as 3 + 75/100. */
  lemma ParseFloatOfDecimal(w: string, d: string)
    requires |w| > 0 && AllDigits(w) && |d| > 0 && AllDigits(d)
    ensures ParseFloat(w + "." + d) == Some(DecimalValue(w, d))
  {
    var s := w + "." + d;
    assert s[0] == w[0] && s + "" == s;
    ParseFloatAtDigit(s);
    UnsignedFraction(w, d, "");
  }

  /** Text that starts with a digit is read by `parseFloat` from its start. */
  lemma ParseFloatAtDigit(s: string)
    requires |s| > 0 && IsDigit(s[0])
    ensures ParseFloat(s) == UnsignedDecimal(s)
  {
    UnsignedStart(s);
  }

  /** Text without digits before the match does not change what is read. */
  lemma {:induction false} FirstDecimalSkip(p: string, s: string)
    requires forall i :: 0 <= i < |p| ==> !IsDigit(p[i])
    ensures FirstDecimal(p + s) == FirstDecimal(s)
  {
    if |p| > 0 {
      assert (p + s)[0] == p[0] && (p + s)[1..] == p[1..] + s;
      FirstDecimalSkip(p[1..], s);
    } else {
      assert p + s == s;
    }
  }

  /** The match of `/\d+(\.\d+)?/` in `p + w + t`, where `p` has no digit
      and `t` does not continue the number, is the value of `w`. */
  lemma FirstDecimalWhole(p: string, w: string, t: string)
    requires forall i :: 0 <= i < |p| ==> !IsDigit(p[i])
    requires |w| > 0 && AllDigits(w) && EndsWhole(t)
    ensures FirstDecimal(p + w + t) == Some(DigitsValue(w) as real)
  {
    assert p + w + t == p + (w + t);
    FirstDecimalSkip(p, w + t);
    assert (w + t)[0] == w[0];
    UnsignedWhole(w, t);
  }

  /** The match in `p + w + "." + d + t`, where `p` has no digit and `t`
      starts with none, is `w` plus the fraction `d`. */
  lemma FirstDecimalFraction(p: string, w: string, d: string, t: string)
    requires forall i :: 0 <= i < |p| ==> !IsDigit(p[i])
    requires |w| > 0 && AllDigits(w) && |d| > 0 && AllDigits(d) && EndsFraction(t)
    ensures FirstDecimal(p + w + "." + d + t) == Some(DecimalValue(w, d))
  {
    var u := w + "." + d + t;
    assert p + w + "." + d + t == p + u;
    FirstDecimalSkip(p, u);
    assert u[0] == w[0];
    UnsignedFraction(w, d, t);
  }

  /** The text of a number of tenths, `n / 10` with one decimal. */
  function FormatTenths(n: nat): (r: string)
    ensures |r| >= 3 && IsDigit(r[0]) && r[|r| - 2] == '.' && IsDigit(r[|r| - 1])
  {
    NatToString(n / 10) + "." + [DigitChar(n % 10)]
  }

  /** `x.toFixed(1)`: the nearest tenth, halves rounded away from zero. */
  function ToFixed1(x: real): (r: string)
    ensures |r| >= 3 && r[|r| - 2] == '.' && IsDigit(r[|r| - 1])
    ensures r[0] == '-' <==> x < 0.0
  {
    if x < 0.0 then "-" + FormatTenths(RoundReal(-x * 10.0)) else FormatTenths(RoundReal(x * 10.0))
  }

  /** The digits of a natural number read back as that number. */
  lemma {:induction false} DigitsOfNat(n: nat)
    ensures AllDigits(NatToString(n))
    ensures DigitsValue(NatToString(n)) == n
  {
    if n >= 10 {
      DigitsOfNat(n / 10);
      var s := NatToString(n);
      assert s[..|s| - 1] == NatToString(n / 10);
    }
  }

  /** `parseInt` reads back the decimal text of every natural number. */
  lemma ParseIntOfNatToString(n: nat)
    ensures ParseInt(NatToString(n)) == Some(n)
  {
    DigitsOfNat(n);
    ParseIntOfDigits(NatToString(n));
  }

  /** `parseInt` of a run of decimal digits is the number it writes. */
  lemma ParseIntOfDigits(s: string)
    requires |s| > 0 && AllDigits(s)
    ensures ParseInt(s) == Some(DigitsValue(s))
  {
    UnsignedStart(s);
    assert !HexPrefixed(s) by {
      assert |s| >= 2 ==> IsDigit(s[1]);
    }
    LeadingDigitsOfDigits(s);
    assert s[..|s|] == s;
  }

  /** Text that starts with a digit has no white space or sign to skip. */
  lemma UnsignedStart(s: string)
    ensures |s| > 0 && IsDigit(s[0]) ==> SignOf(TrimStart(s)) == (false, s)
  {
    if |s| > 0 && IsDigit(s[0]) {
      assert !IsWhitespace(s[0]);
    }
  }

  lemma {:induction false} LeadingDigitsOfDigits(s: string)
    requires AllDigits(s)
    ensures LeadingDigits(s) == |s|
  {
    if |s| > 0 {
      LeadingDigitsOfDigits(s[1..]);
    }
  }

  /** `parseFloat` reads back the one-decimal text of a number of tenths. */
  lemma ParseFloatOfTenths(n: nat)
    ensures ParseFloat(FormatTenths(n)) == Some(n as real / 10.0)
  {
    var w := NatToString(n / 10);
    var c := DigitChar(n % 10);
    var s := FormatTenths(n);
    var whole, tenth := n / 10, n % 10;
    assert AllDigits(w) && DigitsValue(w) == whole by {
      DigitsOfNat(n / 10);
    }
    assert IsDigit(c) && DigitValue(c) == tenth by {
      DigitCharValue(n % 10);
    }
    assert ParseFloat(s) == Some(DigitsValue(w) as real + DigitValue(c) as real / 10.0) by {
      FormatTenthsShape(n);
      ParseFloatOfOneDecimal(s, w, c);
    }
    assert whole as real + tenth as real / 10.0 == n as real / 10.0 by {
      TenthsSum(n);
    }
  }

  lemma DigitCharValue(d: nat)
    requires d < 10
    ensures IsDigit(DigitChar(d)) && DigitValue(DigitChar(d)) == d
  {
  }

  /** The text of `n` tenths: the whole part's digits, a point, one digit. */
  lemma FormatTenthsShape(n: nat)
    ensures var s, w := FormatTenths(n), NatToString(n / 10);
      |s| == |w| + 2 && s[..|w|] == w && s[|w|] == '.' && s[|w| + 1] == DigitChar(n % 10)
  {
  }

  /** `parseFloat` of digits, a point and one more digit. */
  lemma ParseFloatOfOneDecimal(s: string, w: string, c: char)
    requires |w| > 0 && AllDigits(w) && IsDigit(c)
    requires |s| == |w| + 2 && s[..|w|] == w && s[|w|] == '.' && s[|w| + 1] == c
    ensures ParseFloat(s) == Some(DigitsValue(w) as real + DigitValue(c) as real / 10.0)
  {
    assert s[0] == w[0];
    UnsignedStart(s);
    UnsignedOneDecimal(s, w, c);
  }

  lemma UnsignedOneDecimal(s: string, w: string, c: char)
    requires |w| > 0 && AllDigits(w) && IsDigit(c)
    requires |s| == |w| + 2 && s[..|w|] == w && s[|w|] == '.' && s[|w| + 1] == c
    ensures UnsignedDecimal(s) == Some(DigitsValue(w) as real + DigitValue(c) as real / 10.0)
  {
    var n := |w|;
    assert LeadingDigits(s) == n by {
      LeadingDigitsStop(w, s[n..]);
      assert s == w + s[n..];
    }
    assert s[n + 1..] == [c];
    OneDigit(c);
    UnsignedDecimalOneFraction(s, n);
  }

  /** The digits before the point and the one digit after it. */
  lemma UnsignedDecimalOneFraction(u: string, n: nat)
    requires LeadingDigits(u) == n && n > 0 && n + 1 < |u| && u[n] == '.'
    requires LeadingDigits(u[n + 1..]) == 1
    ensures UnsignedDecimal(u) == Some(DigitsValue(u[..n]) as real + DigitsValue(u[n + 1..][..1]) as real / 10.0)
  {
    assert Pow10(1) == 10 by {
      assert Pow10(0) == 1;
    }
    assert Pow10(1) as real == 10.0;
    var f := if n < |u| && u[n] == '.' then LeadingDigits(u[n + 1..]) else 0;
    assert f == 1;
    var whole := DigitsValue(u[..n]) as real;
    var frac := if f == 0 then 0.0 else DigitsValue(u[n + 1..][..f]) as real / Pow10(f) as real;
    assert frac == DigitsValue(u[n + 1..][..1]) as real / 10.0;
    assert UnsignedDecimal(u) == Some(whole + frac);
  }

  lemma OneDigit(c: char)
    requires IsDigit(c)
    ensures LeadingDigits([c]) == 1 && [c][..1] == [c] && DigitsValue([c]) == DigitValue(c)
  {
    assert [c][..0] == [];
  }

  /** `parseFloat(x.toFixed(1))` is the nearest tenth of a non-negative `x`:
      `n` tenths, where `n` is `x * 10` rounded. */
  lemma ToFixed1ReadsBack(x: real, n: nat)
    requires x >= 0.0 && n == RoundReal(x * 10.0)
    ensures ParseFloat(ToFixed1(x)) == Some(n as real / 10.0)
  {
    ToFixed1NonNegative(x);
    ParseFloatOfTenths(n);
  }

  lemma ToFixed1NonNegative(x: real)
    requires x >= 0.0
    ensures RoundReal(x * 10.0) >= 0
    ensures ToFixed1(x) == FormatTenths(RoundReal(x * 10.0))
  {
  }

  lemma TenthsSum(n: nat)
    ensures (n / 10) as real + (n % 10) as real / 10.0 == n as real / 10.0
  {
    assert n == 10 * (n / 10) + n % 10;
  }

  /** The digit run of `w + t` stops where `w` ends when `t` starts with a
      non-digit. */
  lemma {:induction false} LeadingDigitsStop(w: string, t: string)
    requires AllDigits(w)
    requires |t| > 0 && !IsDigit(t[0])
    ensures LeadingDigits(w + t) == |w|
  {
    if |w| > 0 {
      assert (w + t)[1..] == w[1..] + t;
      LeadingDigitsStop(w[1..], t);
    }
  }
}

=== FILE: opentripmap.dfy ===
/** The OpenTripMap normaliser: location ids, tag to kind mapping, cost and
    duration estimates by kind, place details and the filtering of a radius
    search. The HTTP answers are inputs. */
module OpenTripMap {
  import opened Wrappers
  import opened Strings

  /** `s.replace(/\s+/g, '-')`: every maximal run of white space becomes one
      hyphen. */
  function HyphenateWhitespace(s: string): (r: string)
    ensures |r| <= |s|
    ensures forall i :: 0 <= i < |r| ==> !IsWhitespace(r[i])
    ensures IsLower(s) ==> IsLower(r)
    decreases |s|
  {
    if |s| == 0 then ""
    else if IsWhitespace(s[0]) then
      var rest := TrimStart(s);
      assert |rest| < |s|;
      "-" + HyphenateWhitespace(rest)
    else [s[0]] + HyphenateWhitespace(s[1..])
  }

  /** The id of a place name: lower-cased, white-space runs made hyphens. */
  function LocationIdOf(name: string): (r: string)
    ensures IsLower(r) && |r| <= |name|
    ensures forall i :: 0 <= i < |r| ==> !IsWhitespace(r[i])
  {
    HyphenateWhitespace(ToLower(name))
  }

  /** The name searched for an id: every hyphen made a space. */
  function NameFromId(id: string): (r: string)
    ensures |r| == |id| && '-' !in r
    ensures forall i :: 0 <= i < |id| ==> r[i] == (if id[i] == '-' then ' ' else id[i])
  {
    ReplaceAll(id, '-', ' ')
  }

  /** The two conversions are not inverse: a name comes back only when it is
      lower case and has no hyphen, so "New-York" is lost. */
  lemma RoundTripNeedsLowerWithoutHyphen(name: string)
    requires NameFromId(LocationIdOf(name)) == name
    ensures IsLower(name) && '-' !in name
  {
    var id := LocationIdOf(name);
    var back := NameFromId(id);
    forall i | 0 <= i < |back|
      ensures LowerChar(back[i]) == back[i]
    {
      assert LowerChar(id[i]) == id[i];
    }
  }

  /** Names whose only white space is single spaces between words, in lower
      case and without hyphens, survive the round trip. */
  lemma {:induction false} RoundTripOfPlainName(name: string)
    requires IsLower(name) && '-' !in name
    requires forall i :: 0 <= i < |name| ==> IsWhitespace(name[i]) ==> name[i] == ' '
    requires forall i :: 0 <= i < |name| - 1 ==> !(name[i] == ' ' && name[i + 1] == ' ')
    ensures NameFromId(LocationIdOf(name)) == name
  {
    LowerIsFixed(name);
    PlainHyphenated(name);
  }

  lemma {:induction false} LowerIsFixed(s: string)
    requires IsLower(s)
    ensures ToLower(s) == s
  {
  }

  lemma {:induction false} PlainHyphenated(s: string)
    requires '-' !in s
    requires forall i :: 0 <= i < |s| ==> IsWhitespace(s[i]) ==> s[i] == ' '
    requires forall i :: 0 <= i < |s| - 1 ==> !(s[i] == ' ' && s[i + 1] == ' ')
    ensures NameFromId(HyphenateWhitespace(s)) == s
  {
    if |s| > 0 {
      PlainHyphenated(s[1..]);
      var t := HyphenateWhitespace(s[1..]);
      if IsWhitespace(s[0]) {
        SingleSpace(s);
        NameFromIdCons('-', t);
      } else {
        NameFromIdCons(s[0], t);
      }
      assert [s[0]] + s[1..] == s;
    }
  }

  /** A lone space becomes a lone hyphen. */
  lemma SingleSpace(s: string)
    requires |s| > 0 && s[0] == ' ' && (|s| > 1 ==> !IsWhitespace(s[1]))
    ensures HyphenateWhitespace(s) == "-" + HyphenateWhitespace(s[1..])
  {
    assert TrimStart(s) == s[1..];
  }

  /** A whole run of white space at the start, however long, becomes one
      hyphen; with KeptCharacter this fixes the result for every text, so
      "new \t york" gives "new-york". */
  lemma WhitespaceRunHyphen(w: string, t: string)
    requires |w| > 0 && forall i :: 0 <= i < |w| ==> IsWhitespace(w[i])
    requires |t| == 0 || !IsWhitespace(t[0])
    ensures HyphenateWhitespace(w + t) == "-" + HyphenateWhitespace(t)
  {
    assert (w + t)[0] == w[0];
    TrimStartRun(w, t);
  }

  /** Any other character is kept as it is. */
  lemma KeptCharacter(c: char, t: string)
    requires !IsWhitespace(c)
    ensures HyphenateWhitespace([c] + t) == [c] + HyphenateWhitespace(t)
  {
    assert ([c] + t)[1..] == t;
  }

  /** The location id of text that starts with a white-space run is one
      hyphen and the id of the rest: "  York" gives "-york". */
  lemma LocationIdOfRun(w: string, t: string)
    requires |w| > 0 && forall i :: 0 <= i < |w| ==> IsWhitespace(w[i])
    requires |t| == 0 || !IsWhitespace(t[0])
    ensures LocationIdOf(w + t) == "-" + LocationIdOf(t)
  {
    var lw, lt := ToLower(w), ToLower(t);
    assert ToLower(w + t) == lw + lt by {
      ToLowerAppend(w, t);
    }
    assert forall i :: 0 <= i < |lw| ==> IsWhitespace(lw[i]) by {
      assert forall i :: 0 <= i < |lw| ==> lw[i] == LowerChar(w[i]);
    }
    assert |lt| == 0 || !IsWhitespace(lt[0]) by {
      if |t| > 0 { assert lt[0] == LowerChar(t[0]); }
    }
    WhitespaceRunHyphen(lw, lt);
  }

  /** Any other character of a name is kept, lower-cased: with
      LocationIdOfRun this fixes the id of every name, so "New \t York"
      gives "new-york". */
  lemma LocationIdOfKept(c: char, t: string)
    requires !IsWhitespace(c)
    ensures LocationIdOf([c] + t) == [LowerChar(c)] + LocationIdOf(t)
  {
    ToLowerAppend([c], t);
    assert ToLower([c]) == [LowerChar(c)];
    KeptCharacter(LowerChar(c), ToLower(t));
  }

  /** Lower casing works character by character. */
  lemma ToLowerAppend(a: string, b: string)
    ensures ToLower(a + b) == ToLower(a) + ToLower(b)
  {
    var l := ToLower(a + b);
    assert forall i :: 0 <= i < |l| ==> l[i] == (ToLower(a) + ToLower(b))[i] by {
      forall i | 0 <= i < |l| ensures l[i] == (ToLower(a) + ToLower(b))[i] {
        if i < |a| { assert (a + b)[i] == a[i]; } else { assert (a + b)[i] == b[i - |a|]; }
      }
    }
  }

  lemma NameFromIdCons(c: char, t: string)
    ensures NameFromId([c] + t) == [if c == '-' then ' ' else c] + NameFromId(t)
  {
  }

  /** The geoname query: "destination, country" when a country is given,
      the same text the Geoapify and Yelp adapters build. */
  function GeonameQuery(destination: string, country: Option<string>): (r: string)
    ensures country.Some? && country.value != "" ==> r == destination + ", " + country.value
    ensures country.None? || country.value == "" ==> r == destination
  {
    if country.Some? && country.value != "" then destination + ", " + country.value else destination
  }

  /** The geoname answer. */
  datatype Geoname = Geoname(name: string, country: string, lat: real, lon: real)

  datatype Location = Location(id: string, name: string, countryId: string, lat: real, lon: real)

  /** `getLocationInfo` after the request: no data gives no location,
      otherwise one whose id is derived from the answered name. */
  function LocationInfo(answer: Option<Geoname>): (r: seq<Location>)
    ensures answer.None? ==> r == []
    ensures answer.Some? ==> |r| == 1 && r[0].id == LocationIdOf(answer.value.name) && r[0].name == answer.value.name
  {
    match answer
    case None => []
    case Some(g) => [Location(LocationIdOf(g.name), g.name, g.country, g.lat, g.lon)]
  }

  /** The OpenTripMap kinds of the app's activity tags. */
  const KindMap: map<string, string> := map[
    "sightseeing" := "interesting_places,tourist_facilities",
    "cultural" := "museums,cultural,historic,architecture",
    "adventure" := "natural,sport,amusements",
    "relaxation" := "beaches,natural,gardens_and_parks",
    "shopping" := "commercial,shops",
    "nightlife" := "foods,adult",
    "temple-visits" := "religion",
    "heritage-sites" := "historic,architecture,cultural",
    "ayurveda-wellness" := "sport,foods",
    "wildlife-safari" := "natural,zoos",
    "backwaters" := "natural,beaches",
    "street-food-tours" := "foods",
    "handicrafts" := "shops,commercial",
    "yoga-meditation" := "sport,religion",
    "hill-stations" := "natural,mountains",
    "desert-exploration" := "natural"
  ]

  /** One tag's kinds: the table entry, or the tag itself. */
  function KindOf(tag: string): (r: string)
    ensures tag !in KindMap ==> r == tag
  {
    if tag in KindMap then KindMap[tag] else tag
  }

  /** Every tag's kinds, in tag order. */
  function Kinds(tags: seq<string>): (r: seq<string>)
    ensures |r| == |tags| && forall k :: 0 <= k < |tags| ==> r[k] == KindOf(tags[k])
  {
    seq(|tags|, k requires 0 <= k < |tags| => KindOf(tags[k]))
  }

  /** `mapTagsToKinds`: every tag's kinds, comma-joined in tag order; an empty
      join becomes "interesting_places". */
  function MapTagsToKinds(tags: seq<string>): (r: string)
    ensures r != ""
    ensures |tags| == 0 || tags == [""] ==> r == "interesting_places"
    ensures forall k :: 0 <= k < |tags| ==> Contains(r, KindOf(tags[k]))
  {
    var kinds := Kinds(tags);
    var joined := Join(kinds, ",");
    if joined == "" then
      forall k | 0 <= k < |tags| ensures Contains("interesting_places", KindOf(tags[k])) {
        JoinContainsPart(kinds, ",", k);
        assert KindOf(tags[k]) == "";
        assert OccursAt("interesting_places", "", 0);
      }
      "interesting_places"
    else
      forall k | 0 <= k < |tags| ensures Contains(joined, KindOf(tags[k])) {
        JoinContainsPart(kinds, ",", k);
      }
      assert tags == [""] ==> KindOf(tags[0]) == "";
      joined
  }

  /** Every table entry names at least one kind. */
  lemma KindOfNonEmpty(tag: string)
    requires tag != ""
    ensures KindOf(tag) != ""
  {
    assert forall t :: t in KindMap ==> KindMap[t] != "";
  }

  /** Unless there are no tags or only an empty one, the comma-separated
      kinds of the result are exactly the pieces of the tags' kinds, in
      order: every tag's kinds occur, and nothing else does. */
  lemma MapTagsToKindsPieces(tags: seq<string>)
    requires tags != [] && tags != [""]
    ensures Split(MapTagsToKinds(tags), ',') == SplitEach(Kinds(tags), ',')
    ensures forall p :: p in Split(MapTagsToKinds(tags), ',') <==>
      exists k :: 0 <= k < |tags| && p in Split(KindOf(tags[k]), ',')
  {
    var kinds := Kinds(tags);
    var joined := Join(kinds, ",");
    if |tags| == 1 {
      KindOfNonEmpty(tags[0]);
      assert joined == kinds[0];
    } else {
      assert joined == kinds[0] + "," + Join(kinds[1..], ",");
    }
    assert MapTagsToKinds(tags) == joined;
    assert "," == [','];
    SplitJoinEach(kinds, ',');
    forall p
      ensures p in Split(joined, ',') <==> exists k :: 0 <= k < |tags| && p in Split(KindOf(tags[k]), ',')
    {
      SplitEachMember(kinds, ',', p);
    }
  }

  /** The kinds `estimateCost` and `estimateDuration` look for, in the order
      they test them. */
  const KindOrder: seq<string> := ["museums", "historic", "amusements", "zoos", "religion", "natural", "beaches", "gardens_and_parks"]
  const KindCosts: seq<int> := [15, 10, 30, 20, 0, 0, 0, 0]
  const KindDurations: seq<string> := ["2-3 hours", "1-2 hours", "3-4 hours", "2-3 hours", "1 hour", "2 hours", "3 hours", "1-2 hours"]

  /** The position in `order` of the first name `kinds` contains as text. */
  function FirstKind(kinds: string, order: seq<string>): (r: Option<nat>)
    ensures r.Some? ==> r.value < |order| && Contains(kinds, order[r.value])
    ensures r.Some? ==> forall k :: 0 <= k < r.value ==> !Contains(kinds, order[k])
    ensures r.None? ==> forall k :: 0 <= k < |order| ==> !Contains(kinds, order[k])
  {
    if |order| == 0 then None
    else if Contains(kinds, order[0]) then Some(0)
    else match FirstKind(kinds, order[1..])
      case None => None
      case Some(k) => Some(k + 1)
  }

  /** The rule that decides a place's kinds, when the kinds are truthy. */
  function Rule(kinds: Option<string>): (r: Option<nat>)
    ensures r.Some? ==> r.value < |KindOrder|
  {
    if kinds.None? || kinds.value == "" then None else FirstKind(kinds.value, KindOrder)
  }

  /** Position `k` of `KindOrder` decides: the kinds are truthy and contain
      that name as text, and no earlier name. */
  predicate Decides(kinds: Option<string>, k: int) {
    && kinds.Some? && kinds.value != "" && 0 <= k < |KindOrder|
    && Contains(kinds.value, KindOrder[k])
    && forall j :: 0 <= j < k ==> !Contains(kinds.value, KindOrder[j])
  }

  /** No name of `KindOrder` decides: the kinds are missing, empty or contain
      none of them. */
  predicate Undecided(kinds: Option<string>) {
    kinds.None? || kinds.value == "" || forall k :: 0 <= k < |KindOrder| ==> !Contains(kinds.value, KindOrder[k])
  }

  /** `estimateCost`: the first kind found as a substring decides; 10 for
      missing kinds or no match. */
  function EstimateCost(kinds: Option<string>): (r: int)
    ensures forall k :: Decides(kinds, k) ==> r == KindCosts[k]
    ensures Undecided(kinds) ==> r == 10
    ensures r in {0, 10, 15, 20, 30}
    ensures kinds.None? || kinds.value == "" ==> r == 10
    ensures kinds.Some? && Contains(kinds.value, "museums") ==> r == 15
  {
    match Rule(kinds)
    case None => 10
    case Some(k) => KindCosts[k]
  }

  /** `estimateDuration`: the same precedence as the cost, with its own
      values; "1 hour" for missing kinds or no match. */
  function EstimateDuration(kinds: Option<string>): (r: string)
    ensures forall k :: Decides(kinds, k) ==> r == KindDurations[k]
    ensures Undecided(kinds) ==> r == "1 hour"
    ensures r in {"2-3 hours", "1-2 hours", "3-4 hours", "1 hour", "2 hours", "3 hours"}
    ensures kinds.None? || kinds.value == "" ==> r == "1 hour"
    ensures kinds.Some? && Contains(kinds.value, "museums") ==> r == "2-3 hours"
  {
    match Rule(kinds)
    case None => "1 hour"
    case Some(k) => KindDurations[k]
  }

  /** A free place is one whose deciding kind is religion, natural, beaches or
      gardens and parks; "historic" outranks "natural". */
  lemma FreeIffNatureOrReligion(kinds: Option<string>)
    ensures EstimateCost(kinds) == 0 <==> Rule(kinds).Some? && Rule(kinds).value >= 4
  {
  }

  /** The place record behind an xid; `extract` is the Wikipedia extract's
      text and `descr` the info description, each when its object is present. */
  datatype PlaceRecord = PlaceRecord(
    xid: string, name: string, kinds: Option<string>, extract: Option<string>, descr: Option<string>,
    preview: Option<string>, lat: real, lon: real)

  datatype Place = Place(
    id: string, name: string, description: string, cost: int, duration: string,
    imageUrl: string, lat: real, lon: real, tags: seq<string>)

  const DefaultImage: string := "https://images.unsplash.com/photo-1553701879-4aa576804f65"

  /** `getPlaceDetails` after the request. */
  function PlaceDetails(p: PlaceRecord): (r: Place)
    ensures r.description == (if p.extract.Some? then p.extract.value
                              else if p.descr.Some? then p.descr.value else "Point of interest")
    ensures r.tags == (if p.kinds.Some? && p.kinds.value != "" then Split(p.kinds.value, ',') else [])
    ensures r.cost == EstimateCost(p.kinds) && r.duration == EstimateDuration(p.kinds)
    ensures r.imageUrl == p.preview.GetOr(DefaultImage)
  {
    Place(p.xid, p.name,
          if p.extract.Some? then p.extract.value else if p.descr.Some? then p.descr.value else "Point of interest",
          EstimateCost(p.kinds), EstimateDuration(p.kinds), p.preview.GetOr(DefaultImage),
          p.lat, p.lon, if p.kinds.Some? && p.kinds.value != "" then Split(p.kinds.value, ',') else [])
  }

  /** The kinds sent to the radius search. */
  function SearchKinds(tags: Option<seq<string>>): (r: string)
    ensures tags.None? || |tags.value| == 0 ==> r == "interesting_places"
    ensures r != ""
  {
    if tags.Some? && |tags.value| > 0 then MapTagsToKinds(tags.value) else "interesting_places"
  }

  /** The feature has a truthy xid whose details were fetched. */
  predicate Found(xid: Option<string>, details: map<string, PlaceRecord>) {
    xid.Some? && xid.value != "" && xid.value in details
  }

  /** The details of features in order: a feature without an xid, or whose
      details are unavailable, is skipped; every other one yields its place. */
  function Details(xids: seq<Option<string>>, details: map<string, PlaceRecord>): (r: seq<Place>)
    ensures |r| <= |xids|
    ensures forall k :: 0 <= k < |xids| && Found(xids[k], details) ==> PlaceDetails(details[xids[k].value]) in r
    ensures forall p :: p in r ==> exists k :: 0 <= k < |xids| && Found(xids[k], details) && p == PlaceDetails(details[xids[k].value])
    ensures (forall k :: 0 <= k < |xids| ==> Found(xids[k], details)) ==> |r| == |xids|
  {
    if |xids| == 0 then []
    else
      var head := xids[0];
      var rest := Details(xids[1..], details);
      forall k | 1 <= k < |xids| ensures xids[k] == xids[1..][k - 1] { }
      (if Found(head, details) then [PlaceDetails(details[head.value])] else []) + rest
  }

  lemma {:induction false} DetailsAppend(a: seq<Option<string>>, b: seq<Option<string>>, details: map<string, PlaceRecord>)
    ensures Details(a + b, details) == Details(a, details) + Details(b, details)
  {
    if |a| == 0 {
      assert a + b == b;
    } else {
      assert (a + b)[1..] == a[1..] + b;
      DetailsAppend(a[1..], b, details);
    }
  }

  /** `getPointsOfInterest` after its requests: no location or no features
      give no points; otherwise the details of the first `count` features, in
      order, skipping those without xid or details. */
  function PointsOfInterest(
    location: seq<Location>, features: Option<seq<Option<string>>>, count: nat,
    details: map<string, PlaceRecord>): (r: seq<Place>)
    ensures |location| == 0 || features.None? ==> r == []
    ensures |r| <= count
    ensures features.Some? ==> |r| <= |features.value|
  {
    if |location| == 0 || features.None? then []
    else
      var fs := features.value;
      var first := if count < |fs| then fs[..count] else fs;
      Details(first, details)
  }

  /** Requesting more features than before keeps the earlier points as a
      prefix: the order of the search is kept. */
  lemma PointsOfInterestPrefix(location: seq<Location>, fs: seq<Option<string>>, c: nat, d: nat, details: map<string, PlaceRecord>)
    requires c <= d <= |fs| && |location| > 0
    ensures PointsOfInterest(location, Some(fs), d, details)
         == PointsOfInterest(location, Some(fs), c, details) + Details(fs[c..d], details)
  {
    assert fs[..d] == fs[..c] + fs[c..d];
    DetailsAppend(fs[..c], fs[c..d], details);
    if d == |fs| {
      assert fs[..d] == fs;
    }
    if c == |fs| {
      assert fs[..c] == fs;
    }
  }
}

=== FILE: osm.dfy ===
/** The OpenStreetMap normaliser: turns Overpass elements into points of
    interest, and those into accommodations and food places, with tag-driven
    classifiers and cost/rating estimates. The HTTP calls are not modelled;
    their answers are inputs. */
module Osm {
  import opened Wrappers
  import opened Strings
  import opened Numbers
  import opened Rules
  import opened Lists

  /** An element's OSM tags. */
  type Tags = map<string, string>

  /** `tags[k]` is truthy: present and not the empty string. */
  predicate Has(tags: Tags, k: string) {
    k in tags && tags[k] != ""
  }

  /** `tags[k] === v`. */
  predicate Is(tags: Tags, k: string, v: string) {
    k in tags && tags[k] == v
  }

  datatype Coord = Coord(lat: real, lon: real)

  /** One element of an Overpass answer. */
  datatype Element = Element(id: int, tags: Option<Tags>, lat: Option<real>, lon: Option<real>, center: Option<Coord>)

  /** A normalised point of interest. */
  datatype Poi = Poi(
    id: int, name: string, kind: string, description: string,
    lat: real, lon: real, address: string, tags: Tags,
    estimatedDuration: string, estimatedCost: real, image: Option<string>)

  /** The categories queried when the caller names none; India adds six. */
  function DefaultCategories(country: Option<string>): (r: seq<string>)
    ensures |r| == (if country.Some? && ToLower(country.value) == "india" then 14 else 8)
    ensures r[..8] == ["tourism=attraction", "tourism=museum", "tourism=gallery", "tourism=viewpoint",
                       "historic=monument", "historic=castle", "historic=ruins", "leisure=park"]
  {
    var base := ["tourism=attraction", "tourism=museum", "tourism=gallery", "tourism=viewpoint",
                 "historic=monument", "historic=castle", "historic=ruins", "leisure=park"];
    if country.Some? && ToLower(country.value) == "india" then
      base + ["historic=temple", "historic=fort", "historic=palace", "natural=beach",
              "amenity=place_of_worship", "tourism=guest_house"]
    else base
  }

  /** A coordinate is kept when truthy: the element's own non-zero value, else
      the centre's non-zero value. Zero counts as missing. */
  function Coordinate(own: Option<real>, center: Option<real>): (r: Option<real>)
    ensures r.Some? ==> r.value != 0.0
    ensures r.None? <==> (own.None? || own.value == 0.0) && (center.None? || center.value == 0.0)
  {
    if own.Some? && own.value != 0.0 then own
    else if center.Some? && center.value != 0.0 then center
    else None
  }

  function CenterLat(e: Element): Option<real> {
    if e.center.Some? then Some(e.center.value.lat) else None
  }

  function CenterLon(e: Element): Option<real> {
    if e.center.Some? then Some(e.center.value.lon) else None
  }

  /** The element becomes a point of interest: it has a name and truthy
      coordinates. */
  predicate Keeps(e: Element) {
    && e.tags.Some? && Has(e.tags.value, "name")
    && Coordinate(e.lat, CenterLat(e)).Some?
    && Coordinate(e.lon, CenterLon(e)).Some?
  }

  /** `tags.image || tags.wikimedia_commons || null`. */
  function Image(tags: Tags): Option<string> {
    if Has(tags, "image") then Some(tags["image"])
    else if Has(tags, "wikimedia_commons") then Some(tags["wikimedia_commons"])
    else None
  }

  function ToPoi(e: Element): (p: Poi)
    requires Keeps(e)
    ensures p.name == e.tags.value["name"] && p.tags == e.tags.value
    ensures p.lat != 0.0 && p.lon != 0.0
  {
    var tags := e.tags.value;
    Poi(e.id, tags["name"], DeterminePoiType(tags), GenerateDescription(tags),
        Coordinate(e.lat, CenterLat(e)).value, Coordinate(e.lon, CenterLon(e)).value,
        FormatAddress(tags), tags, EstimateVisitDuration(tags), EstimateVisitCost(tags), Image(tags))
  }

  /** The loop of `processOSMResponse`: the point of every kept element, in
      input order. */
  function ProcessElements(es: seq<Element>): (r: seq<Poi>)
    ensures |r| <= |es|
    ensures forall k :: 0 <= k < |r| ==> r[k].lat != 0.0 && r[k].lon != 0.0
  {
    var r := FilterMap(es, Keeps, ToPoi);
    forall k | 0 <= k < |r|
      ensures r[k].lat != 0.0 && r[k].lon != 0.0
    {
      FilterMapSound(es, Keeps, ToPoi, r[k]);
    }
    r
  }

  /** `processOSMResponse`: no `elements` gives no points; otherwise the kept
      elements, in input order. */
  function ProcessOsmResponse(elements: Option<seq<Element>>): (r: seq<Poi>)
    ensures elements.None? ==> r == []
    ensures elements.Some? ==> |r| <= |elements.value|
    ensures forall k :: 0 <= k < |r| ==> r[k].lat != 0.0 && r[k].lon != 0.0
  {
    if elements.None? then [] else ProcessElements(elements.value)
  }

  /** Every point comes from a kept element. */
  lemma ProcessedAreKept(es: seq<Element>, p: Poi)
    requires p in ProcessElements(es)
    ensures exists j :: 0 <= j < |es| && Keeps(es[j]) && p == ToPoi(es[j])
  {
    FilterMapSound(es, Keeps, ToPoi, p);
  }

  /** Every kept element yields its point. */
  lemma KeptAreProcessed(es: seq<Element>, j: int)
    requires 0 <= j < |es| && Keeps(es[j])
    ensures ToPoi(es[j]) in ProcessElements(es)
  {
    FilterMapComplete(es, Keeps, ToPoi, j);
  }

  /** Processing distributes over concatenation: the input order is kept. */
  lemma ProcessElementsAppend(a: seq<Element>, b: seq<Element>)
    ensures ProcessElements(a + b) == ProcessElements(a) + ProcessElements(b)
  {
    FilterMapAppend(a, b, Keeps, ToPoi);
  }

  /** An element at (0, 0) with no centre is dropped even when named. */
  lemma ZeroCoordinatesDropped(id: int, tags: Tags)
    requires Has(tags, "name")
    ensures ProcessOsmResponse(Some([Element(id, Some(tags), Some(0.0), Some(0.0), None)])) == []
  {
  }

  /** The known point types other than the place-of-worship composite. */
  const PoiTypes: set<string> := {
    "attraction", "museum", "gallery", "viewpoint", "monument", "castle", "palace", "fort",
    "temple", "ruins", "park", "hindu_temple", "buddhist_temple", "jain_temple", "gurudwara",
    "beach", "mountain", "restaurant", "cafe", "shop", "point_of_interest"
  }

  /** The tag tests of `determinePoiType` that come before the place-of-worship
      composite, in source order, with the type each gives. */
  const PoiRulesBefore: seq<(string, string, string)> := [
    ("tourism", "attraction", "attraction"), ("tourism", "museum", "museum"),
    ("tourism", "gallery", "gallery"), ("tourism", "viewpoint", "viewpoint"),
    ("historic", "monument", "monument"), ("historic", "castle", "castle"),
    ("historic", "palace", "palace"), ("historic", "fort", "fort"),
    ("historic", "temple", "temple"), ("historic", "ruins", "ruins"),
    ("leisure", "park", "park"),
    ("religion", "hindu", "hindu_temple"), ("religion", "buddhist", "buddhist_temple"),
    ("religion", "jain", "jain_temple"), ("religion", "sikh", "gurudwara")
  ]

  /** The tag tests that come after the composite, before the `shop` test. */
  const PoiRulesAfter: seq<(string, string, string)> := [
    ("natural", "beach", "beach"), ("natural", "mountain", "mountain"),
    ("amenity", "restaurant", "restaurant"), ("amenity", "cafe", "cafe")
  ]

  /** A place of worship that names its religion. */
  predicate NamedWorship(tags: Tags) {
    Is(tags, "amenity", "place_of_worship") && Has(tags, "religion")
  }

  /** Some test of the point-type classifier matches. */
  predicate AnyPoiTest(tags: Tags) {
    AnyTagHit(PoiRulesBefore, tags) || NamedWorship(tags) || AnyTagHit(PoiRulesAfter, tags)
    || Has(tags, "shop")
  }

  /** `determinePoiType`: the first matching test in source order decides. */
  function DeterminePoiType(tags: Tags): (r: string)
    ensures forall k :: FirstTagHit(PoiRulesBefore, tags, k) ==> r == PoiRulesBefore[k].2
    ensures !AnyTagHit(PoiRulesBefore, tags) && NamedWorship(tags) ==>
      r == tags["religion"] + "_place_of_worship"
    ensures !AnyTagHit(PoiRulesBefore, tags) && !NamedWorship(tags) ==>
      forall k :: FirstTagHit(PoiRulesAfter, tags, k) ==> r == PoiRulesAfter[k].2
    ensures !AnyTagHit(PoiRulesBefore, tags) && !NamedWorship(tags) && !AnyTagHit(PoiRulesAfter, tags) ==>
      r == (if Has(tags, "shop") then "shop" else "point_of_interest")
    ensures Is(tags, "tourism", "attraction") ==> r == "attraction"
    ensures r == "point_of_interest" <==> !AnyPoiTest(tags)
    ensures r in PoiTypes || (Has(tags, "religion") && r == tags["religion"] + "_place_of_worship")
  {
    assert forall k :: 0 <= k < |PoiRulesBefore| ==> PoiRulesBefore[k].2 in PoiTypes - {"point_of_interest"};
    assert forall k :: 0 <= k < |PoiRulesAfter| ==> PoiRulesAfter[k].2 in PoiTypes - {"point_of_interest"};
    assert Is(tags, "tourism", "attraction") ==> FirstTagHit(PoiRulesBefore, tags, 0);
    var rest :=
      if NamedWorship(tags) then
        var w := tags["religion"] + "_place_of_worship";
        assert |w| > |"point_of_interest"|;
        w
      else FirstTagRule(PoiRulesAfter, tags, if Has(tags, "shop") then "shop" else "point_of_interest");
    FirstTagRule(PoiRulesBefore, tags, rest)
  }

  /** The description fragments, in order: historic, architecture, tourism,
      amenity (its first `_` turned into a space). */
  function DescriptionParts(tags: Tags): (r: seq<string>)
    ensures |r| <= 4
    ensures forall k :: 0 <= k < |r| ==> r[k] != ""
  {
    (if Has(tags, "historic") then ["Historic " + tags["historic"]] else [])
    + (if Has(tags, "architecture") then [tags["architecture"] + " architecture"] else [])
    + (if Has(tags, "tourism") then ["Tourist " + tags["tourism"]] else [])
    + (if Has(tags, "amenity") then [ReplaceFirst(tags["amenity"], '_', ' ')] else [])
  }

  /** `generateDescription`: an explicit description wins, then the joined
      fragments, then "Point of interest". */
  function GenerateDescription(tags: Tags): (r: string)
    ensures Has(tags, "description") ==> r == tags["description"]
    ensures r != ""
    ensures (!Has(tags, "description") && !Has(tags, "historic") && !Has(tags, "architecture")
             && !Has(tags, "tourism") && !Has(tags, "amenity")) ==> r == "Point of interest"
  {
    if Has(tags, "description") then tags["description"]
    else
      var parts := DescriptionParts(tags);
      if |parts| > 0 then JoinNonEmpty(parts, ", "); Join(parts, ", ") else "Point of interest"
  }

  /** Without an explicit description, every fragment appears in the text; the
      historic one leads it. */
  lemma DescriptionMentionsParts(tags: Tags)
    requires !Has(tags, "description")
    ensures forall k :: 0 <= k < |DescriptionParts(tags)| ==>
      Contains(GenerateDescription(tags), DescriptionParts(tags)[k])
    ensures Has(tags, "historic") ==> StartsWith(GenerateDescription(tags), "Historic " + tags["historic"])
  {
    var parts := DescriptionParts(tags);
    var d := GenerateDescription(tags);
    assert |parts| > 0 ==> d == Join(parts, ", ");
    forall k | 0 <= k < |parts| ensures Contains(d, parts[k]) {
      JoinContainsPart(parts, ", ", k);
    }
    if Has(tags, "historic") {
      HistoricLeads(tags, parts, d);
    }
  }

  /** The historic fragment comes first, so it starts the joined text. */
  lemma HistoricLeads(tags: Tags, parts: seq<string>, d: string)
    requires Has(tags, "historic") && parts == DescriptionParts(tags) && d == Join(parts, ", ")
    ensures StartsWith(d, "Historic " + tags["historic"])
  {
    var h := "Historic " + tags["historic"];
    assert parts[0] == h;
    var tail := if |parts| > 1 then ", " + Join(parts[1..], ", ") else "";
    assert d == h + tail;
    assert (h + tail)[..|h|] == h;
  }

  /** A join of non-empty parts is empty exactly when there are no parts. */
  lemma {:induction false} JoinNonEmpty(parts: seq<string>, sep: string)
    requires forall k :: 0 <= k < |parts| ==> parts[k] != ""
    ensures Join(parts, sep) == "" <==> |parts| == 0
  {
    if |parts| > 1 {
      assert |Join(parts, sep)| >= |parts[0]|;
    }
  }

  /** The address fragments, in order: street (with house number when there is
      a street), city, postcode, country. */
  function AddressParts(tags: Tags): (r: seq<string>)
    ensures forall k :: 0 <= k < |r| ==> r[k] != ""
  {
    (if Has(tags, "addr:street") then
       [if Has(tags, "addr:housenumber") then tags["addr:housenumber"] + " " + tags["addr:street"]
        else tags["addr:street"]]
     else [])
    + (if Has(tags, "addr:city") then [tags["addr:city"]] else [])
    + (if Has(tags, "addr:postcode") then [tags["addr:postcode"]] else [])
    + (if Has(tags, "addr:country") then [tags["addr:country"]] else [])
  }

  /** `formatAddress`: the present fragments joined with ", "; empty exactly
      when none of street, city, postcode and country is present. */
  function FormatAddress(tags: Tags): (r: string)
    ensures r == "" <==> !Has(tags, "addr:street") && !Has(tags, "addr:city")
                         && !Has(tags, "addr:postcode") && !Has(tags, "addr:country")
  {
    JoinNonEmpty(AddressParts(tags), ", ");
    Join(AddressParts(tags), ", ")
  }

  /** A house number without a street leaves no trace in the address. */
  lemma HouseNumberNeedsStreet(tags: Tags, number: string)
    requires !Has(tags, "addr:street")
    ensures FormatAddress(tags["addr:housenumber" := number]) == FormatAddress(tags - {"addr:housenumber"})
  {
    assert AddressParts(tags["addr:housenumber" := number]) == AddressParts(tags - {"addr:housenumber"});
  }

  /** Street (after its house number), city, postcode and country are joined
      in that order. */
  lemma FullAddress(tags: Tags)
    requires Has(tags, "addr:housenumber") && Has(tags, "addr:street") && Has(tags, "addr:city")
    requires Has(tags, "addr:postcode") && Has(tags, "addr:country")
    ensures FormatAddress(tags) == tags["addr:housenumber"] + " " + tags["addr:street"] + ", "
                                   + tags["addr:city"] + ", " + tags["addr:postcode"] + ", " + tags["addr:country"]
  {
    var parts := [tags["addr:housenumber"] + " " + tags["addr:street"], tags["addr:city"],
                  tags["addr:postcode"], tags["addr:country"]];
    assert AddressParts(tags) == parts;
    assert Join(parts[3..], ", ") == parts[3];
    assert Join(parts[2..], ", ") == parts[2] + ", " + parts[3];
    assert Join(parts[1..], ", ") == parts[1] + ", " + (parts[2] + ", " + parts[3]);
  }

  /** The tag tests of `estimateVisitDuration`, in order, with the duration
      each gives. */
  const DurationRules: seq<(string, string, string)> := [
    ("tourism", "museum", "2-3 hours"), ("tourism", "gallery", "1-2 hours"),
    ("historic", "castle", "2-3 hours"), ("leisure", "park", "1-2 hours"),
    ("tourism", "viewpoint", "30 minutes"), ("historic", "monument", "30 minutes")
  ]

  /** `estimateVisitDuration`: the first matching test decides, else "1 hour". */
  function EstimateVisitDuration(tags: Tags): (r: string)
    ensures forall k :: FirstTagHit(DurationRules, tags, k) ==> r == DurationRules[k].2
    ensures !AnyTagHit(DurationRules, tags) ==> r == "1 hour"
    ensures r in {"2-3 hours", "1-2 hours", "30 minutes", "1 hour"}
    ensures Is(tags, "tourism", "museum") ==> r == "2-3 hours"
  {
    assert forall k :: 0 <= k < |DurationRules| ==> DurationRules[k].2 in {"2-3 hours", "1-2 hours", "30 minutes"};
    assert Is(tags, "tourism", "museum") ==> FirstTagHit(DurationRules, tags, 0);
    FirstTagRule(DurationRules, tags, "1 hour")
  }

  /** The fee written in `fee:amount`: the first decimal number in it, when the
      tag is present and holds one. */
  function StatedFee(tags: Tags): (r: Option<real>)
    ensures r.Some? <==> Has(tags, "fee:amount") && exists i :: 0 <= i < |tags["fee:amount"]| && IsDigit(tags["fee:amount"][i])
    ensures r.Some? ==> r.value >= 0.0
  {
    if Has(tags, "fee:amount") then FirstDecimal(tags["fee:amount"]) else None
  }

  /** The entry is free by `fee=no` or `access=yes`. */
  predicate MarkedFree(tags: Tags) {
    Is(tags, "fee", "no") || Is(tags, "access", "yes")
  }

  /** The type tests of `estimateVisitCost`, in order, with the cost each gives;
      parks and viewpoints are free. */
  const VisitCostRules: seq<(string, string, real)> := [
    ("tourism", "museum", 15.0), ("tourism", "gallery", 12.0), ("historic", "castle", 20.0),
    ("tourism", "attraction", 10.0), ("leisure", "park", 0.0), ("tourism", "viewpoint", 0.0)
  ]

  /** `estimateVisitCost`: a numeric stated fee wins; then free when marked
      free; then the first matching type test; 10 otherwise. Never negative. */
  function EstimateVisitCost(tags: Tags): (r: real)
    ensures r >= 0.0
    ensures StatedFee(tags).Some? ==> r == StatedFee(tags).value
    ensures StatedFee(tags).None? && MarkedFree(tags) ==> r == 0.0
    ensures StatedFee(tags).None? && !MarkedFree(tags) ==>
      (forall k :: FirstTagHit(VisitCostRules, tags, k) ==> r == VisitCostRules[k].2)
      && (!AnyTagHit(VisitCostRules, tags) ==> r == 10.0)
    ensures StatedFee(tags).None? ==> r in {0.0, 10.0, 12.0, 15.0, 20.0}
  {
    assert forall k :: 0 <= k < |VisitCostRules| ==> VisitCostRules[k].2 in {0.0, 10.0, 12.0, 15.0, 20.0};
    if StatedFee(tags).Some? then StatedFee(tags).value
    else if MarkedFree(tags) then 0.0
    else FirstTagRule(VisitCostRules, tags, 10.0)
  }
  /** A `fee:amount` whose first number is whole, such as "EUR 5" or
      "5 per person", costs that number. */
  lemma StatedFeeWhole(tags: Tags, p: string, w: string, t: string)
    requires "fee:amount" in tags && tags["fee:amount"] == p + w + t
    requires forall i :: 0 <= i < |p| ==> !IsDigit(p[i])
    requires |w| > 0 && AllDigits(w) && EndsWhole(t)
    ensures StatedFee(tags) == Some(DigitsValue(w) as real)
    ensures EstimateVisitCost(tags) == DigitsValue(w) as real
  {
    FirstDecimalWhole(p, w, t);
  }

  /** A `fee:amount` whose first number has a fraction, such as "12.50 EUR",
      costs whole part plus fraction. */
  lemma StatedFeeFraction(tags: Tags, p: string, w: string, d: string, t: string)
    requires "fee:amount" in tags && tags["fee:amount"] == p + w + "." + d + t
    requires forall i :: 0 <= i < |p| ==> !IsDigit(p[i])
    requires |w| > 0 && AllDigits(w) && |d| > 0 && AllDigits(d) && EndsFraction(t)
    ensures StatedFee(tags) == Some(DecimalValue(w, d))
    ensures EstimateVisitCost(tags) == DecimalValue(w, d)
  {
    FirstDecimalFraction(p, w, d, t);
  }


  /** `getAccommodations`' tier to OSM tags. */
  function AccommodationCategories(tier: string): (r: seq<string>)
    ensures tier == "budget" ==> r == ["tourism=hostel", "tourism=guest_house", "tourism=motel"]
    ensures tier == "luxury" ==> r == ["tourism=hotel"]
    ensures tier != "budget" && tier != "luxury" ==> r == ["tourism=hotel", "tourism=apartment"]
  {
    match tier
    case "budget" => ["tourism=hostel", "tourism=guest_house", "tourism=motel"]
    case "luxury" => ["tourism=hotel"]
    case _ => ["tourism=hotel", "tourism=apartment"]
  }

  /** `getFoodPlaces`' tier to OSM tags. */
  function FoodCategories(tier: string): (r: seq<string>)
    ensures tier == "budget" ==> r == ["amenity=fast_food", "amenity=food_court"]
    ensures tier == "fine" ==> r == ["amenity=restaurant", "cuisine=fine_dining"]
    ensures tier != "budget" && tier != "fine" ==> r == ["amenity=restaurant"]
  {
    match tier
    case "budget" => ["amenity=fast_food", "amenity=food_court"]
    case "fine" => ["amenity=restaurant", "cuisine=fine_dining"]
    case _ => ["amenity=restaurant"]
  }

  /** The element is in India by its country tags. */
  predicate InIndia(tags: Tags) {
    Is(tags, "addr:country", "India") || Is(tags, "country", "India")
  }

  /** The base nightly price of a tier; `None` (a JavaScript NaN) for a tier
      outside the three known ones. */
  function AccommodationBase(tier: string, india: bool): (r: Option<int>)
    ensures r.Some? <==> tier in {"budget", "mid-range", "luxury"}
  {
    match tier
    case "budget" => Some(if india then 30 else 50)
    case "mid-range" => Some(if india then 75 else 120)
    case "luxury" => Some(if india then 150 else 250)
    case _ => None
  }

  /** The star multiplier in tenths: 8 up to two stars, 10 for three, 13 for
      four, 18 from five, by `parseInt` of the tag; 10 when there are no stars
      or they do not read as an integer. */
  function StarMultiplier(tags: Tags): (m: int)
    ensures !Has(tags, "stars") || ParseInt(tags["stars"]).None? ==> m == 10
    ensures Has(tags, "stars") && ParseInt(tags["stars"]).Some? ==>
      var s := ParseInt(tags["stars"]).value;
      && (s <= 2 ==> m == 8) && (s == 3 ==> m == 10)
      && (s == 4 ==> m == 13) && (s >= 5 ==> m == 18)
    ensures m in {8, 10, 13, 18}
  {
    if !Has(tags, "stars") then 10
    else match ParseInt(tags["stars"])
      case None => 10
      case Some(s) => if s <= 2 then 8 else if s == 3 then 10 else if s == 4 then 13 else 18
  }

  /** `parseInt` reads "0x10" stars as sixteen, the five-star multiplier, and
      "3.5" stars as three. */
  lemma StarsAsParsed(hex: Tags, decimal: Tags)
    requires Is(hex, "stars", "0x10") && Is(decimal, "stars", "3.5")
    ensures StarMultiplier(hex) == 18 && StarMultiplier(decimal) == 10
  {
    ParseIntHex();
    ParseIntStopsAtPoint();
  }

  /** The property is central: `location=city_center` or a district whose name
      contains "central" in any case. */
  predicate Central(tags: Tags) {
    Is(tags, "location", "city_center")
    || ("addr:district" in tags && Contains(ToLower(tags["addr:district"]), "central"))
  }

  predicate Ashram(tags: Tags) {
    Is(tags, "amenity", "ashram") || ("name" in tags && Contains(ToLower(tags["name"]), "ashram"))
  }

  /** The kinds with a fixed price in India, in the order they are tested:
      heritage hotel or haveli 180, guest house or hostel 21, ashram 24. */
  predicate Heritage(tags: Tags) {
    Is(tags, "tourism", "heritage_hotel") || Is(tags, "building", "haveli")
  }

  predicate GuestHouse(tags: Tags) {
    Is(tags, "tourism", "guest_house") || Is(tags, "tourism", "hostel")
  }

  /** The property is in India and of a kind with a fixed price there. */
  predicate FixedPriceInIndia(tags: Tags) {
    InIndia(tags) && (Heritage(tags) || GuestHouse(tags) || Ashram(tags))
  }

  /** `estimateAccommodationCost`. In India three special kinds have fixed
      prices derived from the Indian base prices; otherwise the tier's base
      price (the Indian one in India) times the star multiplier, times 1.2
      when central, rounded; `None` (NaN) for an unknown tier. */
  function EstimateAccommodationCost(tags: Tags, tier: string): (r: Option<int>)
    ensures InIndia(tags) && Heritage(tags) ==> r == Some(180)
    ensures InIndia(tags) && !Heritage(tags) && GuestHouse(tags) ==> r == Some(21)
    ensures InIndia(tags) && !Heritage(tags) && !GuestHouse(tags) && Ashram(tags) ==> r == Some(24)
    ensures r.None? <==> !FixedPriceInIndia(tags) && tier !in {"budget", "mid-range", "luxury"}
    ensures !FixedPriceInIndia(tags) && AccommodationBase(tier, InIndia(tags)).Some? ==>
            r.Some? && IsRoundOf(r.value, AccommodationBase(tier, InIndia(tags)).value * StarMultiplier(tags)
                                          * (if Central(tags) then 12 else 10), 100)
  {
    var india := InIndia(tags);
    if india && Heritage(tags) then Some(Round(AccommodationBase("luxury", true).value * 12, 10))
    else if india && GuestHouse(tags) then Some(Round(AccommodationBase("budget", true).value * 7, 10))
    else if india && Ashram(tags) then Some(Round(AccommodationBase("budget", true).value * 8, 10))
    else match AccommodationBase(tier, india)
      case None => None
      case Some(base) => Some(Round(base * StarMultiplier(tags) * (if Central(tags) then 12 else 10), 100))
  }

  /** Indian base prices are below the general ones in every tier, so outside
      the fixed-price kinds an Indian property never costs more than the same
      one elsewhere. */
  lemma IndiaCostsNoMore(tags: Tags, tier: string)
    requires InIndia(tags) && !FixedPriceInIndia(tags) && tier in {"budget", "mid-range", "luxury"}
    ensures var elsewhere := tags - {"addr:country", "country"};
      EstimateAccommodationCost(tags, tier).value <= EstimateAccommodationCost(elsewhere, tier).value
  {
    var elsewhere := tags - {"addr:country", "country"};
    assert StarMultiplier(elsewhere) == StarMultiplier(tags);
    assert Central(elsewhere) == Central(tags) && !InIndia(elsewhere);
    var c := StarMultiplier(tags) * (if Central(tags) then 12 else 10);
    var a, b := AccommodationBase(tier, true).value, AccommodationBase(tier, false).value;
    assert a < b && c > 0;
    assert a * c <= b * c;
  }

  /** A four-star central mid-range property outside India:
      120 x 1.3 x 1.2 = 187.2, rounded to 187. */
  lemma FourStarCentralExample(tags: Tags)
    requires Is(tags, "stars", "4") && Is(tags, "location", "city_center") && !InIndia(tags)
    ensures EstimateAccommodationCost(tags, "mid-range") == Some(187)
  {
    ParseIntOfNatToString(4);
    assert NatToString(4) == "4";
    assert StarMultiplier(tags) == 13 && Central(tags);
  }

  /** The type tests of `estimateAccommodationRating` for a property without
      stars, in order, with the rating each gives. */
  const RatingRules: seq<(string, string, real)> := [
    ("tourism", "hotel", 4.0), ("tourism", "hostel", 3.5),
    ("tourism", "guest_house", 3.7), ("tourism", "apartment", 4.2)
  ]

  /** `estimateAccommodationRating`: stated stars, read by `parseFloat`,
      clamped to [1, 5] (`None`, a NaN, when they are not a number);
      otherwise the first matching type test, else 3.8. */
  function EstimateAccommodationRating(tags: Tags): (r: Option<real>)
    ensures Has(tags, "stars") && ParseFloat(tags["stars"]).Some? ==>
      r == Some(MinReal(5.0, MaxReal(1.0, ParseFloat(tags["stars"]).value)))
    ensures r.None? <==> Has(tags, "stars") && ParseFloat(tags["stars"]).None?
    ensures !Has(tags, "stars") ==>
      r.Some? && (forall k :: FirstTagHit(RatingRules, tags, k) ==> r.value == RatingRules[k].2)
      && (!AnyTagHit(RatingRules, tags) ==> r.value == 3.8)
    ensures r.Some? ==> 1.0 <= r.value <= 5.0
  {
    if Has(tags, "stars") then
      match ParseFloat(tags["stars"])
      case None => None
      case Some(s) => Some(if s > 5.0 then 5.0 else if s < 1.0 then 1.0 else s)
    else
      assert forall k :: 0 <= k < |RatingRules| ==> 1.0 <= RatingRules[k].2 <= 5.0;
      Some(FirstTagRule(RatingRules, tags, 3.8))
  }
  /** Whole stars such as "4" rate as that number, clamped to [1, 5]. */
  lemma RatingOfWholeStars(tags: Tags, w: string)
    requires "stars" in tags && tags["stars"] == w && |w| > 0 && AllDigits(w)
    ensures EstimateAccommodationRating(tags) == Some(MinReal(5.0, MaxReal(1.0, DigitsValue(w) as real)))
  {
    ParseFloatOfDigits(w);
  }

  /** Stars with a fraction such as "3.5" rate as that number, clamped to
      [1, 5]. */
  lemma RatingOfDecimalStars(tags: Tags, w: string, d: string)
    requires "stars" in tags && tags["stars"] == w + "." + d
    requires |w| > 0 && AllDigits(w) && |d| > 0 && AllDigits(d)
    ensures EstimateAccommodationRating(tags) == Some(MinReal(5.0, MaxReal(1.0, DecimalValue(w, d))))
  {
    ParseFloatOfDecimal(w, d);
  }


  /** Cuisine multipliers in tenths, in the order the source tests them. */
  const CuisineMultipliers: seq<(string, int)> := [
    ("fine_dining", 20), ("sushi", 15), ("seafood", 13), ("italian", 13), ("french", 14),
    ("indian", 10), ("north_indian", 11), ("south_indian", 9), ("gujarati", 9),
    ("bengali", 10), ("punjabi", 11), ("kerala", 10), ("goan", 12),
    ("fast_food", 7), ("street_food", 6), ("dhaba", 5)
  ]

  /** The multiplier for the `;`-separated cuisine tag, in tenths: that of the
      first table entry whose cuisine is listed, else 10. */
  function CuisineMultiplier(tags: Tags): (m: int)
    ensures Has(tags, "cuisine") ==>
      forall k :: FirstHit(CuisineMultipliers, Split(tags["cuisine"], ';'), k) ==> m == CuisineMultipliers[k].1
    ensures Has(tags, "cuisine") ==>
      (forall k :: 0 <= k < |CuisineMultipliers| ==> CuisineMultipliers[k].0 !in Split(tags["cuisine"], ';')) ==> m == 10
    ensures 5 <= m <= 20
    ensures Has(tags, "cuisine") && "fine_dining" in Split(tags["cuisine"], ';') ==> m == 20
    ensures !Has(tags, "cuisine") ==> m == 10
  {
    if Has(tags, "cuisine") then
      var cuisines := Split(tags["cuisine"], ';');
      assert forall k :: 0 <= k < |CuisineMultipliers| ==> 5 <= CuisineMultipliers[k].1 <= 20;
      assert "fine_dining" in cuisines ==> FirstHit(CuisineMultipliers, cuisines, 0);
      FirstRule(CuisineMultipliers, cuisines, 10)
    else 10
  }

  /** The base meal price of a tier; `None` (NaN) outside the three tiers. */
  function FoodBase(tier: string, india: bool): (r: Option<int>)
    ensures r.Some? <==> tier in {"budget", "local", "fine"}
  {
    match tier
    case "budget" => Some(if india then 4 else 8)
    case "local" => Some(if india then 10 else 20)
    case "fine" => Some(if india then 25 else 50)
    case _ => None
  }

  /** `estimateFoodCost`: the rounded base price times the cuisine multiplier. */
  function EstimateFoodCost(tags: Tags, tier: string): (r: Option<int>)
    ensures r.Some? <==> tier in {"budget", "local", "fine"}
    ensures r.Some? ==> IsRoundOf(r.value, FoodBase(tier, InIndia(tags)).value * CuisineMultiplier(tags), 10)
  {
    match FoodBase(tier, InIndia(tags))
    case None => None
    case Some(base) => Some(Round(base * CuisineMultiplier(tags), 10))
  }

  /** Indian base meal prices are half the general ones, so a meal in India
      never costs more than the same meal elsewhere. */
  lemma IndiaMealsCostNoMore(tags: Tags, tier: string)
    requires InIndia(tags) && tier in {"budget", "local", "fine"}
    ensures var elsewhere := tags - {"addr:country", "country"};
      EstimateFoodCost(tags, tier).value <= EstimateFoodCost(elsewhere, tier).value
  {
    var elsewhere := tags - {"addr:country", "country"};
    assert CuisineMultiplier(elsewhere) == CuisineMultiplier(tags) && !InIndia(elsewhere);
    var m := CuisineMultiplier(tags);
    var a, b := FoodBase(tier, true).value, FoodBase(tier, false).value;
    assert 2 * a == b && m > 0;
    assert a * m <= b * m;
  }

  /** An OSM accommodation: the point plus a price, a rating and an image. */
  datatype Lodging = Lodging(poi: Poi, costPerNight: Option<int>, rating: Option<real>, imageUrl: string)

  const DefaultLodgingImage: string := "https://images.unsplash.com/photo-1566073771259-6a8506099945"

  /** `getAccommodations`' mapping of the fetched points. */
  function ToLodgings(pois: seq<Poi>, tier: string): (r: seq<Lodging>)
    ensures |r| == |pois|
    ensures forall k :: 0 <= k < |r| ==>
      (&& r[k].poi == pois[k]
       && r[k].costPerNight == EstimateAccommodationCost(pois[k].tags, tier)
       && r[k].rating == EstimateAccommodationRating(pois[k].tags)
       && r[k].imageUrl == pois[k].image.GetOr(DefaultLodgingImage))
  {
    seq(|pois|, k requires 0 <= k < |pois| =>
      Lodging(pois[k], EstimateAccommodationCost(pois[k].tags, tier),
              EstimateAccommodationRating(pois[k].tags), pois[k].image.GetOr(DefaultLodgingImage)))
  }

  /** An OSM food place; `kind` carries the requested tier. */
  datatype FoodPlace = FoodPlace(name: string, kind: string, description: string, cost: Option<int>,
                                 address: string, lat: real, lon: real)

  /** The label of the first listed cuisine, its first `_` turned into a
      space, or "Local cuisine". */
  function CuisineLabel(tags: Tags): (r: string)
    ensures !Has(tags, "cuisine") ==> r == "Local cuisine"
    ensures Has(tags, "cuisine") ==> ';' !in r && |r| <= |tags["cuisine"]|
  {
    if Has(tags, "cuisine") then
      var first := Split(tags["cuisine"], ';')[0];
      SplitPiecesFree(tags["cuisine"], ';');
      SplitFirstPiece(tags["cuisine"], ';');
      var r := ReplaceFirst(first, '_', ' ');
      assert forall i :: 0 <= i < |r| ==> r[i] != ';';
      r
    else "Local cuisine"
  }

  /** The label is read from the first listed entry, the text up to the
      first `;`: its first `_` becomes a space. */
  lemma CuisineLabelOfFirstEntry(tags: Tags, first: string, tail: string)
    requires Has(tags, "cuisine") && tags["cuisine"] == first + tail
    requires ';' !in first && (tail == "" || tail[0] == ';')
    ensures CuisineLabel(tags) == ReplaceFirst(first, '_', ' ')
  {
    if tail == "" {
      assert first + tail == first;
      SplitFree(first, ';');
    } else {
      assert first + tail == first + [';'] + tail[1..];
      SplitAfterPiece(first, ';', tail[1..]);
    }
  }

  /** "ice_cream;coffee_shop" is labelled "ice cream": only the first entry
      counts, and only its first `_` becomes a space. */
  lemma CuisineLabelUnderscore(tags: Tags, a: string, b: string, tail: string)
    requires Has(tags, "cuisine") && tags["cuisine"] == a + "_" + b + tail
    requires '_' !in a && ';' !in a && ';' !in b && (tail == "" || tail[0] == ';')
    ensures CuisineLabel(tags) == a + " " + b
  {
    var first := a + "_" + b;
    assert a + "_" + b + tail == first + tail;
    assert ';' !in first;
    CuisineLabelOfFirstEntry(tags, first, tail);
    assert first[|a|] == '_' && first[..|a|] == a && first[|a| + 1..] == b;
  }

  /** A cuisine list whose first entry has no `_` is labelled by that entry. */
  lemma CuisineLabelFirstListed(tags: Tags, first: string, rest: string)
    requires "cuisine" in tags && tags["cuisine"] == first + [';'] + rest
    requires first != "" && ';' !in first && '_' !in first
    ensures CuisineLabel(tags) == first
  {
    SplitAfterPiece(first, ';', rest);
  }

  /** One point as a food place: its name, the requested tier, the cuisine
      description, the estimated meal cost, and its address and position. */
  function ToFoodPlace(p: Poi, tier: string): (f: FoodPlace)
    ensures f.name == p.name && f.kind == tier
    ensures f.description == CuisineLabel(p.tags) + (if p.kind == "restaurant" then " restaurant" else " eatery")
    ensures f.cost == EstimateFoodCost(p.tags, tier)
    ensures f.address == p.address && f.lat == p.lat && f.lon == p.lon
  {
    FoodPlace(p.name, tier, CuisineLabel(p.tags) + " " + (if p.kind == "restaurant" then "restaurant" else "eatery"),
              EstimateFoodCost(p.tags, tier), p.address, p.lat, p.lon)
  }

  /** `getFoodPlaces`' mapping: every place carries the requested tier. */
  function ToFoodPlaces(pois: seq<Poi>, tier: string): (r: seq<FoodPlace>)
    ensures |r| == |pois|
    ensures forall k :: 0 <= k < |r| ==> r[k].kind == tier && r[k] == ToFoodPlace(pois[k], tier)
  {
    seq(|pois|, k requires 0 <= k < |pois| => ToFoodPlace(pois[k], tier))
  }
}

=== FILE: planner.dfy ===
/** The planner page: a three-step wizard (destination, budget, results)
    that accumulates a partial request in `formData`, sends it for
    generation and shows the result. `I` is the generated itinerary, which
    the page only stores and passes on. */
module Planner {
  import opened Wrappers
  import opened Strings
  import opened Schema
  import DestinationForm
  import BudgetForm

  datatype Step = DestinationStep | BudgetStep | ResultsStep

  /** The numeric value of each step of the enum. */
  function StepNumber(s: Step): (n: int)
    ensures 1 <= n <= 3
  {
    match s
    case DestinationStep => 1
    case BudgetStep => 2
    case ResultsStep => 3
  }

  /** The partial request: every key may be missing. `tripLength` is the key
      the destination step submits; the request's own `days` key is separate. */
  datatype FormData = FormData(
    destination: Option<string>, country: Option<string>, startDate: Option<string>, endDate: Option<string>,
    days: Option<int>, tripLength: Option<int>, totalBudget: Option<int>, preferences: Option<Preferences>)

  datatype Page<I> = Page(step: Step, formData: FormData, itinerary: Option<I>)

  /** The results step is only reached with an itinerary in hand. */
  predicate Consistent<I>(p: Page<I>) {
    p.step == ResultsStep ==> p.itinerary.Some?
  }

  const InitialFormData: FormData :=
    FormData(None, None, None, None, Some(5), None, Some(1500),
             Some(Preferences("mid-range", "local", ["sightseeing", "cultural"])))

  /** The page opens on the destination step with five days, a budget of
      1500, mid-range stays, local food, and sightseeing and cultural
      activities. */
  function Initial<I>(): (p: Page<I>)
    ensures p.step == DestinationStep && p.itinerary.None? && Consistent(p)
    ensures p.formData.days == Some(5) && p.formData.totalBudget == Some(1500)
    ensures p.formData.destination.None? && p.formData.tripLength.None?
  {
    Page(DestinationStep, InitialFormData, None)
  }

  /** The country is the second comma-separated segment of the destination,
      trimmed, when there is one; "Paris, France" gives "France" and
      "A, B, C" gives "B". */
  function CountryOf(destination: string): (r: string)
    ensures Trimmed(r) && ',' !in r
    ensures ',' !in destination ==> r == ""
  {
    var parts := Split(destination, ',');
    SplitPiecesFree(destination, ',');
    assert ',' !in destination ==> |parts| == 1 by {
      if ',' !in destination { SplitFree(destination, ','); }
    }
    if |parts| > 1 then
      var r := Trim(parts[1]);
      var i :| 0 <= i <= |parts[1]| - |r| && OccursAt(parts[1], r, i);
      assert forall k :: 0 <= k < |r| ==> r[k] == parts[1][i + k];
      r
    else ""
  }

  /** A destination picked from the popular list, "name, country", gives back
      the country, provided neither part holds a comma and the country has no
      surrounding white space. */
  lemma CountryOfSelected(name: string, country: string)
    requires ',' !in name && ',' !in country && Trimmed(country)
    ensures CountryOf(name + ", " + country) == country
  {
    var t := " " + country;
    var d := name + ", " + country;
    assert d == name + [','] + t;
    SplitAfterPiece(name, ',', t);
    SplitFree(t, ',');
    assert Split(d, ',') == [name, t];
    assert CountryOf(d) == Trim(t);
    assert TrimStart(t) == TrimStart(country) by {
      assert IsWhitespace(t[0]) && t[1..] == country;
    }
    TrimmedFixed(country);
    assert Trim(t) == Trim(country);
  }

  /** Two segments give the second, trimmed: "Kyoto,  Japan " gives
      "Japan". */
  lemma CountryOfTwoParts(first: string, second: string)
    requires ',' !in first && ',' !in second
    ensures CountryOf(first + [','] + second) == Trim(second)
  {
    SplitAfterPiece(first, ',', second);
    SplitFree(second, ',');
  }

  /** With more than two segments only the second counts: "A, B, C" gives
      "B". */
  lemma CountryOfManyParts(first: string, second: string, rest: string)
    requires ',' !in first && ',' !in second
    ensures CountryOf(first + [','] + second + [','] + rest) == Trim(second)
  {
    var tail := second + [','] + rest;
    assert first + [','] + second + [','] + rest == first + [','] + tail;
    SplitAfterPiece(first, ',', tail);
    SplitAfterPiece(second, ',', rest);
  }

  /** `handleDestinationSubmit`: the submitted keys and the extracted country
      are laid over the form data, every other key keeps its value (`days`
      among them), and the page moves to the budget step. */
  function SubmitDestination<I>(p: Page<I>, v: DestinationForm.DestinationValues): (r: Page<I>)
    ensures r.step == BudgetStep && r.itinerary == p.itinerary
    ensures r.formData.destination == Some(v.destination) && r.formData.tripLength == Some(v.tripLength)
    ensures r.formData.startDate == Some(v.startDate) && r.formData.endDate == Some(v.endDate)
    ensures r.formData.country == Some(CountryOf(v.destination))
    ensures r.formData.days == p.formData.days
    ensures r.formData.totalBudget == p.formData.totalBudget && r.formData.preferences == p.formData.preferences
    ensures Consistent(r)
  {
    var fd := p.formData.(destination := Some(v.destination), startDate := Some(v.startDate),
                          endDate := Some(v.endDate), tripLength := Some(v.tripLength));
    Page(BudgetStep, fd.(country := Some(CountryOf(v.destination))), p.itinerary)
  }

  /** `handleBudgetSubmit`: the budget and preferences are laid over the form
      data, which is stored and sent for generation as it is; the step does
      not change until generation answers. */
  function SubmitBudget<I>(p: Page<I>, v: BudgetForm.BudgetValues): (r: (Page<I>, FormData))
    ensures r.1 == r.0.formData
    ensures r.1.totalBudget == Some(v.totalBudget) && r.1.preferences == Some(v.preferences)
    ensures r.1.(totalBudget := p.formData.totalBudget, preferences := p.formData.preferences) == p.formData
    ensures r.0.step == p.step && r.0.itinerary == p.itinerary
    ensures Consistent(p) ==> Consistent(r.0)
  {
    var fd := p.formData.(totalBudget := Some(v.totalBudget), preferences := Some(v.preferences));
    (p.(formData := fd), fd)
  }

  /** A generated itinerary is stored and shown on the results step. */
  function GenerationSucceeded<I>(p: Page<I>, it: I): (r: Page<I>)
    ensures r.step == ResultsStep && r.itinerary == Some(it) && r.formData == p.formData
    ensures Consistent(r)
  {
    p.(step := ResultsStep, itinerary := Some(it))
  }

  /** A failed generation only raises a notice; the page stays as it was. */
  function GenerationFailed<I>(p: Page<I>): (r: Page<I>)
    ensures r == p
  {
    p
  }

  function BackToDestination<I>(p: Page<I>): (r: Page<I>)
    ensures r.step == DestinationStep && r.formData == p.formData && r.itinerary == p.itinerary
    ensures Consistent(r)
  {
    p.(step := DestinationStep)
  }

  function BackToBudget<I>(p: Page<I>): (r: Page<I>)
    ensures r.step == BudgetStep && r.formData == p.formData && r.itinerary == p.itinerary
    ensures Consistent(r)
  {
    p.(step := BudgetStep)
  }

  /** The defaults the destination step opens with. */
  function DestinationDefaults(fd: FormData): (d: DestinationForm.Defaults)
    ensures d.destination == fd.destination && d.tripLength == fd.tripLength
    ensures d.startDate == fd.startDate && d.endDate == fd.endDate
  {
    DestinationForm.Defaults(fd.destination, fd.startDate, fd.endDate, fd.tripLength)
  }

  /** Going back to the destination step with both dates set reopens it on
      their day count, whatever trip length the form data carries: the
      date effect runs as the step mounts. */
  lemma ReopenedStepUsesDates<I>(p: Page<I>, start: int, end: int)
    ensures var q := BackToDestination(p);
      DestinationForm.Opened(DestinationDefaults(q.formData), Some(start), Some(end)).tripLength
        == DestinationForm.TripLength(start, end)
  {
  }

  /** The budget step opens on the form data; the page passes no
      destination to it. */
  function BudgetFormFor(fd: FormData): (s: BudgetForm.FormState)
    ensures s.destination == ""
  {
    BudgetForm.Initial(fd.totalBudget, fd.preferences, "")
  }

  /** The India-specific activities are never offered on this page, whatever
      the destination, because the budget step is not told it. */
  lemma IndiaTagsNeverOffered(fd: FormData)
    ensures |BudgetForm.OfferedTags(BudgetFormFor(fd).destination)| == 6
  {
  }

  /** The request keeps the page's initial five days whatever trip length
      the destination step chose, since that step submits `tripLength` and
      never `days`. */
  lemma RequestDaysStayFive<I>(v: DestinationForm.DestinationValues, w: BudgetForm.BudgetValues)
    ensures var p := SubmitDestination(Initial<I>(), v);
      SubmitBudget(p, w).1.days == Some(5)
  {
  }

  /** Picking a popular destination on a fresh page and going on gives the
      budget step that destination's country, and the budget step opens on
      the page's defaults. */
  lemma PickPopularThenContinue<I>(name: string, country: string)
    requires |name| >= 1 && ',' !in name && ',' !in country && Trimmed(country)
    ensures var s := DestinationForm.SelectDestination(DestinationForm.Initial(DestinationDefaults(InitialFormData)), name, country);
      && DestinationForm.Submit(s).Some?
      && var p := SubmitDestination(Initial<I>(), DestinationForm.Submit(s).value);
      && p.step == BudgetStep
      && p.formData.country == Some(country)
      && BudgetFormFor(p.formData) == BudgetForm.FormState(1500, "mid-range", "local", ["sightseeing", "cultural"], "")
  {
    CountryOfSelected(name, country);
  }

  /** `getProgressPercentage`: a bar before the current step is full, one
      after it empty, and the current step's own bar stands at 0, 50 or 100
      on the destination, budget or results step. */
  function Progress(bar: int, current: Step): (r: int)
    ensures r == 0 || r == 50 || r == 100
    ensures bar < StepNumber(current) ==> r == 100
    ensures bar > StepNumber(current) ==> r == 0
    ensures bar == StepNumber(current) ==>
      r == (if current == DestinationStep then 0 else if current == BudgetStep then 50 else 100)
  {
    var c := StepNumber(current);
    if bar < c then 100
    else if bar == c then
      if current == DestinationStep then 0 else if current == BudgetStep then 50 else 100
    else 0
  }

  /** The bars only fill as the page moves forward. */
  lemma ProgressMonotone(bar: int, c1: Step, c2: Step)
    requires StepNumber(c1) <= StepNumber(c2)
    ensures Progress(bar, c1) <= Progress(bar, c2)
  {
  }

  /** An earlier bar is never less full than a later one. */
  lemma ProgressOrdered(b1: int, b2: int, c: Step)
    requires b1 <= b2
    ensures Progress(b1, c) >= Progress(b2, c)
  {
  }
}

=== FILE: rules.dfy ===
/** First-match rule tables: the shape of the providers' classifier chains,
    where tests are tried in order and the first that holds decides. */
module Rules {

  /** Rule `k` is the first whose label is among `labels`. */
  predicate FirstHit<T>(rules: seq<(string, T)>, labels: seq<string>, k: int) {
    0 <= k < |rules| && rules[k].0 in labels
    && forall j :: 0 <= j < k ==> rules[j].0 !in labels
  }

  /** The result of the first rule whose label is among `labels`, or `fallback`
      when none is. */
  function FirstRule<T>(rules: seq<(string, T)>, labels: seq<string>, fallback: T): (r: T)
    ensures (forall k :: 0 <= k < |rules| ==> rules[k].0 !in labels) ==> r == fallback
    ensures forall k :: FirstHit(rules, labels, k) ==> r == rules[k].1
    ensures r == fallback || exists k :: FirstHit(rules, labels, k) && r == rules[k].1
    ensures (exists i :: 0 <= i < |rules| && rules[i].0 in labels) ==>
      exists k :: FirstHit(rules, labels, k) && r == rules[k].1
  {
    if |rules| == 0 then fallback
    else if rules[0].0 in labels then
      assert FirstHit(rules, labels, 0);
      rules[0].1
    else
      var rest := FirstRule(rules[1..], labels, fallback);
      forall k | FirstHit(rules, labels, k) ensures FirstHit(rules[1..], labels, k - 1) {
        assert k > 0;
      }
      forall k | FirstHit(rules[1..], labels, k)
        ensures FirstHit(rules, labels, k + 1) && rules[k + 1].1 == rules[1..][k].1
      {
      }
      forall i | 0 <= i < |rules| && rules[i].0 in labels
        ensures exists k :: FirstHit(rules, labels, k) && rest == rules[k].1
      {
        assert i > 0 && rules[1..][i - 1].0 in labels;
      }
      rest
  }

  /** Tag `key` holds exactly `value`. */
  predicate TagIs(tags: map<string, string>, key: string, value: string) {
    key in tags && tags[key] == value
  }

  /** Rule `k` is the first whose key/value pair the tags hold. */
  predicate FirstTagHit<T>(rules: seq<(string, string, T)>, tags: map<string, string>, k: int) {
    0 <= k < |rules| && TagIs(tags, rules[k].0, rules[k].1)
    && forall j :: 0 <= j < k ==> !TagIs(tags, rules[j].0, rules[j].1)
  }

  /** Some rule's key/value pair is held by the tags. */
  predicate AnyTagHit<T>(rules: seq<(string, string, T)>, tags: map<string, string>) {
    exists k :: 0 <= k < |rules| && TagIs(tags, rules[k].0, rules[k].1)
  }

  /** The result of the first rule whose key/value pair the tags hold, or
      `fallback` when none is. */
  function FirstTagRule<T>(rules: seq<(string, string, T)>, tags: map<string, string>, fallback: T): (r: T)
    ensures !AnyTagHit(rules, tags) ==> r == fallback
    ensures forall k :: FirstTagHit(rules, tags, k) ==> r == rules[k].2
    ensures AnyTagHit(rules, tags) ==> exists k :: FirstTagHit(rules, tags, k) && r == rules[k].2
  {
    if |rules| == 0 then fallback
    else if TagIs(tags, rules[0].0, rules[0].1) then
      assert FirstTagHit(rules, tags, 0);
      rules[0].2
    else
      var rest := FirstTagRule(rules[1..], tags, fallback);
      forall k | FirstTagHit(rules, tags, k) ensures FirstTagHit(rules[1..], tags, k - 1) {
        assert k > 0;
      }
      forall i | 0 <= i < |rules| && TagIs(tags, rules[i].0, rules[i].1)
        ensures exists k :: FirstTagHit(rules, tags, k) && rest == rules[k].2
      {
        assert i > 0 && TagIs(tags, rules[1..][i - 1].0, rules[1..][i - 1].1);
        var k :| FirstTagHit(rules[1..], tags, k) && rest == rules[1..][k].2;
        assert FirstTagHit(rules, tags, k + 1);
      }
      rest
  }

  /** A table whose every result differs from `x` yields `x` only as the
      fallback, that is, only when no rule applies. */
  lemma FirstTagRuleAvoids<T>(rules: seq<(string, string, T)>, tags: map<string, string>, fallback: T, x: T)
    requires forall k :: 0 <= k < |rules| ==> rules[k].2 != x
    ensures FirstTagRule(rules, tags, fallback) == x ==> !AnyTagHit(rules, tags) && fallback == x
  {
  }
}

=== FILE: schema.dfy ===
/** The shared request schemas: the predicates that the `zod` schemas
    `preferencesSchema` and `itineraryFormSchema` implement. */
module Schema {
  import opened Wrappers

  /** Trip preferences as they travel between client and server: the tiers are
      free strings until validated. */
  datatype Preferences = Preferences(accommodation: string, food: string, activities: seq<string>)

  const AccommodationTiers: seq<string> := ["budget", "mid-range", "luxury"]
  const FoodTiers: seq<string> := ["budget", "local", "fine"]

  /** The sixteen activity tags the preference schema accepts, the six general
      ones first and the ten India-specific ones after. */
  const ActivityTags: seq<string> := [
    "sightseeing", "cultural", "adventure", "relaxation", "shopping", "nightlife",
    "temple-visits", "heritage-sites", "ayurveda-wellness", "wildlife-safari",
    "backwaters", "street-food-tours", "handicrafts", "yoga-meditation",
    "hill-stations", "desert-exploration"
  ]

  /** `preferencesSchema`: both tiers from their enumerations and every activity
      a known tag; an empty activity list is accepted. */
  predicate ValidPreferences(p: Preferences) {
    && p.accommodation in AccommodationTiers
    && p.food in FoodTiers
    && forall i :: 0 <= i < |p.activities| ==> p.activities[i] in ActivityTags
  }

  /** The request body of a generation request before validation. Numbers are
      exact reals, so fractional day counts can be expressed. */
  datatype ItineraryForm = ItineraryForm(
    destination: string,
    country: Option<string>,
    startDate: Option<string>,
    endDate: Option<string>,
    days: real,
    totalBudget: real,
    preferences: Preferences)

  /** Some activity is not a known tag. */
  predicate UnknownActivity(p: Preferences) {
    exists i :: 0 <= i < |p.activities| && p.activities[i] !in ActivityTags
  }

  /** The tier is one of its enumeration's values. */
  predicate KnownTier(tier: string, tiers: seq<string>) {
    tier in tiers
  }

  /** Where a failed check sits in the request body: a field, a tier, or one
      element of the activity list. */
  datatype IssuePath =
    | Destination | Days | TotalBudget | AccommodationTier | FoodTier
    | ActivityAt(index: nat)

  /** The path of a failed check, or nothing when it passed. */
  function Report(failed: bool, path: IssuePath): (r: seq<IssuePath>)
    ensures |r| <= 1 && (forall x :: x in r ==> x == path)
    ensures path in r <==> failed
  {
    if failed then [path] else []
  }

  /** One issue per unknown activity, in list order, indices counted from
      `from`. */
  function ActivityIssues(acts: seq<string>, from: nat): (r: seq<IssuePath>)
    ensures |r| <= |acts|
    ensures forall x :: x in r ==> x.ActivityAt? && from <= x.index < from + |acts|
    ensures forall i :: 0 <= i < |acts| ==> (ActivityAt(from + i) in r <==> acts[i] !in ActivityTags)
  {
    if |acts| == 0 then []
    else
      var rest := ActivityIssues(acts[1..], from + 1);
      assert forall i :: 1 <= i < |acts| ==> acts[1..][i - 1] == acts[i];
      Report(acts[0] !in ActivityTags, ActivityAt(from)) + rest
  }

  /** The paths of the failed checks on the destination and the day count;
      the day count has two checks. */
  function TripIssues(destination: bool, fewDays: bool, manyDays: bool): (r: seq<IssuePath>)
    ensures |r| <= 3 && forall x :: x in r ==> x == Destination || x == Days
    ensures Destination in r <==> destination
    ensures Days in r <==> fewDays || manyDays
  {
    Report(destination, Destination) + Report(fewDays, Days) + Report(manyDays, Days)
  }

  /** The paths of the failed checks on the budget and the two tiers. */
  function BudgetIssues(budget: bool, accommodation: bool, food: bool): (r: seq<IssuePath>)
    ensures |r| <= 3 && forall x :: x in r ==> x == TotalBudget || x == AccommodationTier || x == FoodTier
    ensures TotalBudget in r <==> budget
    ensures AccommodationTier in r <==> accommodation
    ensures FoodTier in r <==> food
  {
    Report(budget, TotalBudget) + Report(accommodation, AccommodationTier) + Report(food, FoodTier)
  }

  /** The check at path `p` fails on `f`: the destination is under three
      characters, the day count outside [1, 30], the budget under 200, a tier
      unknown, or the activity at that index exists and is no known tag. */
  predicate Fails(f: ItineraryForm, p: IssuePath) {
    match p
    case Destination => |f.destination| < 3
    case Days => f.days < 1.0 || f.days > 30.0
    case TotalBudget => f.totalBudget < 200.0
    case AccommodationTier => !KnownTier(f.preferences.accommodation, AccommodationTiers)
    case FoodTier => !KnownTier(f.preferences.food, FoodTiers)
    case ActivityAt(i) => i < |f.preferences.activities| && f.preferences.activities[i] !in ActivityTags
  }

  /** The paths `itineraryFormSchema` reports, in schema order: the fields and
      tiers, then one path per unknown activity. A path is reported exactly
      when its check fails, and a field appears once for each of its failed
      checks. */
  function Issues(f: ItineraryForm): (r: seq<IssuePath>)
    ensures |r| <= 6 + |f.preferences.activities|
    ensures forall p :: p in r <==> Fails(f, p)
  {
    var trip := TripIssues(|f.destination| < 3, f.days < 1.0, f.days > 30.0);
    var budget := BudgetIssues(f.totalBudget < 200.0, !KnownTier(f.preferences.accommodation, AccommodationTiers),
                               !KnownTier(f.preferences.food, FoodTiers));
    var elements := ActivityIssues(f.preferences.activities, 0);
    var r := trip + budget + elements;
    assert forall p :: p in r ==> Fails(f, p) by {
      forall p | p in r
        ensures Fails(f, p)
      {
        if p in trip {
          assert p == Destination || p == Days;
        } else if p in budget {
          assert p == TotalBudget || p == AccommodationTier || p == FoodTier;
        } else {
          assert p in elements && p.ActivityAt? && p.index < |f.preferences.activities|;
          assert ActivityAt(0 + p.index) in elements;
        }
      }
    }
    assert forall p :: Fails(f, p) ==> p in r by {
      forall p | Fails(f, p)
        ensures p in r
      {
        if p.ActivityAt? {
          assert ActivityAt(0 + p.index) in elements;
        } else if p == Destination || p == Days {
          assert p in trip;
        } else {
          assert p in budget;
        }
      }
    }
    r
  }

  /** `itineraryFormSchema`: the destination has at least three characters, the
      day count lies in [1, 30], the budget is at least 200 with no upper bound,
      and the preferences are valid. The optional strings are not checked. */
  predicate ValidItineraryForm(f: ItineraryForm) {
    && |f.destination| >= 3
    && 1.0 <= f.days <= 30.0
    && f.totalBudget >= 200.0
    && ValidPreferences(f.preferences)
  }

  /** A form is accepted exactly when the schema reports no issue. */
  lemma ValidIffNoIssues(f: ItineraryForm)
    ensures ValidItineraryForm(f) <==> Issues(f) == []
  {
    if |f.destination| < 3 {
      assert Fails(f, Destination);
    } else if f.days < 1.0 || f.days > 30.0 {
      assert Fails(f, Days);
    } else if f.totalBudget < 200.0 {
      assert Fails(f, TotalBudget);
    } else if !KnownTier(f.preferences.accommodation, AccommodationTiers) {
      assert Fails(f, AccommodationTier);
    } else if !KnownTier(f.preferences.food, FoodTiers) {
      assert Fails(f, FoodTier);
    } else if !ValidItineraryForm(f) {
      var i :| 0 <= i < |f.preferences.activities| && f.preferences.activities[i] !in ActivityTags;
      assert Fails(f, ActivityAt(i));
    } else {
      assert forall p :: p !in Issues(f);
      NoMemberEmpty(Issues(f));
    }
  }

  /** A sequence is empty exactly when nothing is in it. */
  lemma NoMemberEmpty<T>(s: seq<T>)
    ensures s == [] <==> forall x :: x !in s
  {
    if |s| > 0 {
      assert s[0] in s;
    }
  }

  /** Neither the day count's integrality, nor the date strings' format or
      order, nor the agreement between dates and day count is checked. */
  lemma LooseFieldsAccepted(f: ItineraryForm)
    requires |f.destination| >= 3 && f.totalBudget >= 200.0 && ValidPreferences(f.preferences)
    requires f.days == 2.5
    requires f.startDate == Some("2025-12-31") && f.endDate == Some("not a date")
    ensures ValidItineraryForm(f)
  {
  }

  /** An empty activity list and a very large budget are accepted. */
  lemma EmptyActivitiesAccepted(f: ItineraryForm)
    requires f.destination == "Rome" && f.days == 30.0 && f.totalBudget == 1000000.0
    requires f.preferences == Preferences("luxury", "fine", [])
    ensures ValidItineraryForm(f)
  {
  }
}

=== FILE: storage.dfy ===
/** The in-memory store: users, destinations and saved itineraries, each a
    table of records keyed by a number drawn from its own counter. A table is
    kept as a sequence in insertion order, which is the iteration order of the
    JavaScript `Map` it stands for; an update keeps a record's place. */
module Storage {
  import opened Wrappers
  import opened Strings
  import Schema

  /** A record together with the id it is stored under. */
  datatype Keyed<T> = Keyed(id: int, fields: T)

  datatype UserFields = UserFields(username: string, password: string)

  datatype DestinationFields = DestinationFields(
    name: string, country: string, description: Option<string>, imageUrl: Option<string>,
    region: Option<string>, bestTimeToVisit: Option<string>, famousFor: Option<string>,
    localLanguage: Option<string>)

  /** The dates of a saved itinerary payload, as texts. */
  datatype Dates = Dates(start: Option<string>, end: Option<string>)

  /** The generated itinerary a client saves; it is also kept whole as the
      record's `itineraryData`. */
  datatype ItineraryData = ItineraryData(
    destination: string, country: Option<string>, dates: Option<Dates>,
    totalBudget: int, days: int, preferences: Schema.Preferences)

  /** The columns of a saved itinerary. */
  datatype ItineraryFields = ItineraryFields(
    userId: Option<int>, destination: string, country: Option<string>,
    startDate: Option<string>, endDate: Option<string>, totalBudget: int, days: int,
    preferences: Schema.Preferences, itineraryData: ItineraryData, createdAt: string)

  /** A partial itinerary: `None` is a key the patch does not carry; for a
      nullable column, `Some(None)` sets it to null. */
  datatype ItineraryPatch = ItineraryPatch(
    userId: Option<Option<int>>, destination: Option<string>, country: Option<Option<string>>,
    startDate: Option<Option<string>>, endDate: Option<Option<string>>,
    totalBudget: Option<int>, days: Option<int>, preferences: Option<Schema.Preferences>,
    itineraryData: Option<ItineraryData>, createdAt: Option<string>)

  /** The three tables and the next id of each. */
  datatype Store = Store(
    users: seq<Keyed<UserFields>>, destinations: seq<Keyed<DestinationFields>>,
    itineraries: seq<Keyed<ItineraryFields>>,
    nextUser: int, nextDestination: int, nextItinerary: int)

  /** Ids are positive, strictly increasing in insertion order and below the
      table's counter. */
  predicate ValidTable<T>(t: seq<Keyed<T>>, next: int) {
    && next >= 1
    && Increasing(t)
    && (forall k :: 0 <= k < |t| ==> 1 <= t[k].id < next)
  }

  predicate Increasing<T>(t: seq<Keyed<T>>) {
    forall i, j :: 0 <= i < j < |t| ==> t[i].id < t[j].id
  }

  predicate Valid(st: Store) {
    && ValidTable(st.users, st.nextUser)
    && ValidTable(st.destinations, st.nextDestination)
    && ValidTable(st.itineraries, st.nextItinerary)
  }

  predicate HasId<T>(t: seq<Keyed<T>>, id: int) {
    exists k :: 0 <= k < |t| && t[k].id == id
  }

  /** `map.get(id)`. */
  function Find<T>(t: seq<Keyed<T>>, id: int): (r: Option<Keyed<T>>)
    ensures r.Some? <==> HasId(t, id)
    ensures r.Some? ==> r.value in t && r.value.id == id
  {
    if |t| == 0 then None
    else if t[0].id == id then Some(t[0])
    else
      var r := Find(t[1..], id);
      assert HasId(t, id) ==> HasId(t[1..], id) by {
        if HasId(t, id) {
          var k :| 0 <= k < |t| && t[k].id == id;
          assert t[1..][k - 1].id == id;
        }
      }
      assert HasId(t[1..], id) ==> HasId(t, id) by {
        if HasId(t[1..], id) {
          var k :| 0 <= k < |t[1..]| && t[1..][k].id == id;
          assert t[k + 1].id == id;
        }
      }
      r
  }

  /** `map.set(id, ...)` for an id already present: the record is replaced
      where it stands. */
  function Replace<T>(t: seq<Keyed<T>>, id: int, fields: T): (r: seq<Keyed<T>>)
    ensures |r| == |t|
    ensures forall k :: 0 <= k < |t| ==> r[k] == (if t[k].id == id then Keyed(id, fields) else t[k])
  {
    if |t| == 0 then [] else [if t[0].id == id then Keyed(id, fields) else t[0]] + Replace(t[1..], id, fields)
  }

  /** `map.delete(id)`: every other record stays, in order. */
  function Remove<T(!new)>(t: seq<Keyed<T>>, id: int): (r: seq<Keyed<T>>)
    ensures |r| <= |t|
    ensures forall x :: x in r <==> x in t && x.id != id
  {
    if |t| == 0 then [] else (if t[0].id == id then [] else [t[0]]) + Remove(t[1..], id)
  }

  /** Removing keeps the ids increasing and below the counter. */
  lemma RemoveValid<T(!new)>(t: seq<Keyed<T>>, id: int, next: int)
    requires ValidTable(t, next)
    ensures ValidTable(Remove(t, id), next)
  {
    RemoveIncreasing(t, id);
    var r := Remove(t, id);
    forall k | 0 <= k < |r|
      ensures 1 <= r[k].id < next
    {
      assert r[k] in t;
    }
  }

  lemma {:induction false} RemoveIncreasing<T(!new)>(t: seq<Keyed<T>>, id: int)
    requires Increasing(t)
    ensures Increasing(Remove(t, id))
  {
    if |t| > 0 {
      assert Increasing(t[1..]);
      RemoveIncreasing(t[1..], id);
      var rest := Remove(t[1..], id);
      if t[0].id != id {
        forall x | x in rest
          ensures t[0].id < x.id
        {
          var k :| 0 <= k < |t[1..]| && t[1..][k] == x;
          assert t[k + 1] == x;
        }
        ConsIncreasing(t[0], rest);
      }
    }
  }

  lemma ConsIncreasing<T>(h: Keyed<T>, rest: seq<Keyed<T>>)
    requires Increasing(rest)
    requires forall k :: 0 <= k < |rest| ==> h.id < rest[k].id
    ensures Increasing([h] + rest)
  {
    var r := [h] + rest;
    forall i, j | 0 <= i < j < |r|
      ensures r[i].id < r[j].id
    {
      if i > 0 {
        assert r[i] == rest[i - 1] && r[j] == rest[j - 1];
      } else {
        assert r[j] == rest[j - 1];
      }
    }
  }

  /** Replacing the fields of a record keeps every id. */
  lemma ReplaceValid<T>(t: seq<Keyed<T>>, id: int, fields: T, next: int)
    ensures ValidTable(t, next) ==> ValidTable(Replace(t, id, fields), next)
  {
    var r := Replace(t, id, fields);
    assert forall k :: 0 <= k < |t| ==> r[k].id == t[k].id;
  }

  lemma RemoveKeepsValid<T(!new)>(t: seq<Keyed<T>>, id: int, next: int)
    ensures ValidTable(t, next) ==> ValidTable(Remove(t, id), next)
  {
    if ValidTable(t, next) {
      RemoveValid(t, id, next);
    }
  }

  /** Appending a record under the counter and moving the counter on keeps
      the table valid. */
  lemma AppendValid<T>(t: seq<Keyed<T>>, next: int, fields: T)
    ensures ValidTable(t, next) ==> ValidTable(t + [Keyed(next, fields)], next + 1)
  {
  }

  /** The seven destinations the store starts with. */
  const Seeded: seq<DestinationFields> := [
    Popular("Paris", "France", "The City of Light", "https://images.unsplash.com/photo-1502602898657-3e91760cbb34"),
    Popular("Tokyo", "Japan", "Modern meets traditional", "https://images.unsplash.com/photo-1513407030348-c983a97b98d8"),
    Popular("New York", "USA", "The Big Apple", "https://images.unsplash.com/photo-1496442226666-8d4d0e62e6e9"),
    Popular("Rome", "Italy", "The Eternal City", "https://images.unsplash.com/photo-1552832230-c0197dd311b5"),
    Popular("Barcelona", "Spain", "Catalonian gem", "https://images.unsplash.com/photo-1539037116277-4db20889f2d4"),
    Popular("Bangkok", "Thailand", "City of Angels", "https://images.unsplash.com/photo-1508009603885-50cf7c8dd0d5"),
    Popular("Bali", "Indonesia", "Island of the Gods", "https://images.unsplash.com/photo-1536599424071-0b215a388ba7")
  ]

  function Popular(name: string, country: string, description: string, imageUrl: string): DestinationFields {
    DestinationFields(name, country, Some(description), Some(imageUrl), None, None, None, None)
  }

  /** The seeded records, numbered from `first` in list order. */
  function Numbered(list: seq<DestinationFields>, first: int): (r: seq<Keyed<DestinationFields>>)
    ensures |r| == |list|
    ensures forall k :: 0 <= k < |list| ==> r[k] == Keyed(first + k, list[k])
  {
    seq(|list|, k requires 0 <= k < |list| => Keyed(first + k, list[k]))
  }

  /** The constructor: no users or itineraries, the seven destinations under
      ids 1..7, so the next destination id is 8 and the other counters 1. */
  function Init(): (st: Store)
    ensures Valid(st)
    ensures st.users == [] && st.itineraries == [] && st.nextUser == 1 && st.nextItinerary == 1
    ensures |st.destinations| == 7 && st.nextDestination == 8
    ensures forall k :: 0 <= k < 7 ==> st.destinations[k] == Keyed(k + 1, Seeded[k])
  {
    Store([], Numbered(Seeded, 1), [], 1, 1 + |Seeded|, 1)
  }

  function GetUser(st: Store, id: int): (r: Option<Keyed<UserFields>>)
    ensures r.Some? <==> HasId(st.users, id)
    ensures r.Some? ==> r.value in st.users && r.value.id == id
  {
    Find(st.users, id)
  }

  /** The first record, in insertion order, whose fields satisfy `matches`:
      the scan `getUserByUsername` and `getDestinationByName` run over the
      map's values. */
  function FirstMatch<T>(t: seq<Keyed<T>>, matches: T -> bool): (r: Option<Keyed<T>>)
    ensures r.None? <==> forall k :: 0 <= k < |t| ==> !matches(t[k].fields)
    ensures r.Some? ==> exists k :: 0 <= k < |t| && t[k] == r.value && matches(t[k].fields)
                                    && forall j :: 0 <= j < k ==> !matches(t[j].fields)
  {
    if |t| == 0 then None
    else if matches(t[0].fields) then Some(t[0])
    else
      var r := FirstMatch(t[1..], matches);
      assert r.Some? ==> exists k :: 0 <= k < |t| && t[k] == r.value && matches(t[k].fields)
                                    && forall j :: 0 <= j < k ==> !matches(t[j].fields) by {
        if r.Some? {
          var k :| 0 <= k < |t[1..]| && t[1..][k] == r.value && matches(t[1..][k].fields)
                   && forall j :: 0 <= j < k ==> !matches(t[1..][j].fields);
          forall j | 0 <= j < k + 1
            ensures !matches(t[j].fields)
          {
            if j > 0 {
              assert t[j] == t[1..][j - 1];
            }
          }
          assert t[k + 1] == r.value;
        }
      }
      assert r.None? ==> forall k :: 0 <= k < |t| ==> !matches(t[k].fields) by {
        if r.None? {
          forall k | 0 <= k < |t|
            ensures !matches(t[k].fields)
          {
            if k > 0 {
              assert t[k] == t[1..][k - 1];
            }
          }
        }
      }
      r
  }

  /** `getUserByUsername`: a case-sensitive match. */
  function GetUserByUsername(st: Store, name: string): (r: Option<Keyed<UserFields>>)
    ensures r.None? <==> forall k :: 0 <= k < |st.users| ==> st.users[k].fields.username != name
    ensures r.Some? ==> exists k :: 0 <= k < |st.users| && st.users[k] == r.value && r.value.fields.username == name
                                    && forall j :: 0 <= j < k ==> st.users[j].fields.username != name
  {
    FirstMatch(st.users, (u: UserFields) => u.username == name)
  }

  /** `createUser`: stored under the current counter, which moves on. */
  function CreateUser(st: Store, u: UserFields): (r: (Store, Keyed<UserFields>))
    ensures r.1 == Keyed(st.nextUser, u)
    ensures r.0 == st.(users := st.users + [r.1], nextUser := st.nextUser + 1)
    ensures Valid(st) ==> Valid(r.0)
  {
    var user := Keyed(st.nextUser, u);
    AppendValid(st.users, st.nextUser, u);
    (st.(users := st.users + [user], nextUser := st.nextUser + 1), user)
  }

  /** A user created under a name nobody holds yet is the one a lookup of
      that name returns. */
  lemma CreateUserThenFind(st: Store, u: UserFields)
    requires forall k :: 0 <= k < |st.users| ==> st.users[k].fields.username != u.username
    ensures var (st', user) := CreateUser(st, u);
      GetUserByUsername(st', u.username) == Some(user)
  {
    var (st', user) := CreateUser(st, u);
    assert st'.users[|st.users|] == user;
  }

  function GetDestination(st: Store, id: int): (r: Option<Keyed<DestinationFields>>)
    ensures r.Some? <==> HasId(st.destinations, id)
    ensures r.Some? ==> r.value in st.destinations && r.value.id == id
  {
    Find(st.destinations, id)
  }

  /** `getDestinations`: every destination in insertion order; in a valid
      store each one is what a lookup of its own id returns. */
  function GetDestinations(st: Store): (r: seq<Keyed<DestinationFields>>)
    ensures |r| == |st.destinations| && forall x :: x in r <==> x in st.destinations
    ensures Valid(st) ==> forall k :: 0 <= k < |r| ==> GetDestination(st, r[k].id) == Some(r[k])
  {
    EachFound(st.destinations);
    st.destinations
  }

  /** In a table with increasing ids every record is found by its id. */
  lemma EachFound<T>(t: seq<Keyed<T>>)
    ensures Increasing(t) ==> forall k :: 0 <= k < |t| ==> Find(t, t[k].id) == Some(t[k])
  {
    if Increasing(t) {
      forall k | 0 <= k < |t|
        ensures Find(t, t[k].id) == Some(t[k])
      {
        FindAt(t, k);
      }
    }
  }

  /** Two names match when their lower-case forms are equal. */
  predicate SameName(a: string, b: string) {
    ToLower(a) == ToLower(b)
  }

  /** `getDestinationByName`: a case-insensitive match, the earliest
      destination winning. */
  function GetDestinationByName(st: Store, name: string): (r: Option<Keyed<DestinationFields>>)
    ensures r.None? <==> forall k :: 0 <= k < |st.destinations| ==> !SameName(st.destinations[k].fields.name, name)
    ensures r.Some? ==> exists k :: 0 <= k < |st.destinations| && st.destinations[k] == r.value
                                    && SameName(r.value.fields.name, name)
                                    && forall j :: 0 <= j < k ==> !SameName(st.destinations[j].fields.name, name)
  {
    FirstMatch(st.destinations, (d: DestinationFields) => SameName(d.name, name))
  }

  /** `createDestination`: stored under the current counter, which moves on. */
  function CreateDestination(st: Store, d: DestinationFields): (r: (Store, Keyed<DestinationFields>))
    ensures r.1 == Keyed(st.nextDestination, d)
    ensures r.0 == st.(destinations := st.destinations + [r.1], nextDestination := st.nextDestination + 1)
    ensures Valid(st) ==> Valid(r.0)
  {
    var dest := Keyed(st.nextDestination, d);
    AppendValid(st.destinations, st.nextDestination, d);
    (st.(destinations := st.destinations + [dest], nextDestination := st.nextDestination + 1), dest)
  }

  /** The seeded destinations are found by name whatever the case of the
      query: "pARIS" finds Paris under id 1. */
  lemma SeededFoundByName()
    ensures GetDestinationByName(Init(), "pARIS") == Some(Keyed(1, Seeded[0]))
  {
    var t := Init().destinations;
    assert SameName(t[0].fields.name, "pARIS");
  }

  /** The itineraries of one user, in insertion order. */
  function OfUser(t: seq<Keyed<ItineraryFields>>, user: int): (r: seq<Keyed<ItineraryFields>>)
    ensures |r| <= |t|
    ensures forall x :: x in r <==> x in t && x.fields.userId == Some(user)
  {
    if |t| == 0 then [] else (if t[0].fields.userId == Some(user) then [t[0]] else []) + OfUser(t[1..], user)
  }

  /** Filtering distributes over concatenation, so the order of the table is
      kept. */
  lemma {:induction false} OfUserAppend(a: seq<Keyed<ItineraryFields>>, b: seq<Keyed<ItineraryFields>>, user: int)
    ensures OfUser(a + b, user) == OfUser(a, user) + OfUser(b, user)
  {
    if |a| > 0 {
      assert (a + b)[1..] == a[1..] + b;
      OfUserAppend(a[1..], b, user);
    } else {
      assert a + b == b;
    }
  }

  /** `getItineraries(userId)`: a truthy user id (present and not 0) keeps
      that user's itineraries; otherwise all of them. Records saved without a
      user (a null `userId`) never match. */
  function GetItineraries(st: Store, userId: Option<int>): (r: seq<Keyed<ItineraryFields>>)
    ensures userId.None? || userId.value == 0 ==> r == st.itineraries
    ensures userId.Some? && userId.value != 0 ==>
      forall x :: x in r <==> x in st.itineraries && x.fields.userId == userId
  {
    if userId.Some? && userId.value != 0 then OfUser(st.itineraries, userId.value) else st.itineraries
  }

  function GetItinerary(st: Store, id: int): (r: Option<Keyed<ItineraryFields>>)
    ensures r.Some? <==> HasId(st.itineraries, id)
    ensures r.Some? ==> r.value in st.itineraries && r.value.id == id
  {
    Find(st.itineraries, id)
  }

  /** `createItinerary`: stored under the current counter, which moves on;
      users and destinations are untouched. */
  function CreateItinerary(st: Store, f: ItineraryFields): (r: (Store, Keyed<ItineraryFields>))
    ensures r.1 == Keyed(st.nextItinerary, f)
    ensures r.0 == st.(itineraries := st.itineraries + [r.1], nextItinerary := st.nextItinerary + 1)
    ensures Valid(st) ==> Valid(r.0)
  {
    var it := Keyed(st.nextItinerary, f);
    AppendValid(st.itineraries, st.nextItinerary, f);
    (st.(itineraries := st.itineraries + [it], nextItinerary := st.nextItinerary + 1), it)
  }

  /** `{...existing, ...patch}`: every key the patch carries wins. */
  function Merge(f: ItineraryFields, p: ItineraryPatch): (r: ItineraryFields)
    ensures p.destination.Some? ==> r.destination == p.destination.value
    ensures p.destination.None? ==> r.destination == f.destination
    ensures p.country.Some? ==> r.country == p.country.value
    ensures p.country.None? ==> r.country == f.country
    ensures p.totalBudget.Some? ==> r.totalBudget == p.totalBudget.value
    ensures p.totalBudget.None? ==> r.totalBudget == f.totalBudget
    ensures p.userId.Some? ==> r.userId == p.userId.value
    ensures p.userId.None? ==> r.userId == f.userId
    ensures p.startDate.Some? ==> r.startDate == p.startDate.value
    ensures p.startDate.None? ==> r.startDate == f.startDate
    ensures p.endDate.Some? ==> r.endDate == p.endDate.value
    ensures p.endDate.None? ==> r.endDate == f.endDate
    ensures p.days.Some? ==> r.days == p.days.value
    ensures p.days.None? ==> r.days == f.days
    ensures p.preferences.Some? ==> r.preferences == p.preferences.value
    ensures p.preferences.None? ==> r.preferences == f.preferences
    ensures p.itineraryData.Some? ==> r.itineraryData == p.itineraryData.value
    ensures p.itineraryData.None? ==> r.itineraryData == f.itineraryData
    ensures p.createdAt.Some? ==> r.createdAt == p.createdAt.value
    ensures p.createdAt.None? ==> r.createdAt == f.createdAt
  {
    ItineraryFields(
      p.userId.GetOr(f.userId), p.destination.GetOr(f.destination), p.country.GetOr(f.country),
      p.startDate.GetOr(f.startDate), p.endDate.GetOr(f.endDate), p.totalBudget.GetOr(f.totalBudget),
      p.days.GetOr(f.days), p.preferences.GetOr(f.preferences), p.itineraryData.GetOr(f.itineraryData),
      p.createdAt.GetOr(f.createdAt))
  }

  /** The patch that carries no key. */
  const EmptyPatch: ItineraryPatch := ItineraryPatch(None, None, None, None, None, None, None, None, None, None)

  /** Merging the empty patch changes nothing, and merging twice is merging
      once. */
  lemma MergeLaws(f: ItineraryFields, p: ItineraryPatch)
    ensures Merge(f, EmptyPatch) == f
    ensures Merge(Merge(f, p), p) == Merge(f, p)
  {
  }

  /** `updateItinerary`: an unknown id changes nothing and yields nothing;
      otherwise the merged record replaces the old one under the same id and
      is returned. */
  function UpdateItinerary(st: Store, id: int, p: ItineraryPatch): (r: (Store, Option<Keyed<ItineraryFields>>))
    ensures !HasId(st.itineraries, id) ==> r == (st, None)
    ensures HasId(st.itineraries, id) ==>
      && r.1 == Some(Keyed(id, Merge(GetItinerary(st, id).value.fields, p)))
      && r.0 == st.(itineraries := Replace(st.itineraries, id, r.1.value.fields))
    ensures Valid(st) ==> Valid(r.0)
  {
    match Find(st.itineraries, id)
    case None => (st, None)
    case Some(existing) =>
      var updated := Keyed(id, Merge(existing.fields, p));
      ReplaceValid(st.itineraries, id, updated.fields, st.nextItinerary);
      (st.(itineraries := Replace(st.itineraries, id, updated.fields)), Some(updated))
  }

  /** `deleteItinerary`: true exactly when the id was present. */
  function DeleteItinerary(st: Store, id: int): (r: (Store, bool))
    ensures r.1 <==> HasId(st.itineraries, id)
    ensures r.0 == st.(itineraries := Remove(st.itineraries, id))
    ensures Valid(st) ==> Valid(r.0)
  {
    RemoveKeepsValid(st.itineraries, id, st.nextItinerary);
    (st.(itineraries := Remove(st.itineraries, id)), HasId(st.itineraries, id))
  }

  /** In a table with increasing ids a lookup finds the one record that
      carries the id. */
  lemma FindAt<T>(t: seq<Keyed<T>>, k: int)
    requires Increasing(t) && 0 <= k < |t|
    ensures Find(t, t[k].id) == Some(t[k])
  {
    assert HasId(t, t[k].id);
    var found := Find(t, t[k].id).value;
    var j :| 0 <= j < |t| && t[j] == found;
    assert j == k;
  }

  /** In a valid store a lookup after a create returns exactly the created
      record: the new id names no older record. */
  lemma CreateThenGet(st: Store, f: ItineraryFields)
    requires Valid(st)
    ensures var (st', it) := CreateItinerary(st, f);
      GetItinerary(st', it.id) == Some(Keyed(st.nextItinerary, f))
  {
    var (st', it) := CreateItinerary(st, f);
    FindAt(st'.itineraries, |st.itineraries|);
  }

  /** A deleted id is gone. */
  lemma DeleteThenGet(st: Store, id: int)
    ensures GetItinerary(DeleteItinerary(st, id).0, id).None?
  {
    var t := DeleteItinerary(st, id).0.itineraries;
    forall k | 0 <= k < |t|
      ensures t[k].id != id
    {
      assert t[k] in t;
    }
  }

  /** Ids are never reused: after a delete the next create picks an id that
      no record ever had, even the deleted one. */
  lemma DeleteThenCreateFresh(st: Store, id: int, f: ItineraryFields)
    requires Valid(st) && HasId(st.itineraries, id)
    ensures var st' := DeleteItinerary(st, id).0;
      CreateItinerary(st', f).1.id != id && !HasId(st.itineraries, CreateItinerary(st', f).1.id)
  {
  }

  /** Updating a missing record leaves the store as it was; updating a
      present one leaves every other record and the other tables alone. */
  lemma UpdateTouchesOnlyItsRecord(st: Store, id: int, p: ItineraryPatch, other: int)
    requires Valid(st) && other != id
    ensures var st' := UpdateItinerary(st, id, p).0;
      && st'.users == st.users && st'.destinations == st.destinations
      && st'.nextItinerary == st.nextItinerary
      && GetItinerary(st', other) == GetItinerary(st, other)
  {
    var st' := UpdateItinerary(st, id, p).0;
    if HasId(st.itineraries, id) {
      var t, t' := st.itineraries, st'.itineraries;
      assert forall k :: 0 <= k < |t| ==> t'[k].id == t[k].id;
      FindPointwise(t, t', other);
    }
  }

  /** Two tables that agree on every record with id `id`, position by
      position, answer the same lookup of `id`. */
  lemma {:induction false} FindPointwise<T>(t: seq<Keyed<T>>, t': seq<Keyed<T>>, id: int)
    requires |t| == |t'|
    requires forall k :: 0 <= k < |t| ==> t'[k].id == t[k].id
    requires forall k :: 0 <= k < |t| && t[k].id == id ==> t'[k] == t[k]
    ensures Find(t', id) == Find(t, id)
  {
    if |t| > 0 {
      FindPointwise(t[1..], t'[1..], id);
    }
  }

  /** After an update of a present record, reading it back gives the merged
      record. */
  lemma UpdateThenGet(st: Store, id: int, p: ItineraryPatch)
    requires Valid(st) && HasId(st.itineraries, id)
    ensures var (st', r) := UpdateItinerary(st, id, p);
      GetItinerary(st', id) == r
  {
    var (st', r) := UpdateItinerary(st, id, p);
    var t := st.itineraries;
    var k :| 0 <= k < |t| && t[k].id == id;
    FindAt(st'.itineraries, k);
  }
}

=== FILE: strings.dfy ===
/** String operations of the JavaScript standard library that the core relies
    on, over `string` = `seq<char>`. Case mapping is modelled for ASCII letters. */
module Strings {

  /** `String.prototype.toLowerCase` on one character (ASCII letters only). */
  function LowerChar(c: char): char {
    if 'A' <= c <= 'Z' then (c as int + 32) as char else c
  }

  /** `String.prototype.toUpperCase` on one character (ASCII letters only). */
  function UpperChar(c: char): char {
    if 'a' <= c <= 'z' then (c as int - 32) as char else c
  }

  /** No ASCII capital letter in `s`. */
  predicate IsLower(s: string) {
    forall i :: 0 <= i < |s| ==> LowerChar(s[i]) == s[i]
  }

  function ToLower(s: string): (r: string)
    ensures |r| == |s|
    ensures forall i :: 0 <= i < |s| ==> r[i] == LowerChar(s[i])
    ensures IsLower(r)
  {
    if |s| == 0 then "" else [LowerChar(s[0])] + ToLower(s[1..])
  }

  /** `s.charAt(0).toUpperCase() + s.slice(1)`. */
  function Capitalize(s: string): (r: string)
    ensures |r| == |s|
    ensures |s| > 0 ==> r[0] == UpperChar(s[0]) && r[1..] == s[1..]
  {
    if |s| == 0 then "" else [UpperChar(s[0])] + s[1..]
  }

  /** `s.includes(sub)`: `sub` occurs somewhere in `s`. */
  predicate Contains(s: string, sub: string) {
    exists i :: 0 <= i <= |s| - |sub| && OccursAt(s, sub, i)
  }

  /** `sub` occurs in `s` starting at index `i`. */
  predicate OccursAt(s: string, sub: string, i: int)
    requires 0 <= i <= |s| - |sub|
  {
    s[i..i + |sub|] == sub
  }

  /** `sub` still occurs after text is added on either side. */
  lemma ContainsExtended(a: string, s: string, b: string, sub: string)
    requires Contains(s, sub)
    ensures Contains(a + s + b, sub)
  {
    var i :| 0 <= i <= |s| - |sub| && OccursAt(s, sub, i);
    assert (a + s + b)[|a| + i..|a| + i + |sub|] == s[i..i + |sub|];
    assert OccursAt(a + s + b, sub, |a| + i);
  }

  /** A string contains what it ends with. */
  lemma ContainsEnd(p: string, x: string)
    ensures Contains(p + x, x)
  {
    assert (p + x)[|p|..|p| + |x|] == x;
    assert OccursAt(p + x, x, |p|);
  }

  /** Text added at the end keeps what was contained. */
  lemma ContainsMore(s: string, t: string, sub: string)
    requires Contains(s, sub)
    ensures Contains(s + t, sub)
  {
    var i :| 0 <= i <= |s| - |sub| && OccursAt(s, sub, i);
    assert (s + t)[i..i + |sub|] == s[i..i + |sub|];
    assert OccursAt(s + t, sub, i);
  }

  lemma ContainsSelf(s: string)
    ensures Contains(s, s)
  {
    assert OccursAt(s, s, 0);
  }

  /** `s.startsWith(p)`. */
  predicate StartsWith(s: string, p: string) {
    |p| <= |s| && s[..|p|] == p
  }

  /** `parts.join(sep)`: the parts in order with `sep` between neighbours,
      so at least as long as its parts. */
  function Join(parts: seq<string>, sep: string): (r: string)
    ensures |parts| == 0 ==> r == ""
    ensures forall k :: 0 <= k < |parts| ==> |parts[k]| <= |r|
  {
    if |parts| == 0 then ""
    else if |parts| == 1 then parts[0]
    else
      var rest := Join(parts[1..], sep);
      assert forall k :: 1 <= k < |parts| ==> parts[k] == parts[1..][k - 1];
      parts[0] + sep + rest
  }

  /** The join opens with the first part and closes with the last. */
  lemma {:induction false} JoinEnds(parts: seq<string>, sep: string)
    requires |parts| > 0
    ensures StartsWith(Join(parts, sep), parts[0])
    ensures var r, last := Join(parts, sep), parts[|parts| - 1];
      r[|r| - |last|..] == last
  {
    if |parts| > 1 {
      JoinEnds(parts[1..], sep);
      var rest := Join(parts[1..], sep);
      var r := parts[0] + sep + rest;
      assert r == Join(parts, sep);
      assert r[..|parts[0]|] == parts[0];
      assert r[|r| - |rest|..] == rest;
    }
  }

  /** Every part occurs in the join. */
  lemma {:induction false} JoinContainsPart(parts: seq<string>, sep: string, k: int)
    requires 0 <= k < |parts|
    ensures Contains(Join(parts, sep), parts[k])
  {
    if |parts| == 1 {
      ContainsSelf(parts[0]);
    } else if k == 0 {
      ContainsSelf(parts[0]);
      ContainsExtended("", parts[0], sep + Join(parts[1..], sep), parts[0]);
      assert "" + parts[0] + (sep + Join(parts[1..], sep)) == Join(parts, sep);
    } else {
      JoinContainsPart(parts[1..], sep, k - 1);
      ContainsExtended(parts[0] + sep, Join(parts[1..], sep), "", parts[k]);
      assert parts[0] + sep + Join(parts[1..], sep) + "" == Join(parts, sep);
    }
  }

  /** `s.split(sep)` for a one-character separator: the maximal pieces of `s`
      between occurrences of `sep`, so `"".split(",")` is `[""]`. */
  function Split(s: string, sep: char): (parts: seq<string>)
    ensures |parts| >= 1
  {
    if |s| == 0 then [""]
    else
      var rest := Split(s[1..], sep);
      if s[0] == sep then [""] + rest else [[s[0]] + rest[0]] + rest[1..]
  }

  /** Splitting never leaves a separator inside a piece. */
  lemma {:induction false} SplitPiecesFree(s: string, sep: char)
    ensures forall k :: 0 <= k < |Split(s, sep)| ==> sep !in Split(s, sep)[k]
  {
    if |s| > 0 {
      SplitPiecesFree(s[1..], sep);
    }
  }

  /** The first piece of a split is a prefix of the string. */
  lemma {:induction false} SplitFirstPiece(s: string, sep: char)
    ensures |Split(s, sep)[0]| <= |s| && Split(s, sep)[0] == s[..|Split(s, sep)[0]|]
  {
    if |s| > 0 {
      SplitFirstPiece(s[1..], sep);
    }
  }

  /** Joining the pieces of a split with the separator gives back the string. */
  lemma {:induction false} JoinSplit(s: string, sep: char)
    ensures Join(Split(s, sep), [sep]) == s
  {
    if |s| > 0 {
      var rest := Split(s[1..], sep);
      JoinSplit(s[1..], sep);
      if s[0] == sep {
        assert Split(s, sep) == [""] + rest;
        assert ([""] + rest)[1..] == rest;
      } else {
        var parts := [[s[0]] + rest[0]] + rest[1..];
        assert Split(s, sep) == parts;
        if |rest| == 1 {
          assert Join(rest, [sep]) == rest[0];
        } else {
          assert Join(rest, [sep]) == rest[0] + [sep] + Join(rest[1..], [sep]);
          assert parts[1..] == rest[1..];
        }
      }
    }
  }

  /** Splitting a join of separator-free pieces gives back the pieces. */
  lemma {:induction false} SplitJoin(parts: seq<string>, sep: char)
    requires |parts| >= 1
    requires forall k :: 0 <= k < |parts| ==> sep !in parts[k]
    ensures Split(Join(parts, [sep]), sep) == parts
  {
    if |parts| == 1 {
      SplitFree(parts[0], sep);
    } else {
      var tail := Join(parts[1..], [sep]);
      SplitJoin(parts[1..], sep);
      SplitAfterPiece(parts[0], sep, tail);
    }
  }

  /** Splitting at a separator between two texts splits each of them. */
  lemma SplitConcat(a: string, sep: char, b: string)
    ensures Split(a + [sep] + b, sep) == Split(a, sep) + Split(b, sep)
  {
    var pa, pb := Split(a, sep), Split(b, sep);
    SplitPiecesFree(a, sep);
    SplitPiecesFree(b, sep);
    assert forall k :: 0 <= k < |pa + pb| ==> sep !in (pa + pb)[k] by {
      assert forall k :: 0 <= k < |pa + pb| ==> (pa + pb)[k] == if k < |pa| then pa[k] else pb[k - |pa|];
    }
    JoinSplit(a, sep);
    JoinSplit(b, sep);
    JoinAppend(pa, pb, [sep]);
    SplitJoin(pa + pb, sep);
  }

  /** Joining two non-empty lists of parts joins each, with one separator
      between them. */
  lemma {:induction false} JoinAppend(p: seq<string>, q: seq<string>, sep: string)
    requires |p| >= 1 && |q| >= 1
    ensures Join(p + q, sep) == Join(p, sep) + sep + Join(q, sep)
  {
    var jq := Join(q, sep);
    assert (p + q)[0] == p[0];
    if |p| == 1 {
      assert (p + q)[1..] == q;
    } else {
      assert (p + q)[1..] == p[1..] + q;
      JoinAppend(p[1..], q, sep);
      var jp := Join(p[1..], sep);
      assert Join(p + q, sep) == p[0] + sep + (jp + sep + jq);
      assert Join(p, sep) == p[0] + sep + jp;
      assert p[0] + sep + (jp + sep + jq) == (p[0] + sep + jp) + sep + jq;
    }
  }

  /** The pieces of every part, in order. */
  function SplitEach(parts: seq<string>, sep: char): (r: seq<string>)
    ensures |r| >= |parts|
  {
    if |parts| == 0 then [] else Split(parts[0], sep) + SplitEach(parts[1..], sep)
  }

  /** A piece of `SplitEach` is exactly a piece of some part. */
  lemma {:induction false} SplitEachMember(parts: seq<string>, sep: char, p: string)
    ensures p in SplitEach(parts, sep) <==> exists k :: 0 <= k < |parts| && p in Split(parts[k], sep)
  {
    if |parts| > 0 {
      SplitEachMember(parts[1..], sep, p);
      if p in SplitEach(parts[1..], sep) {
        var k :| 0 <= k < |parts[1..]| && p in Split(parts[1..][k], sep);
        assert p in Split(parts[k + 1], sep);
      }
      if exists k :: 0 <= k < |parts| && p in Split(parts[k], sep) {
        var k :| 0 <= k < |parts| && p in Split(parts[k], sep);
        if k > 0 {
          assert parts[1..][k - 1] == parts[k];
        }
      }
    }
  }

  /** Splitting a join of parts with the separator gives the pieces of every
      part, in order; parts that hold the separator split further. */
  lemma {:induction false} SplitJoinEach(parts: seq<string>, sep: char)
    requires |parts| >= 1
    ensures Split(Join(parts, [sep]), sep) == SplitEach(parts, sep)
  {
    if |parts| == 1 {
      assert Join(parts, [sep]) == parts[0];
      assert SplitEach(parts[1..], sep) == [];
    } else {
      SplitJoinEach(parts[1..], sep);
      SplitConcat(parts[0], sep, Join(parts[1..], [sep]));
    }
  }

  /** A string without the separator splits into itself. */
  lemma {:induction false} SplitFree(s: string, sep: char)
    requires sep !in s
    ensures Split(s, sep) == [s]
  {
    if |s| > 0 {
      assert s[0] != sep && [s[0]] + s[1..] == s;
      SplitFree(s[1..], sep);
    }
  }

  /** Splitting `p + sep + t`, where `p` has no separator, yields `p` first. */
  lemma {:induction false} SplitAfterPiece(p: string, sep: char, t: string)
    requires sep !in p
    ensures Split(p + [sep] + t, sep) == [p] + Split(t, sep)
  {
    if |p| == 0 {
      assert p + [sep] + t == [sep] + t;
      assert ([sep] + t)[1..] == t;
    } else {
      assert (p + [sep] + t)[1..] == p[1..] + [sep] + t;
      SplitAfterPiece(p[1..], sep, t);
      assert [p[0]] + p[1..] == p;
    }
  }

  /** `s.indexOf(c)` for a character that occurs: the first position of `c`. */
  function IndexOf(s: string, c: char): (i: int)
    requires c in s
    ensures 0 <= i < |s| && s[i] == c && c !in s[..i]
  {
    if s[0] == c then 0
    else
      var j := IndexOf(s[1..], c);
      assert s[..j + 1] == [s[0]] + s[1..][..j];
      j + 1
  }

  /** `s.replace(from, to)` with one-character strings: only the FIRST
      occurrence is replaced, as JavaScript does for a string pattern. */
  function ReplaceFirst(s: string, from: char, to: char): (r: string)
    ensures |r| == |s|
    ensures from !in s ==> r == s
    ensures forall i :: 0 <= i < |s| && s[i] == from && from !in s[..i] ==>
      r == s[..i] + [to] + s[i + 1..]
    ensures forall i :: 0 <= i < |r| ==> r[i] == s[i] || r[i] == to
  {
    if from !in s then s
    else
      var k := IndexOf(s, from);
      FirstOccurrenceUnique(s, from, k);
      SpliceAt(s, k, to);
      s[..k] + [to] + s[k + 1..]
  }

  /** A character has at most one first occurrence. */
  lemma FirstOccurrenceUnique(s: string, c: char, k: int)
    requires 0 <= k < |s| && s[k] == c && c !in s[..k]
    ensures forall i :: 0 <= i < |s| && s[i] == c && c !in s[..i] ==> i == k
  {
    forall i | 0 <= i < |s| && s[i] == c && c !in s[..i]
      ensures i == k
    {
      PrefixMember(s, i, k);
      PrefixMember(s, k, i);
    }
  }

  /** A character before position `n` is in the prefix of length `n`. */
  lemma PrefixMember(s: string, j: int, n: int)
    ensures 0 <= j < n <= |s| ==> s[j] in s[..n]
  {
    if 0 <= j < n <= |s| {
      assert s[..n][j] == s[j];
    }
  }

  /** Putting `c` in place of position `k` changes that position only. */
  lemma SpliceAt(s: string, k: int, c: char)
    requires 0 <= k < |s|
    ensures |s[..k] + [c] + s[k + 1..]| == |s|
    ensures forall i :: 0 <= i < |s| ==> (s[..k] + [c] + s[k + 1..])[i] == (if i == k then c else s[i])
  {
    var r := s[..k] + [c] + s[k + 1..];
    forall i | 0 <= i < |r|
      ensures r[i] == (if i == k then c else s[i])
    {
      if i < k { assert r[i] == s[..k][i]; }
      else if i > k { assert r[i] == s[k + 1..][i - k - 1]; }
    }
  }

  /** `s.replace(/x/g, y)` with one-character strings: every occurrence. */
  function ReplaceAll(s: string, from: char, to: char): (r: string)
    ensures |r| == |s|
    ensures forall i :: 0 <= i < |s| ==> r[i] == (if s[i] == from then to else s[i])
  {
    if |s| == 0 then "" else [if s[0] == from then to else s[0]] + ReplaceAll(s[1..], from, to)
  }

  /** The characters JavaScript's `trim` and the regular-expression class `\s`
      treat as white space (ECMAScript WhiteSpace and LineTerminator). */
  predicate IsWhitespace(c: char) {
    if c <= ' ' then
      c == ' ' || ('\t' <= c <= '\r')
    else
      '\U{00A0}' <= c
      && (c == '\U{00A0}' || c == '\U{1680}' || ('\U{2000}' <= c <= '\U{200A}')
          || c == '\U{2028}' || c == '\U{2029}' || c == '\U{202F}' || c == '\U{205F}'
          || c == '\U{3000}' || c == '\U{FEFF}')
  }

  function TrimStart(s: string): (r: string)
    ensures |r| <= |s| && r == s[|s| - |r|..]
    ensures |r| > 0 ==> !IsWhitespace(r[0])
    ensures forall i :: 0 <= i < |s| - |r| ==> IsWhitespace(s[i])
  {
    if |s| > 0 && IsWhitespace(s[0]) then TrimStart(s[1..]) else s
  }

  /** A run of white space before text that starts with none is exactly what
      `trimStart` removes. */
  lemma {:induction false} TrimStartRun(w: string, t: string)
    requires forall i :: 0 <= i < |w| ==> IsWhitespace(w[i])
    requires |t| == 0 || !IsWhitespace(t[0])
    ensures TrimStart(w + t) == t
  {
    if |w| > 0 {
      assert (w + t)[0] == w[0] && (w + t)[1..] == w[1..] + t;
      TrimStartRun(w[1..], t);
    } else {
      assert w + t == t;
    }
  }

  function TrimEnd(s: string): (r: string)
    ensures |r| <= |s| && r == s[..|r|]
    ensures |r| > 0 ==> !IsWhitespace(r[|r| - 1])
    ensures forall i :: |r| <= i < |s| ==> IsWhitespace(s[i])
  {
    if |s| > 0 && IsWhitespace(s[|s| - 1]) then TrimEnd(s[..|s| - 1]) else s
  }

  /** Text with no white space at either end. */
  predicate Trimmed(s: string) {
    |s| == 0 || (!IsWhitespace(s[0]) && !IsWhitespace(s[|s| - 1]))
  }

  /** `r` is the stretch of `s` starting at `i` with only white space
      before and after it. */
  predicate StretchOf(s: string, i: int, r: string) {
    && 0 <= i && i + |r| <= |s| && r == s[i..i + |r|]
    && (forall k :: 0 <= k < i ==> IsWhitespace(s[k]))
    && (forall k :: i + |r| <= k < |s| ==> IsWhitespace(s[k]))
  }

  /** `String.prototype.trim`: the stretch of `s` that starts after its
      leading white space, has no white space at either end, and leaves only
      white space after it. */
  function Trim(s: string): (r: string)
    ensures Trimmed(r)
    ensures StretchOf(s, |s| - |TrimStart(s)|, r)
    ensures Contains(s, r)
  {
    var t := TrimStart(s);
    var r := TrimEnd(t);
    TrimStretch(s, t, r);
    r
  }

  /** Trimming the start and then the end leaves a stretch of `s`. */
  lemma TrimStretch(s: string, t: string, r: string)
    requires |t| <= |s| && t == s[|s| - |t|..]
    requires forall k :: 0 <= k < |s| - |t| ==> IsWhitespace(s[k])
    requires |r| <= |t| && r == t[..|r|]
    requires forall k :: |r| <= k < |t| ==> IsWhitespace(t[k])
    ensures StretchOf(s, |s| - |t|, r) && Contains(s, r)
  {
    var i := |s| - |t|;
    forall k | 0 <= k < |r|
      ensures r[k] == s[i + k]
    {
      assert r[k] == t[k];
    }
    forall k | i + |r| <= k < |s|
      ensures IsWhitespace(s[k])
    {
      assert s[k] == t[k - i];
    }
    assert OccursAt(s, r, i);
  }

  /** `trim` leaves text without white space at its ends as it is. */
  lemma TrimmedFixed(s: string)
    requires Trimmed(s)
    ensures Trim(s) == s
  {
  }

  function DigitChar(d: nat): char
    requires d < 10
  {
    ('0' as int + d) as char
  }

  /** JavaScript's conversion of a non-negative integer to its decimal text. */
  function NatToString(n: nat): (r: string)
    ensures |r| >= 1
    ensures forall i :: 0 <= i < |r| ==> '0' <= r[i] <= '9'
  {
    if n < 10 then [DigitChar(n)] else NatToString(n / 10) + [DigitChar(n % 10)]
  }
}

=== FILE: triposo.dfy ===
/** The Triposo normaliser: location ids, the accommodation price-tier filter,
    and the mapping of points of interest, hotels and tours to the app's item
    shapes. The HTTP calls are not modelled; their results are inputs. */
module Triposo {
  import opened Wrappers
  import opened Strings
  import opened Numbers
  import opened Rules

  /** The location id every Triposo query sends: the lower-cased city, then
      `_` and the lower-cased country when a country is given. */
  function LocationId(city: string, country: Option<string>): (r: string)
    ensures IsLower(r)
    ensures |city| <= |r| && r[..|city|] == ToLower(city)
    ensures country.Some? && country.value != "" ==>
      r == ToLower(city) + "_" + ToLower(country.value)
    ensures country.None? || country.value == "" ==> r == ToLower(city)
  {
    if country.Some? && country.value != "" then ToLower(city) + "_" + ToLower(country.value)
    else ToLower(city)
  }

  /** Splitting the id at `_` gives back the lower-cased city and country when
      neither holds a `_`. */
  lemma LocationIdSplits(city: string, country: string)
    requires country != "" && '_' !in city && '_' !in country
    ensures Split(LocationId(city, Some(country)), '_') == [ToLower(city), ToLower(country)]
  {
    var c := ToLower(city);
    var k := ToLower(country);
    assert forall i :: 0 <= i < |c| ==> c[i] != '_';
    assert '_' !in c;
    assert '_' !in k by {
      assert forall i :: 0 <= i < |k| ==> k[i] != '_';
    }
    SplitAfterPiece(c, '_', k);
    SplitFree(k, '_');
    assert LocationId(city, Some(country)) == c + ['_'] + k;
  }

  /** The `annotate` price tiers of the accommodation query. */
  function PriceTierFilter(tier: string): (r: string)
    ensures tier == "budget" ==> r == "price_tier:1,price_tier:2"
    ensures tier == "luxury" ==> r == "price_tier:4,price_tier:5"
    ensures tier != "budget" && tier != "luxury" ==> r == "price_tier:3"
  {
    match tier
    case "budget" => "price_tier:1,price_tier:2"
    case "luxury" => "price_tier:4,price_tier:5"
    case _ => "price_tier:3"
  }

  /** A raw Triposo record; `images` holds the medium-size URL of each image. */
  datatype Record = Record(
    id: string, name: string, snippet: Option<string>, intro: Option<string>,
    images: Option<seq<string>>, priceTier: Option<int>, tagLabels: Option<seq<string>>,
    score: Option<real>)

  const DefaultPoiImage: string := "https://images.unsplash.com/photo-1476304884326-cd2c88572c5f"
  const DefaultLodgingImage: string := "https://images.unsplash.com/photo-1566073771259-6a8506099945"

  /** The first image, or `fallback`. */
  function FirstImage(images: Option<seq<string>>, fallback: string): (r: string)
    ensures images.Some? && |images.value| > 0 ==> r == images.value[0]
    ensures images.None? || |images.value| == 0 ==> r == fallback
  {
    if images.Some? && |images.value| > 0 then images.value[0] else fallback
  }

  /** The entry cost of price tiers 1..5, cheapest first. */
  const PoiCosts: seq<int> := [0, 10, 20, 35, 50]

  /** A point's entry cost: the cost of its price tier 1..5; 0 for no tier or
      one outside that range. */
  function PoiCost(tier: Option<int>): (r: int)
    ensures tier.Some? && 1 <= tier.value <= 5 ==> r == PoiCosts[tier.value - 1]
    ensures tier.None? || tier.value < 1 || tier.value > 5 ==> r == 0
    ensures r > 0 <==> tier.Some? && 2 <= tier.value <= 5
  {
    if tier.None? then 0
    else match tier.value
      case 1 => 0
      case 2 => 10
      case 3 => 20
      case 4 => 35
      case 5 => 50
      case _ => 0
  }

  /** The labels the visit-duration estimate tests, in order, with the
      duration each gives. */
  const PoiDurationRules: seq<(string, string)> := [
    ("museums", "2-3 hours"), ("amusement_parks", "3-4 hours"), ("monuments", "30 minutes"),
    ("natural", "2-3 hours")
  ]

  /** The visit duration by the first matching label; labels being present,
      even as an empty list, is required for any match. */
  function PoiDuration(labels: Option<seq<string>>): (r: string)
    ensures labels.Some? ==> forall k :: FirstHit(PoiDurationRules, labels.value, k) ==> r == PoiDurationRules[k].1
    ensures r in {"2-3 hours", "3-4 hours", "30 minutes", "1-2 hours"}
    ensures labels.None? ==> r == "1-2 hours"
    ensures labels.Some? && "museums" in labels.value ==> r == "2-3 hours"
    ensures r == "1-2 hours" <==>
      labels.None? || forall k :: 0 <= k < |PoiDurationRules| ==> PoiDurationRules[k].0 !in labels.value
  {
    if labels.None? then "1-2 hours"
    else
      assert forall k :: 0 <= k < |PoiDurationRules| ==>
        PoiDurationRules[k].1 in {"2-3 hours", "3-4 hours", "30 minutes"};
      assert "museums" in labels.value ==> FirstHit(PoiDurationRules, labels.value, 0);
      FirstRule(PoiDurationRules, labels.value, "1-2 hours")
  }

  /** The labels `determinePOIType` tests, in order, with the type each gives. */
  const PoiTypeRules: seq<(string, string)> := [
    ("museums", "museum"), ("natural", "nature"), ("beaches", "beach"),
    ("amusement_parks", "amusement_park"), ("monuments", "monument"), ("historic", "historic"),
    ("cultural", "cultural"), ("shopping", "shopping"), ("nightlife", "nightlife"), ("foods", "food")
  ]

  /** `determinePOIType`: the first matching rule, else "attraction". */
  function DeterminePoiType(labels: seq<string>): (r: string)
    ensures "museums" in labels ==> r == "museum"
    ensures r == "attraction" <==> forall k :: 0 <= k < |PoiTypeRules| ==> PoiTypeRules[k].0 !in labels
    ensures forall k :: FirstHit(PoiTypeRules, labels, k) ==> r == PoiTypeRules[k].1
  {
    var r := FirstRule(PoiTypeRules, labels, "attraction");
    assert forall k :: 0 <= k < |PoiTypeRules| ==> PoiTypeRules[k].1 != "attraction";
    assert "museums" in labels ==> FirstHit(PoiTypeRules, labels, 0);
    r
  }

  /** A normalised Triposo point of interest. */
  datatype Attraction = Attraction(
    id: string, name: string, description: string, kind: string, estimatedCost: int,
    estimatedDuration: string, imageUrl: string, score: Option<real>, tags: seq<string>)

  function ToAttraction(p: Record): (a: Attraction)
    ensures a.description == OrString(p.snippet, OrString(p.intro, "A popular attraction"))
    ensures a.tags == p.tagLabels.GetOr([])
    ensures a.estimatedCost == PoiCost(p.priceTier) && a.estimatedDuration == PoiDuration(p.tagLabels)
    ensures a.kind == DeterminePoiType(p.tagLabels.GetOr([]))
  {
    Attraction(p.id, p.name, OrString(p.snippet, OrString(p.intro, "A popular attraction")),
               DeterminePoiType(p.tagLabels.GetOr([])), PoiCost(p.priceTier), PoiDuration(p.tagLabels),
               FirstImage(p.images, DefaultPoiImage), p.score, p.tagLabels.GetOr([]))
  }

  /** `processTriposoPOIs`: one attraction per record, in order. */
  function ProcessPois(ps: seq<Record>): (r: seq<Attraction>)
    ensures |r| == |ps|
    ensures forall k :: 0 <= k < |r| ==> r[k] == ToAttraction(ps[k]) && r[k].name == ps[k].name
  {
    seq(|ps|, k requires 0 <= k < |ps| => ToAttraction(ps[k]))
  }

  /** The nightly price of price tiers 1..5, cheapest first. */
  const LodgingPrices: seq<int> := [30, 60, 120, 200, 350]

  /** Processing a concatenation processes each part. */
  lemma ProcessPoisAppend(a: seq<Record>, b: seq<Record>)
    ensures ProcessPois(a + b) == ProcessPois(a) + ProcessPois(b)
  {
    var l, r := ProcessPois(a + b), ProcessPois(a) + ProcessPois(b);
    assert |l| == |r|;
    forall k | 0 <= k < |l| ensures l[k] == r[k] {
      if k < |a| { assert (a + b)[k] == a[k]; } else { assert (a + b)[k] == b[k - |a|]; }
    }
  }

  /** A hotel's nightly price: the price of its tier 1..5, otherwise the
      requested tier's (budget 50, luxury 250, else 100). */
  function LodgingCost(tier: Option<int>, kind: string): (r: int)
    ensures tier.Some? && 1 <= tier.value <= 5 ==> r == LodgingPrices[tier.value - 1]
    ensures tier.None? || tier.value < 1 || tier.value > 5 ==>
      r == (if kind == "budget" then 50 else if kind == "luxury" then 250 else 100)
  {
    var byKind := if kind == "budget" then 50 else if kind == "luxury" then 250 else 100;
    if tier.None? then byKind
    else match tier.value
      case 1 => 30
      case 2 => 60
      case 3 => 120
      case 4 => 200
      case 5 => 350
      case _ => byKind
  }

  /** The rating before formatting: half the score clamped to [1, 5], or 3.5
      when the score is missing or zero. */
  function RatingValue(score: Option<real>): (r: real)
    ensures 1.0 <= r <= 5.0
    ensures score.Some? && score.value != 0.0 && 2.0 <= score.value <= 10.0 ==> r == score.value / 2.0
    ensures score.None? || score.value == 0.0 ==> r == 3.5
    ensures score.Some? && score.value > 10.0 ==> r == 5.0
    ensures score.Some? && score.value != 0.0 && score.value < 2.0 ==> r == 1.0
  {
    if score.Some? && score.value != 0.0 then
      var half := score.value / 2.0;
      if half > 5.0 then 5.0 else if half < 1.0 then 1.0 else half
    else 3.5
  }

  /** A normalised Triposo hotel; the rating is text with one decimal. */
  datatype Lodging = Lodging(
    id: string, name: string, description: string, costPerNight: int, rating: string,
    imageUrl: string, kind: string)

  function ToLodging(a: Record, kind: string): (l: Lodging)
    ensures l.description == OrString(a.snippet, OrString(a.intro, "A comfortable place to stay"))
    ensures l.costPerNight == LodgingCost(a.priceTier, kind) && l.kind == kind
    ensures l.rating == ToFixed1(RatingValue(a.score))
  {
    Lodging(a.id, a.name, OrString(a.snippet, OrString(a.intro, "A comfortable place to stay")),
            LodgingCost(a.priceTier, kind), ToFixed1(RatingValue(a.score)),
            FirstImage(a.images, DefaultLodgingImage), kind)
  }

  /** `processTriposoAccommodations`: one hotel per record, in order. */
  function ProcessAccommodations(as_: seq<Record>, kind: string): (r: seq<Lodging>)
    ensures |r| == |as_|
    ensures forall k :: 0 <= k < |r| ==> r[k] == ToLodging(as_[k], kind)
  {
    seq(|as_|, k requires 0 <= k < |as_| => ToLodging(as_[k], kind))
  }

  /** The rating text reads back as the nearest tenth of the clamped rating,
      so it stays within [1, 5]. */
  lemma RatingTextReadsBack(score: Option<real>)
    ensures ParseFloat(ToFixed1(RatingValue(score))).Some?
    ensures var x := ParseFloat(ToFixed1(RatingValue(score))).value;
      1.0 <= x <= 5.0 && x - 0.05 <= RatingValue(score) < x + 0.05
  {
    var v := RatingValue(score);
    var n := RoundReal(v * 10.0);
    assert 10 <= n <= 50;
    ToFixed1ReadsBack(v, n);
  }

  /** A raw Triposo tour. */
  datatype TourRecord = TourRecord(
    id: string, name: string, intro: Option<string>, images: Option<seq<string>>,
    priceAmount: Option<real>, duration: Option<string>, bookingInfo: Option<string>,
    vendor: Option<string>)

  datatype Tour = Tour(
    id: string, name: string, description: string, cost: real, duration: string,
    imageUrl: string, bookingInfo: Option<string>, vendor: Option<string>)

  /** A truthy optional string, otherwise `null`. */
  function Truthy(o: Option<string>): (r: Option<string>)
    ensures r.Some? <==> o.Some? && o.value != ""
    ensures r.Some? ==> r == o
  {
    if o.Some? && o.value != "" then o else None
  }

  function ToTour(t: TourRecord): (u: Tour)
    ensures u.cost == (if t.priceAmount.Some? && t.priceAmount.value != 0.0 then t.priceAmount.value else 0.0)
    ensures u.duration == OrString(t.duration, "2-3 hours")
    ensures u.description == OrString(t.intro, "An exciting tour experience")
  {
    Tour(t.id, t.name, OrString(t.intro, "An exciting tour experience"),
         if t.priceAmount.Some? && t.priceAmount.value != 0.0 then t.priceAmount.value else 0.0,
         OrString(t.duration, "2-3 hours"), FirstImage(t.images, DefaultPoiImage),
         Truthy(t.bookingInfo), Truthy(t.vendor))
  }

  /** `processTriposoTours`: one tour per record, in order. */
  function ProcessTours(ts: seq<TourRecord>): (r: seq<Tour>)
    ensures |r| == |ts|
    ensures forall k :: 0 <= k < |r| ==> r[k] == ToTour(ts[k])
  {
    seq(|ts|, k requires 0 <= k < |ts| => ToTour(ts[k]))
  }

  /** Processing a concatenation processes each part. */
  lemma ProcessToursAppend(a: seq<TourRecord>, b: seq<TourRecord>)
    ensures ProcessTours(a + b) == ProcessTours(a) + ProcessTours(b)
  {
    var l, r := ProcessTours(a + b), ProcessTours(a) + ProcessTours(b);
    assert |l| == |r|;
    forall k | 0 <= k < |l| ensures l[k] == r[k] {
      if k < |a| { assert (a + b)[k] == a[k]; } else { assert (a + b)[k] == b[k - |a|]; }
    }
  }
}

=== FILE: wrappers.dfy ===
/** Failure-compatible wrapper used throughout the model: `None` stands for a
    JavaScript `undefined`/`null`, and, for numbers, for `NaN`. */
module Wrappers {

  datatype Option<+T> = None | Some(value: T) {

    /** Returns the wrapped value, or `default` when there is none. */
    function GetOr(default: T): T {
      match this
      case Some(v) => v
      case None => default
    }
  }

  /** `o || fallback` for an optional string: a missing or empty string gives
      `fallback`. */
  function OrString(o: Option<string>, fallback: string): (r: string)
    ensures o.Some? && o.value != "" ==> r == o.value
    ensures o.None? || o.value == "" ==> r == fallback
  {
    if o.Some? && o.value != "" then o.value else fallback
  }
}

=== FILE: yelp.dfy ===
/** The Yelp normaliser: the search parameters of a food tier and the mapping
    of businesses to food places. The HTTP answers are inputs. */
module Yelp {
  import opened Wrappers
  import opened Strings

  /** The search location: "city, country" when a country is given, the
      same text the Geoapify and OpenTripMap adapters build. */
  function Location(city: string, country: Option<string>): (r: string)
    ensures country.Some? && country.value != "" ==> r == city + ", " + country.value
    ensures country.None? || country.value == "" ==> r == city
  {
    if country.Some? && country.value != "" then city + ", " + country.value else city
  }

  /** The price levels searched for a tier. */
  function PriceFilter(tier: string): (r: string)
    ensures tier == "budget" ==> r == "1,2"
    ensures tier == "fine" ==> r == "3,4"
    ensures tier != "budget" && tier != "fine" ==> r == "1,2,3"
  {
    match tier
    case "budget" => "1,2"
    case "fine" => "3,4"
    case _ => "1,2,3"
  }

  /** The categories searched: gourmet only for fine dining. */
  function CategoryFilter(tier: string): (r: string)
    ensures r == "restaurants,gourmet" <==> tier == "fine"
    ensures tier != "fine" ==> r == "restaurants"
  {
    if tier == "fine" then "restaurants,gourmet" else "restaurants"
  }

  /** `n` dollar signs. */
  function Dollars(n: nat): (r: string)
    ensures |r| == n
    ensures forall i :: 0 <= i < n ==> r[i] == '$'
  {
    if n == 0 then "" else "$" + Dollars(n - 1)
  }

  /** A meal's cost: from the price level when there is one ($ 10, $$ 20,
      $$$ 40, $$$$ 80, anything else 20), otherwise from the tier (budget 10,
      fine 60, else 20). */
  function Cost(price: Option<string>, tier: string): (r: int)
    ensures price.Some? && price.value != "" ==> r in {10, 20, 40, 80}
    ensures price == Some("$") ==> r == 10
    ensures price == Some("$$") ==> r == 20
    ensures price == Some("$$$") ==> r == 40
    ensures price == Some("$$$$") ==> r == 80
    ensures price.Some? && price.value != "" && price.value !in {"$", "$$", "$$$", "$$$$"} ==> r == 20
    ensures price.None? || price.value == "" ==> r == (if tier == "budget" then 10 else if tier == "fine" then 60 else 20)
  {
    if price.Some? && price.value != "" then
      match price.value
      case "$" => 10
      case "$$" => 20
      case "$$$" => 40
      case "$$$$" => 80
      case _ => 20
    else if tier == "budget" then 10
    else if tier == "fine" then 60
    else 20
  }

  /** Each extra dollar sign doubles the cost, from 10 up to 80, whatever the
      tier. */
  lemma CostDoublesPerDollar(n: nat, tier: string)
    requires 1 <= n <= 3
    ensures Cost(Some(Dollars(n + 1)), tier) == 2 * Cost(Some(Dollars(n)), tier)
    ensures Cost(Some(Dollars(1)), tier) == 10
  {
    assert Dollars(1) == "$";
    assert Dollars(2) == "$$";
    assert Dollars(3) == "$$$";
    assert Dollars(4) == "$$$$";
  }

  /** One business of the search answer; `categories` holds the category
      titles. */
  datatype Business = Business(
    id: string, name: string, price: Option<string>, categories: Option<seq<string>>,
    rating: real, reviewCount: int, imageUrl: Option<string>, displayAddress: seq<string>,
    phone: string, url: string, lat: real, lon: real)

  /** A normalised restaurant; `kind` is the requested tier. */
  datatype Restaurant = Restaurant(
    id: string, name: string, description: string, kind: string, cost: int, rating: real,
    reviewCount: int, imageUrl: string, address: string, phone: string, lat: real, lon: real,
    yelpUrl: string, categories: Option<seq<string>>)

  const DefaultImage: string := "https://images.unsplash.com/photo-1517248135467-4c7edcad34c4"

  /** The description: the first category's title + " restaurant", else
      "Local cuisine restaurant". */
  function Description(categories: Option<seq<string>>): (r: string)
    ensures categories.Some? && |categories.value| > 0 ==> r == categories.value[0] + " restaurant"
    ensures categories.None? || |categories.value| == 0 ==> r == "Local cuisine restaurant"
  {
    if categories.Some? && |categories.value| > 0 then categories.value[0] + " restaurant"
    else "Local cuisine restaurant"
  }

  function ToRestaurant(b: Business, tier: string): (r: Restaurant)
    ensures r.kind == tier && r.cost == Cost(b.price, tier) && r.description == Description(b.categories)
    ensures r.imageUrl == OrString(b.imageUrl, DefaultImage)
    ensures forall k :: 0 <= k < |b.displayAddress| ==> Contains(r.address, b.displayAddress[k])
  {
    var address := Join(b.displayAddress, ", ");
    forall k | 0 <= k < |b.displayAddress| ensures Contains(address, b.displayAddress[k]) {
      JoinContainsPart(b.displayAddress, ", ", k);
    }
    Restaurant(b.id, b.name, Description(b.categories), tier, Cost(b.price, tier), b.rating,
               b.reviewCount, OrString(b.imageUrl, DefaultImage), address, b.phone,
               b.lat, b.lon, b.url, b.categories)
  }

  /** `processYelpRestaurants`: one restaurant per business, in order. */
  function ProcessRestaurants(bs: seq<Business>, tier: string): (r: seq<Restaurant>)
    ensures |r| == |bs|
    ensures forall k :: 0 <= k < |r| ==> r[k] == ToRestaurant(bs[k], tier) && r[k].kind == tier
  {
    seq(|bs|, k requires 0 <= k < |bs| => ToRestaurant(bs[k], tier))
  }
}
